=== FILE: README.md ===
# Galileo chat engine — a Dafny model

Galileo is a retrieval-augmented chat application. A chat runs a *workflow*:
an ordered list of steps, each bound to a *workspace*. A `REQUEST_RESPONSE`
step asks the model to rewrite or answer the question. A `DATA_SEARCH` step
retrieves documents from its workspace's corpus and answers from them. A
`ROUTER` step asks the model to pick a route and splices the chosen sub-step
into the list right after itself, so the list grows while it is walked.

This project models the core of that system:

- the SDK's step walk (`ChatEngineChain._call`) and document rendering;
- step compilation, the engine façade, the retriever, and model-context
  resolution;
- the DynamoDB key codec and the workspace and workflow tables, each seen
  as a map;
- the inference handler's workflow construction and response shaping, and
  the corpus pipeline's start task;
- the website's pure logic: the in-progress message reducer, batching and
  pagination, feature flags, list editors, forms and preview dispatch.

The model is written as pure functions over immutable datatypes. JavaScript
values are `JsonValue.Value`, and an object is a `map<string, Value>`. Every
collaborator that does I/O is a function-typed parameter: the LLM, the HTTP
fetch, the JSON parser and printer, the model inventory, the DynamoDB client,
uuid generation and the clock.

Modules follow the source files: `Chain`, `ChainProperties`, `StuffDocuments`,
`WorkflowTypes`, `WorkflowHelper`, `Engine`, `Search`, `Context`,
`ModelTypes`, `DdbTypes`, `DdbUtil`, `EntityStore`, `WorkspaceStore`,
`WorkflowStore`, `WorkflowBuilder`, `CreateMessage`, `CompactClone`,
`PipelineStart`, `WsChats`, `WorkspacesHooks`, `Flags`, `RouterSelect`,
`SequenceEditor`, `WorkflowForm`, `WorkspaceForm`, `CodeEditor` and
`DocumentPreview`. A few shared helpers live in `Wrappers`, `Strings`,
`Lists` and `JsonValue`.

## Model

| member | source | states |
|---|---|---|
| Chain.OutputKey | packages/galileo-sdk/src/chat/chain.ts:119 | a request/response step writes `text` exactly when it is the last step of the list as it stands now, and `question` otherwise |
| Chain.RequestResponseInput | packages/galileo-sdk/src/chat/chain.ts:101-104 | the step input is the whole state, with `chat_history` defaulting to `[]` when it is missing or nullish |
| Chain.RunRequestResponse | packages/galileo-sdk/src/chat/chain.ts:100-122 | the completion lands under the output key as a string; every other key of the state is kept; a model failure fails the step |
| Chain.AnswerFromDocuments | packages/galileo-sdk/src/chat/chain.ts:135-142 | after a search, `input_documents` holds exactly the found documents and `text` the answer; `question` becomes the answer only when that is non-empty; other keys are untouched |
| Chain.RunDataSearch | packages/galileo-sdk/src/chat/chain.ts:134-142 | the retriever is queried with the current `question`; a retrieval failure fails the step; once retrieval succeeds, the step fails exactly when rendering the documents into the prompt or the model call fails; the documents kept are exactly those retrieved, and the answer is the model's reply to the prompt holding them |
| Chain.FindRoute | packages/galileo-sdk/src/chat/chain.ts:159 | a route is found exactly when its key is among the router's keys, and the first entry with that key is taken |
| Chain.RunRouter | packages/galileo-sdk/src/chat/chain.ts:146-170 | the routed step is spliced in at i+1; a missing or falsy route value fails with the format message; an unknown value fails with a message listing the valid keys; `question` keeps its value from before the step |
| Chain.RouterSplice | packages/galileo-sdk/src/chat/chain.ts:166 | the list grows by exactly one; the routed step sits at i+1; steps up to i keep their places and later steps shift by one |
| Chain.ExecStep | packages/galileo-sdk/src/chat/chain.ts:96-172 | one visit never changes the visited prefix; only a router changes the list (by one step); only a search changes the documents, and a search replaces them with exactly what its retriever found, whatever came before; the remaining tree size strictly drops, so the walk terminates |
| Chain.Run | packages/galileo-sdk/src/chat/chain.ts:96-173 | the walk from step i keeps the steps before i and never shortens the list; at the end of the list it returns the state as it is |
| Chain.RouterShrinksRemainder | packages/galileo-sdk/src/chat/chain.ts:166 | after a splice, less work remains after i than there was from i, because the routed tree is a proper part of the router's tree |
| Chain.CallChain | packages/galileo-sdk/src/chat/chain.ts:82-342 | a missing question or chat-history key fails before any step runs; on success the result is the final state (plus `sourceDocuments` when asked), and the trace records the original question, the final state and the documents |
| Chain.Call | packages/galileo-sdk/src/chat/chain.ts:82-342 | the loop over the growing step list computes exactly the recursive walk `CallChain` |
| ChainProperties.RunVisitsEveryStep | packages/galileo-sdk/src/chat/chain.ts:96-173 | a successful walk visits every step of the final list once, and the list grew by one step per router visited |
| ChainProperties.RunDocsAreLastSearch | packages/galileo-sdk/src/chat/chain.ts:134 | the documents at the end of a walk are what the retriever of the last search visited found (recorded from the retriever, not from the walk), or the starting ones if there was none; they are not accumulated |
| ChainProperties.OnlyLastVisitAnswers | packages/galileo-sdk/src/chat/chain.ts:119-121 | in a successful walk a request/response step answers into `text` if and only if it is the last visit |
| ChainProperties.LastVisitAnswers | packages/galileo-sdk/src/chat/chain.ts:96-173 | every successful walk over at least one step ends with a string under `text` |
| ChainProperties.SourceDocumentsAreLastSearch | packages/galileo-sdk/src/chat/chain.ts:324-339 | the returned and traced `sourceDocuments` are what the last search's retriever found, and empty when there was none |
| ChainProperties.EmptyWorkflowEchoesInput | packages/galileo-sdk/src/chat/chain.ts:92-94 | a workflow with no steps returns its input values unchanged, plus an empty `sourceDocuments` when asked |
| StuffDocuments.DocumentName | packages/galileo-sdk/src/chat/stuff-documents-metadata-chain.ts:33-39 | there is no name for a missing or empty location; a truthy non-string location throws; otherwise the name is the suffix after the last '/' and holds no '/' |
| StuffDocuments.DisplayName | packages/galileo-sdk/src/chat/stuff-documents-metadata-chain.ts:20-22 | the file name when there is one, else `Document N` with N = index + 1, else `Document ` with no index |
| StuffDocuments.RenderDocument | packages/galileo-sdk/src/chat/stuff-documents-metadata-chain.ts:8-31 | the metadata block, ", ", then the content block, both under the same name, with the fixed separators |
| StuffDocuments.RenderBlocks | packages/galileo-sdk/src/chat/stuff-documents-metadata-chain.ts:15-17 | document i is rendered with index i, in input order, one block per document |
| StuffDocuments.RenderDocumentContent | packages/galileo-sdk/src/chat/stuff-documents-metadata-chain.ts:19-24 | fails exactly when the display name does; otherwise starts with the name and holds the page content verbatim between the triple-quote lines |
| StuffDocuments.RenderDocumentMetadata | packages/galileo-sdk/src/chat/stuff-documents-metadata-chain.ts:26-31 | fails exactly when the display name does; otherwise starts with the name and ends with the serialised metadata |
| StuffDocuments.RenderDocuments | packages/galileo-sdk/src/chat/stuff-documents-metadata-chain.ts:15-17 | succeeds iff every document i renders with index i; no documents give "", one gives its own block |
| StuffDocuments.RenderDocumentsShape | packages/galileo-sdk/src/chat/stuff-documents-metadata-chain.ts:15-17 | several documents render as the first block, a blank line, then the rest joined the same way |
| StuffDocuments.PrepInputs | packages/galileo-sdk/src/chat/stuff-documents-metadata-chain.ts:41-51 | a missing documents key fails with its message; otherwise that key is dropped, every other key is kept and the rendering is added under the document variable |
| StuffDocuments.CustomPrepInputs | packages/galileo-sdk/src/chat/chain.ts:361-371 | the base preparation's keys are kept and the raw documents are added under `<variable>_documents` unless the base already sets that key |
| WorkflowTypes.RouteKeys | packages/galileo-sdk/src/chat/workflow/types.ts:22-26 | the key list of a route table, in entry order |
| WorkflowTypes.RouteSmaller | packages/galileo-sdk/src/chat/workflow/types.ts:45-46 | every compiled route is a strictly smaller tree than its router |
| WorkflowTypes.TotalAppend | packages/galileo-sdk/src/chat/workflow/types.ts:54-56 | the size of a step list is additive over concatenation |
| WorkflowHelper.PromptFromStep | packages/galileo-sdk/src/chat/workflow/helper.ts:17-37 | the prompt class is chosen by step type, in both directions, and carries the step's template and substitutions |
| WorkflowHelper.BuildFromStep | packages/galileo-sdk/src/chat/workflow/helper.ts:40-70 | a compiled step keeps its source step, searches its own workspace, and is prompted for its type; router routes compile recursively under the same keys; its context holds the model info resolved from the step's model id and is the context built from it with the step's options; a failed model resolution, or a router without `routes`, fails |
| WorkflowHelper.BuildRoutes | packages/galileo-sdk/src/chat/workflow/helper.ts:55-67 | each route is compiled in order under its own key |
| WorkflowHelper.EmptyRoutesCompile | packages/galileo-sdk/src/chat/workflow/helper.ts:53-69 | a router with an empty route table compiles, with no routes |
| Engine.EngineBuildOptions | packages/galileo-sdk/src/chat/engine.ts:42-51 | `maxNewTokens` defaults to 500 and `verbose` to the DEBUG log level; the search options pass through |
| Engine.CompileSteps | packages/galileo-sdk/src/chat/engine.ts:53-64 | one compiled step per configured step, same order; it succeeds if and only if every step compiles |
| Engine.From | packages/galileo-sdk/src/chat/engine.ts:41-125 | the compiled workflow mirrors the configuration; the history limit is 20; trace data and streaming are off unless set |
| Engine.ResolveTraceData | packages/galileo-sdk/src/chat/engine.ts:146-158 | `{chatId, userId}` overlaid by the chain trace, later keys winning; a failure to read the trace yields `{__resolveTraceError: message}` |
| Engine.Query | packages/galileo-sdk/src/chat/engine.ts:132-144 | the input string comes back as `question` and the chain's `text` as `answer`; trace data only when enabled; it fails exactly when the chain fails |
| Search.NewSearchRetriever | packages/galileo-sdk/src/chat/search.ts:35-50 | the url is `baseUrl + "workspace/" + id + "/search"`; `k` is `limit ?? 5`; filter and model key pass through |
| Search.SearchUrlInjective | packages/galileo-sdk/src/chat/search.ts:41 | distinct workspaces get distinct search urls |
| Search.CreateJsonBody | packages/galileo-sdk/src/chat/search.ts:52-65 | the body always holds query and `k`; `filter` only when configured; `modelRefKey` only when configured and non-empty; nothing else |
| Search.ResponseError | packages/galileo-sdk/src/chat/search.ts:87-104 | status and status text are kept; the message is the body text, or `String(error)` when the body cannot be read |
| Search.ProcessJsonResponse | packages/galileo-sdk/src/chat/search.ts:83 | a nullish response fails; `documents` that is not an array fails; otherwise it succeeds iff no item is nullish, giving one document per item with `pageContent` read as a string ("" when missing) and `metadata` defaulting to `{}` |
| Search.GetRelevantDocuments | packages/galileo-sdk/src/chat/search.ts:67-84 | a non-ok response fails with the url, status and status text, and yields no documents |
| Context.DeepMerge | packages/galileo-sdk/src/chat/context.ts:54 | a deep merge keeps every key of both objects, and the override's values win at every depth |
| Context.ResolveModelInfo | packages/galileo-sdk/src/chat/context.ts:36-57 | a '{' string is parsed first (a parse failure fails); a null reference fails; an object or array without a truthy uuid is returned as is; every other reference fails exactly when the inventory lookup of its uuid (the string, the object's `uuid`, or `undefined` for the default) fails; a non-object reference resolves to the inventory's entry; an object reference (given or parsed) is deep-merged over that entry: it covers every property the reference sets, and keeps the entry's properties it does not override |
| Context.ResolveWithoutUuidSkipsInventory | packages/galileo-sdk/src/chat/context.ts:45-49 | resolving an object without uuid does not depend on the inventory |
| Context.NewContext | packages/galileo-sdk/src/chat/context.ts:67-131 | a SageMaker framework gets an endpoint client and a Bedrock one a Bedrock client; any other framework fails "not supported" |
| Context.SageMakerKwargsPrecedence | packages/galileo-sdk/src/chat/context.ts:82-89 | an option kwarg overrides the framework default key by key |
| Context.BedrockKwargsPrecedence | packages/galileo-sdk/src/chat/context.ts:108-114 | precedence is defaults < framework `modelKwargs` < option `endpointKwargs` < option `modelKwargs` |
| ModelTypes.IsSageMakerEndpointFramework | packages/galileo-sdk/src/models/types.ts:103-107 | true iff the tag is `SageMakerEndpoint`; false for a missing framework |
| ModelTypes.IsBedrockFramework | packages/galileo-sdk/src/models/types.ts:109-111 | true iff the tag is `Bedrock`; false for a missing framework; never together with the SageMaker guard |
| ModelTypes.IsManagedDefaultFramework | packages/galileo-sdk/src/models/types.ts:99-101 | agrees with the SageMaker guard on every input |
| ModelTypes.GuardsMatchTag | packages/galileo-sdk/src/models/types.ts:9-42 | on a typed framework the guards read back exactly its tag |
| DdbUtil.GenerateNextToken | packages/galileo-sdk/src/chat/dynamodb/lib/util.ts:16-18 | the token is the four key parts joined by '\|', and splitting it at '\|' gives them back when none holds a '\|' |
| DdbUtil.ParseNextToken | packages/galileo-sdk/src/chat/dynamodb/lib/util.ts:20-28 | the first part is always present; a token without '\|' parses as PK only |
| DdbUtil.TokenRoundTrip | packages/galileo-sdk/src/chat/dynamodb/lib/util.ts:16-28 | parsing a generated token gives back all four string parts when none holds '\|' |
| DdbUtil.TokenLosesSortKeyType | packages/galileo-sdk/src/chat/dynamodb/lib/util.ts:16-28 | a missing `GSI1SK` comes back as the string "undefined", and a numeric one as its decimal string |
| DdbUtil.ChatKey | packages/galileo-sdk/src/chat/dynamodb/lib/util.ts:30-35 | PK is the user; SK is `CHAT#` followed by the chat id, or by '' when there is none |
| DdbUtil.ChatsByTimeKey | packages/galileo-sdk/src/chat/dynamodb/lib/util.ts:37-42 | `GSI1PK = userId#CHAT`; `GSI1SK` is present exactly when the timestamp is truthy |
| DdbUtil.ChatMessageKey | packages/galileo-sdk/src/chat/dynamodb/lib/util.ts:44-49 | SK is `MESSAGE#` followed by the message id, or by '' |
| DdbUtil.ChatMessagesByTimeKey | packages/galileo-sdk/src/chat/dynamodb/lib/util.ts:51-56 | `GSI1PK = userId#CHAT#chatId`; `GSI1SK` is the timestamp, or '' |
| DdbUtil.MessageSourceKey | packages/galileo-sdk/src/chat/dynamodb/lib/util.ts:58-63 | SK is `SOURCE#messageId#sourceKey` |
| DdbUtil.KeyKindsDisjoint | packages/galileo-sdk/src/chat/dynamodb/lib/util.ts:30-63 | chat, message and source keys of one user never collide |
| DdbUtil.ChatKeyInjective | packages/galileo-sdk/src/chat/dynamodb/lib/util.ts:30-35 | distinct chats have distinct keys |
| DdbUtil.DeleteRound | packages/galileo-sdk/src/chat/dynamodb/lib/util.ts:77-96 | a round sends the first min(25, n) queued items; unprocessed items go back in front of the rest |
| DdbUtil.Drain | packages/galileo-sdk/src/chat/dynamodb/lib/util.ts:77-97 | every batch sent is non-empty and at most 25 long; a non-empty leftover means the round bound was used up |
| DdbUtil.BulkDelete | packages/galileo-sdk/src/chat/dynamodb/lib/util.ts:65-98 | the loop sends exactly the batches of `Drain` |
| DdbUtil.CompleteServiceSendsChunks | packages/galileo-sdk/src/chat/dynamodb/lib/util.ts:77-97 | when the service processes everything, the batches are exactly the consecutive 25-item chunks of the keys, in order |
| DdbUtil.GetAllByPagination | packages/galileo-sdk/src/chat/dynamodb/lib/util.ts:100-123 | the result is the pages' items concatenated in page order, with item-less pages skipped |
| DdbUtil.PageItemsHoldEveryPage | packages/galileo-sdk/src/chat/dynamodb/lib/util.ts:116-120 | each page's items appear, in order, right after those of the pages before it |
| EntityStore.GetItem | packages/galileo-sdk/src/chat/dynamodb/lib/workspace.ts:17-28 | the stored item at the id, or nothing iff none is stored |
| EntityStore.BatchGet | packages/galileo-sdk/src/chat/dynamodb/lib/workspace.ts:30-50 | every stored requested item is returned, only stored items are returned, and nothing is returned when none is stored |
| EntityStore.DeleteItem | packages/galileo-sdk/src/chat/dynamodb/lib/workspace.ts:124-134 | only that key is removed, with no existence condition; the old item is returned |
| EntityStore.ListItems | packages/galileo-sdk/src/chat/dynamodb/lib/workspace.ts:116-122 | every stored item is listed, once per key |
| WorkspaceStore.CreateWorkspace | packages/galileo-sdk/src/chat/dynamodb/lib/workspace.ts:52-83 | the input plus the fresh id, the creation time, the owner and `dataImport = NOT_STARTED`; stored under the new id and nothing else changes |
| WorkspaceStore.UpdateWorkspace | packages/galileo-sdk/src/chat/dynamodb/lib/workspace.ts:85-114 | an absent id fails the condition; otherwise only name, description (default ''), prompt, chat model and router definition (default {}) change, and no other entry changes |
| WorkspaceStore.OperationsKeepKeying | packages/galileo-sdk/src/chat/dynamodb/lib/workspace.ts:52-134 | create, update and delete keep every workspace stored under its own id; a created item reads back and a deleted one is gone |
| WorkflowStore.CreateWorkflow | packages/galileo-sdk/src/chat/dynamodb/lib/workflow.ts:29-57 | the input plus the fresh id, the creation time and the owner; stored under the new id and nothing else changes |
| WorkflowStore.UpdateWorkflow | packages/galileo-sdk/src/chat/dynamodb/lib/workflow.ts:59-87 | an absent id fails the condition; otherwise only name, description and definition change |
| WorkflowStore.OperationsKeepKeying | packages/galileo-sdk/src/chat/dynamodb/lib/workflow.ts:29-107 | create, update and delete keep every workflow stored under its own id |
| WorkflowBuilder.GetStepType | demo/infra/src/application/ai/inference-engine/engine/handler/shared/workflow.ts:23-33 | DATA maps to DATA_SEARCH and ROUTER to ROUTER, anything else to REQUEST_RESPONSE, each an if-and-only-if |
| WorkflowBuilder.LocateWorkflow | demo/infra/src/application/ai/inference-engine/engine/handler/shared/workflow.ts:52-68 | a `WORKFLOW` chat needs a stored workflow, else it fails "Unable to locate workflow"; any other chat type gets a wrapper whose only workspace id is the chat's target |
| WorkflowBuilder.WorkspaceIdsOf | demo/infra/src/application/ai/inference-engine/engine/handler/shared/workflow.ts:73 | the ids can be read exactly when the definition is stored |
| WorkflowBuilder.FetchWorkspaces | demo/infra/src/application/ai/inference-engine/engine/handler/shared/workflow.ts:70-74 | the batch get of the definition's ids |
| WorkflowBuilder.LookupAsWritten | demo/infra/src/application/ai/inference-engine/engine/handler/shared/workflow.ts:82-87 | the reduce as written holds only the last workspace, under its id |
| WorkflowBuilder.Lookup | demo/infra/src/application/ai/inference-engine/engine/handler/shared/workflow.ts:82-87 | the intended reduce holds every workspace under its own id |
| WorkflowBuilder.ConvertWorkspace | demo/infra/src/application/ai/inference-engine/engine/handler/shared/workflow.ts:91-101 | id, step type, `chatModel.modelId` and template (or '') are carried over; no routes; it fails iff the chat model is missing |
| WorkflowBuilder.StepsFor | demo/infra/src/application/ai/inference-engine/engine/handler/shared/workflow.ts:106-112 | one converted step per id, in order; it succeeds iff every id is in the lookup with a chat model |
| WorkflowBuilder.Build | demo/infra/src/application/ai/inference-engine/engine/handler/shared/workflow.ts:103-114 | with the intended reduce, one step per workspace id in definition order, and an if-and-only-if for success |
| WorkflowBuilder.LookupOfBatchGet | demo/infra/src/application/ai/inference-engine/engine/handler/shared/workflow.ts:70-87 | the intended lookup over a batch get holds exactly the requested stored ids, each with its stored workspace |
| WorkflowBuilder.BatchGetFrom | packages/galileo-sdk/src/chat/dynamodb/lib/workspace.ts:30-50 | anything a batch get returns is stored under one of the requested ids |
| WorkflowBuilder.RouterWorkspaceCannotCompile | demo/infra/src/application/ai/inference-engine/engine/handler/shared/workflow.ts:91-101 | a ROUTER workspace becomes a router step without routes, which fails to compile |
| WorkflowBuilder.BuildAsWritten | demo/infra/src/application/ai/inference-engine/engine/handler/shared/workflow.ts:80-114 | as written, a missing workflow fails as in the intended build, and a build that succeeds has one step per id with every id the same: only single-workspace workflows build |
| WorkflowBuilder.BuildAsWrittenLosesWorkspaces | demo/infra/src/application/ai/inference-engine/engine/handler/shared/workflow.ts:82-87 | with two distinct workspaces, the build as written fails because the lookup lost the first one |
| WorkflowBuilder.BuildKeepsBothWorkspaces | demo/infra/src/application/ai/inference-engine/engine/handler/shared/workflow.ts:103-114 | with the intended lookup, the same two-workspace workflow builds both steps |
| CreateMessage.SigningService | demo/infra/src/application/ai/inference-engine/engine/handler/shared/create-message.ts:117 | 'lambda' iff the search url contains 'lambda-url', else 'execute-api' |
| CreateMessage.MergeConfig | demo/infra/src/application/ai/inference-engine/engine/handler/shared/create-message.ts:108-111 | system config overridden key by key by the user config |
| CreateMessage.UserConfig | demo/infra/src/application/ai/inference-engine/engine/handler/shared/create-message.ts:101 | the user configuration is empty |
| CreateMessage.SearchOptions | demo/infra/src/application/ai/inference-engine/engine/handler/shared/create-message.ts:124-128 | the configured search settings with the deployment's search url as base |
| CreateMessage.EngineOptionsFor | demo/infra/src/application/ai/inference-engine/engine/handler/shared/create-message.ts:123-139 | ids, workflow, admin-only trace data, streaming and verbosity are passed to the engine |
| CreateMessage.ShapeResponse | demo/infra/src/application/ai/inference-engine/engine/handler/shared/create-message.ts:148-166 | question/answer text from the result, the turn's messages and sources; trace data (with config and configs) only for admins |
| CreateMessage.CreateMessage | demo/infra/src/application/ai/inference-engine/engine/handler/shared/create-message.ts:62-173 | the three table names are checked in order and throw first; an unknown chat gives the "No chat found" error response; build and engine failures propagate; a query failure becomes `{errorMessage}` |
| CreateMessage.TraceDataOnlyForAdmins | demo/infra/src/application/ai/inference-engine/engine/handler/shared/create-message.ts:148-154 | only admins get trace data, and it always carries the config |
| CompactClone.CompactCloneRecord | demo/infra/src/application/ai/inference-engine/engine/handler/shared/create-message.ts:184-192 | exactly the keys with a defined value stay, each value is the pruning of the original (undefined properties removed at every depth, arrays of the same length with each element pruned, other values unchanged), and the result is compact |
| CompactClone.Nested | demo/infra/src/application/ai/inference-engine/engine/handler/shared/create-message.ts:186-191 | the clone is compact and is the pruning of the value: nested defined keys and every array element are kept |
| CompactClone.PrunedIsUnique | demo/infra/src/application/ai/inference-engine/engine/handler/shared/create-message.ts:184-192 | a value has only one pruning, so the pruning relation pins down the clone |
| CompactClone.NestedKeepsCompact | demo/infra/src/application/ai/inference-engine/engine/handler/shared/create-message.ts:184-192 | a value with no undefined property clones to itself |
| CompactClone.CompactCloneIdempotent | demo/infra/src/application/ai/inference-engine/engine/handler/shared/create-message.ts:184-192 | compacting twice is compacting once, and compact values are kept unchanged |
| CompactClone.CompactCloneAsWritten | demo/infra/src/application/ai/inference-engine/engine/handler/shared/create-message.ts:184-192 | as written, the defined keys stay, but no value comes back as an array or `null`: those become objects |
| CompactClone.NestedAsWritten | demo/infra/src/application/ai/inference-engine/engine/handler/shared/create-message.ts:186-191 | as written, the clone is never an array or `null`, and it is an object exactly when the value was an object, an array or `null` |
| CompactClone.CompactCloneAsWrittenReshapes | demo/infra/src/application/ai/inference-engine/engine/handler/shared/create-message.ts:186-191 | as written, `null` comes back as `{}` and an array as an index-keyed object |
| PipelineStart.EmbeddingInfo | demo/infra/src/application/corpus/pipeline/handlers/task/start.ts:93-96 | the embedding model of the workspace's data indexing, or nothing when any level is missing |
| PipelineStart.IdOf | demo/infra/src/application/corpus/pipeline/handlers/task/start.ts:21-22 | reading `Id` fails exactly when the holder is missing |
| PipelineStart.IsRunning | demo/infra/src/application/corpus/pipeline/handlers/task/start.ts:65-90 | the scan reports running iff some listed execution differs from this one; no listing means not running |
| PipelineStart.DerivedEnvironment | demo/infra/src/application/corpus/pipeline/handlers/task/start.ts:45-50 | the three embedding variables are set, the SageMaker models key is removed, and everything else is kept |
| PipelineStart.TaskOutput | demo/infra/src/application/corpus/pipeline/handlers/task/start.ts:59-90 | `{...state, ...overrides}` with the new environment and the running status |
| PipelineStart.MergedEnvironment | demo/infra/src/application/corpus/pipeline/handlers/task/start.ts:26-29 | the state's environment overridden key by key by the input's |
| PipelineStart.Overrides | demo/infra/src/application/corpus/pipeline/handlers/task/start.ts:24 | the execution input when truthy, else `{}` |
| PipelineStart.Start | demo/infra/src/application/corpus/pipeline/handlers/task/start.ts:20-91 | missing ids fail; a missing `WORKSPACE_ID` or embedding info fails with its message; otherwise the output carries the derived environment and the running flag |
| PipelineStart.AloneIsNotRunning | demo/infra/src/application/corpus/pipeline/handlers/task/start.ts:74-83 | an execution alone in the listing is not running; any other listed execution makes it running |
| PipelineStart.StartEnvironment | demo/infra/src/application/corpus/pipeline/handlers/task/start.ts:45-50 | the environment handed on never carries the SageMaker models JSON and always carries the embedding settings |
| WsChats.UseStreaming | demo/website/src/hooks/ws-chats.ts:13-29 | streaming iff the flag is on, the model is Bedrock, and streaming is not switched off; a listed model without a framework throws |
| WsChats.OnStatusUpdate | demo/website/src/hooks/ws-chats.ts:45-81 | other chats are ignored; SUCCESS clears the state; STARTING creates the ai message if needed and sets the human one; updates are recorded only into an existing state |
| WsChats.OtherChatsIgnored | demo/website/src/hooks/ws-chats.ts:46 | a stream of updates for other chats leaves the state unchanged |
| WsChats.RecordedUpdatesGrow | demo/website/src/hooks/ws-chats.ts:47-49 | until a SUCCESS, the recorded updates only grow, and the old ones are kept as a prefix |
| WorkspacesHooks.FetchAll | demo/website/src/hooks/workspaces.ts:24 | every item in request order, or failure iff some fetch fails |
| WorkspacesHooks.FetchAllAppend | demo/website/src/hooks/workspaces.ts:23-25 | fetching a concatenation is fetching each part in turn |
| WorkspacesHooks.BatchGetWorkspaces | demo/website/src/hooks/workspaces.ts:18-33 | fetching in chunks of 10 gives exactly the one-shot fetch of all ids |
| WorkspacesHooks.Entries | demo/website/src/hooks/workspaces.ts:56-60 | the workflows, then the workspaces, each in order |
| WorkspacesHooks.ListPage | demo/website/src/hooks/workspaces.ts:43-61 | a list is fetched iff applicable, with its own token; the combined listing is both lists in order |
| WorkspacesHooks.GetNextPageParam | demo/website/src/hooks/workspaces.ts:64-72 | no next page iff neither token is truthy; otherwise both tokens are passed on |
| WorkspacesHooks.NextPageFetchesOnlyContinuedLists | demo/website/src/hooks/workspaces.ts:44-72 | after a page, a list is fetched again exactly when that page returned a token for it, and with that token |
| Flags.ParseFeatures | demo/website/src/providers/FlagsProvider.tsx:29-43 | no or empty parameter means no override; otherwise exactly the comma-separated names, each on |
| Flags.EnableAll | demo/website/src/providers/FlagsProvider.tsx:34-40 | exactly the listed names, all true |
| Flags.MergeFlags | demo/website/src/providers/FlagsProvider.tsx:45-50 | deployment flags overridden by the URL's |
| Flags.FeatureFlag | demo/website/src/providers/FlagsProvider.tsx:21-24 | a flag is on iff it is present and exactly `true`; a string, number or object value leaves it off |
| Flags.UrlSwitchesOn | demo/website/src/providers/FlagsProvider.tsx:21-50 | a feature named in the URL is on; without the parameter a flag is on iff the deployment sets it to `true` exactly (not merely truthy) |
| RouterSelect.WorkspaceToOption | demo/website/src/components/workspaces/components/WorkspaceRouterSelect.tsx:13-17 | the option is selected by id, shown by name and described by type |
| RouterSelect.SelectedOption | demo/website/src/components/workspaces/components/WorkspaceRouterSelect.tsx:26-50 | an option is shown iff the id is listed, and it is the option of the last listed workspace with that id, as `Object.fromEntries` keeps the last entry |
| RouterSelect.LookupKeepsLast | demo/website/src/components/workspaces/components/WorkspaceRouterSelect.tsx:26-28 | keyed by id, the entry under an id is its last listed workspace: no later workspace has that id |
| RouterSelect.ApplyPatch | demo/website/src/components/workspaces/components/WorkspaceRouterSelect.tsx:31-36 | the patch's fields win and the others are kept |
| RouterSelect.UpdateTarget | demo/website/src/components/workspaces/components/WorkspaceRouterSelect.tsx:31-36 | only target i changes, and it gets the patch merged in |
| RouterSelect.RemoveTarget | demo/website/src/components/workspaces/components/WorkspaceRouterSelect.tsx:63 | exactly target i is removed (as a multiset), the targets before it keep their places, the later ones move down by one in order, and an out-of-range index changes nothing |
| RouterSelect.AddTargetAsWritten | demo/website/src/components/workspaces/components/WorkspaceRouterSelect.tsx:68 | as written, adding fails iff no workspace is listed |
| RouterSelect.AddTarget | demo/website/src/components/workspaces/components/WorkspaceRouterSelect.tsx:68 | a new last target on the first listed workspace, or with an empty id when none is listed |
| RouterSelect.AddTargetOnEmptyListing | demo/website/src/components/workspaces/components/WorkspaceRouterSelect.tsx:68 | the two versions agree whenever a workspace is listed; with none, only the corrected one adds |
| RouterSelect.AddThenRemove | demo/website/src/components/workspaces/components/WorkspaceRouterSelect.tsx:63-68 | adding a target and removing it restores the targets |
| SequenceEditor.SelectStep | demo/website/src/components/workspaces/components/WorkspaceSequenceEditor.tsx:38 | step i takes the chosen id and the others are kept; an index past the end appends the id |
| SequenceEditor.RemoveStep | demo/website/src/components/workspaces/components/WorkspaceSequenceEditor.tsx:45 | exactly step i is removed, and the order is kept |
| SequenceEditor.AddStep | demo/website/src/components/workspaces/components/WorkspaceSequenceEditor.tsx:51 | a new last step on the first listed workspace, or '' when none is listed |
| SequenceEditor.CaretsBetweenSteps | demo/website/src/components/workspaces/components/WorkspaceSequenceEditor.tsx:48 | a caret follows every step but the last |
| SequenceEditor.EditsKeepSequence | demo/website/src/components/workspaces/components/WorkspaceSequenceEditor.tsx:38-51 | adding then removing restores the list, and selecting keeps its length |
| WorkflowForm.InitialState | demo/website/src/components/workflows/WorkflowForm.tsx:18-19 | the workflow's name and ids, or empty; a stored workflow without a definition throws |
| WorkflowForm.IsValid | demo/website/src/components/workflows/WorkflowForm.tsx:32-35 | valid iff the name is non-empty, there is at least one step, and no step id is empty |
| WorkflowForm.Submit | demo/website/src/components/workflows/WorkflowForm.tsx:21-44 | submitting is possible iff the form is valid, and it sends the name and the ids |
| WorkflowForm.SubmitStoreReopen | demo/website/src/components/workflows/WorkflowForm.tsx:18-30 | a submitted workflow, once stored, reopens exactly as it was |
| WorkspaceForm.InitialState | demo/website/src/components/workspaces/WorkspaceForm.tsx:38-62 | the edited workspace's values, its chat model kept as stored (`{}` included), or a DATA workspace with its default prompt and no chat model |
| WorkspaceForm.IsValid | demo/website/src/components/workspaces/WorkspaceForm.tsx:64 | valid iff both the name and the type name are truthy; since every type name is non-empty, iff the name is non-empty |
| WorkspaceForm.SetType | demo/website/src/components/workspaces/WorkspaceForm.tsx:47-52 | the prompt resets to the type's default only when creating; nothing else changes |
| WorkspaceForm.DataFor | demo/website/src/components/workspaces/WorkspaceForm.tsx:78-91 | data settings iff DATA, with '' and 768 as the defaults |
| WorkspaceForm.RouterFor | demo/website/src/components/workspaces/WorkspaceForm.tsx:92-97 | router settings iff ROUTER, holding the targets |
| WorkspaceForm.SubmitAsWritten | demo/website/src/components/workspaces/WorkspaceForm.tsx:75-77 | as written, the type's default prompt is sent whatever was edited |
| WorkspaceForm.Submit | demo/website/src/components/workspaces/WorkspaceForm.tsx:66-98 | sent iff valid: name, description, type, chat model, the edited prompt, and the data/router settings |
| WorkspaceForm.StoreRequest | packages/galileo-sdk/src/chat/dynamodb/lib/workspace.ts:52-83 | a request is stored iff it carries a chat model; the stored workspace has the new id, owner, creation time and a `NOT_STARTED` import, and the request's name, description, type, prompt, chat model, data and router settings |
| WorkspaceForm.SubmitStoreReopen | demo/website/src/components/workspaces/WorkspaceForm.tsx:38-98 | as intended, a stored form reopens with the same name, description, type, prompt and chat model |
| WorkspaceForm.EditedPromptIsLost | demo/website/src/components/workspaces/WorkspaceForm.tsx:75-77 | as written, an edited prompt that differs from the default does not survive store and reopen |
| CodeEditor.ToCodeEditorJson | demo/website/src/utils/codeEditor.ts:5-9 | the default for a missing value, a string as is, anything else printed |
| CodeEditor.FromCodeEditorJson | demo/website/src/utils/codeEditor.ts:11-14 | the default for empty text, otherwise the parse |
| CodeEditor.EditorRoundTrip | demo/website/src/utils/codeEditor.ts:5-14 | a value the printer and parser agree on reads back unchanged |
| DocumentPreview.FileExtension | demo/website/src/components/chat/components/DownloadableSourceDocument.tsx:15-19 | the suffix after the last '.', or the whole path when there is none |
| DocumentPreview.LanguageFor | demo/website/src/components/chat/components/TextDocumentPreview.tsx:32-39 | the mapped language, or "text" |
| DocumentPreview.ChoosePreview | demo/website/src/components/chat/components/DownloadableSourceDocument.tsx:24-30 | PDF preview iff the extension is `pdf`; text preview iff it is a text extension, case-sensitively |
| DocumentPreview.TextPreviewView | demo/website/src/components/chat/components/TextDocumentPreview.tsx:44-55 | the editor iff loading finished with content, in the extension's language; "no preview" iff there is no content and the load failed |
| DocumentPreview.TextExtensionsAreMapped | demo/website/src/components/chat/components/TextDocumentPreview.tsx:29-39 | the text extensions are exactly the mapped ones |
| DocumentPreview.ExtensionAfterLastDot | demo/website/src/components/chat/components/DownloadableSourceDocument.tsx:15-19 | `stem.ext` has extension `ext` |
| DocumentPreview.PreviewOf | demo/website/src/components/chat/components/DownloadableSourceDocument.tsx:15-30 | the preview of `stem.ext` depends only on `ext`: PDF for `pdf`, text for a text extension, none otherwise |
| DocumentPreview.PreviewExamples | demo/website/src/components/chat/components/DownloadableSourceDocument.tsx:15-30 | examples, each for every file stem: `.pdf` gives a PDF, `.tar.gz` gives none, `.sql` gives text, and `.PDF` gives none |

## Left out

- The LLM, the LangChain chain classes and the conversation memory are not modelled. A completion is a function parameter, and the history and the last turn are inputs to `Engine.Query`.
- Handlebars and `PromptTemplate` rendering are not modelled. A prompt is its class, its template text and its partial variables.
- JavaScript numbers are integers here. Floating point, NaN and `String(number)` for non-integers are not modelled.
- Context.DeepMerge: lodash `merge` of arrays (index-wise merge) is approximated by replacement, and prototype and `__proto__` keys are not modelled.
- `Promise.all` rejection order is modelled as the first failure in request order. In `createMessage`, workflows are read before workspaces.
- `Object.keys` order is modelled as insertion order (route tables are sequences). Integer-like keys, which JavaScript orders first, are not special-cased.
- The texts of JavaScript `TypeError`s (reading a property of `undefined`, calling a missing method) are approximations.
- StuffDocuments.PrepInputs: a documents value that is not an array of documents fails as one error; the exact failure inside `Array.map` is not modelled.
- WorkflowHelper.PromptFromStep: the `Unsupported step type` branch cannot be reached, because `StepType` has exactly three values.
- `resolveModelAdapter` and the Bedrock kwarg filtering (`omitManagedBedrockKwargs`) are not modelled. The client is described by its settings.
- `maxNewTokens` is stored in the context but not passed to the model.
- DdbUtil.BulkDelete: the source loops until the service processes everything. The model takes a round bound (`fuel`), and items left after it are returned.
- DynamoDB I/O errors other than a failed update condition are not modelled.
- EntityStore.BatchGet: the order, duplicates and 100-key limit of `BatchGetItem` are not modelled. The result holds the stored requested items, in request order.
- `getPostgresTableNameByWorkspace` is a parameter of the start task.
- The chain's `verbose` flag and all logging and metrics are not modelled.
- Engine.ResolveTraceData: reading the chain trace is given as a result, so the source's `catch` is modelled by its input.
- The stale closure of `useOnUpdateInferenceStatus` (it captures the first `chatId`) is not modelled. The current `chatId` is a parameter.
- The `listMessagesRefetch` call on SUCCESS is not modelled.
- The "Unable to locate all workspaces" check in `getWorkflowAndWorkspaces` (workflow.ts:76-78) is not modelled. A batch get never returns holes, so the check never fires.
- WorkflowBuilder.Build and CreateMessage.CreateMessage require `WorkspaceStore.KeyedById`: every workspace is stored under its own id. The store operations keep this invariant (`WorkspaceStore.OperationsKeepKeying`).
- RouterSelect.UpdateTarget requires `i < |prev|`, because the index always comes from the rendered list of targets.
- PipelineStart.Differs: JavaScript loose equality would coerce a non-string id. Such an id is modelled as different from every listed one.
- WorkflowBuilder.LookupAsWritten: the spread also copies the last workspace's own fields into the lookup. Those entries are not workspaces and are left out, so a workspace id equal to a field name (such as `name`) is not modelled.
- Search.ProcessJsonResponse: `processJsonResponse` is inherited from LangChain's remote retriever, which is not part of this model. It is modelled as the mapping search.ts:83 relies on: `documents` mapped to `pageContent` and `metadata`.
- Chain.RunRouter: a route table is a sequence of own keys, so a routed value naming a member that every JavaScript object inherits (`toString`, `constructor`, `valueOf`, `__proto__`) is an unknown route and fails with "No route found". In chain.ts:159-166 such a lookup is truthy, a function is spliced in as the next step, and the switch at chain.ts:99 (which has no `default`) skips it, so the source goes on. The `ChainProperties` lemmas speak of this model, not of that path.
- CodeEditor.EditorRoundTrip: the round trip is stated for values the given printer and parser agree on; that `JSON.parse` undoes `JSON.stringify` is not proved, since both are parameters.
- WorkspaceForm.StoreRequest: a valid form without a chat model is sent with `chatModel` undefined (the `!` at WorkspaceForm.tsx:74 only silences the type checker). How the workspace API treats such a request, or one with `{}`, is not modelled, so nothing is stored for it.
- The two `Date.now()` calls of the STARTING handler read one clock value.
- The signed fetcher, its credentials and the region are not modelled.
- The `DEFAULT_PROMPTS` texts and the system configuration JSON are parameters. Their contents are not part of this model.
- The shared website types module (`models/types` of the web app) is not part of this model.

## Findings

| source | as written | input that shows it | evidently intended | confidence | as-written member | corrected member |
|---|---|---|---|---|---|---|
| demo/infra/src/application/ai/inference-engine/engine/handler/shared/workflow.ts:82-87 | the reduce returns `{...w, [w.workspaceId]: w}`, spreading the workspace instead of the accumulator, so the lookup holds only the last workspace | a workflow over two stored workspaces `a`, `b`: `workspaces[a]` is undefined and `getStepType` throws reading `type` | `{...acc, [w.workspaceId]: w}`, giving one step per workspace id | not executed | WorkflowBuilder.BuildAsWritten (shown by WorkflowBuilder.BuildAsWrittenLosesWorkspaces) | WorkflowBuilder.Build (with WorkflowBuilder.BuildKeepsBothWorkspaces) |
| demo/infra/src/application/ai/inference-engine/engine/handler/shared/create-message.ts:184-192 | `compactClone` recurses with `omitBy`, which returns a plain object for every `typeof 'object'` value, so `null` becomes `{}` and arrays become index-keyed objects | `{a: null}` gives `{a: {}}`, and `{b: [7]}` gives `{b: {"0": 7}}` | only undefined-valued properties are removed, and every value keeps its shape | not executed | CompactClone.CompactCloneAsWritten (shown by CompactClone.CompactCloneAsWrittenReshapes) | CompactClone.CompactCloneRecord |
| demo/website/src/components/workspaces/WorkspaceForm.tsx:75-77 | `submit` sends `DEFAULT_PROMPTS[type]` instead of the template the user edited | edit the prompt of a REQUEST_RESPONSE workspace and save: the stored prompt is the default | the form's own prompt template is sent | not executed | WorkspaceForm.SubmitAsWritten (shown by WorkspaceForm.EditedPromptIsLost) | WorkspaceForm.Submit (with WorkspaceForm.SubmitStoreReopen) |
| demo/website/src/components/workspaces/components/WorkspaceRouterSelect.tsx:68 | "Add Workspace" reads `allWorkspaces[0].workspaceId`, which throws when no workspace is listed | an empty workspace listing | add an empty target, as the sequence editor does | not executed | RouterSelect.AddTargetAsWritten (shown by RouterSelect.AddTargetOnEmptyListing) | RouterSelect.AddTarget |

=== FILE: chain.dfy ===
/** The workflow walk of `ChatEngineChain._call`
    (packages/galileo-sdk/src/chat/chain.ts). The chain state is a record
    that starts as the input values; the compiled steps are visited in order,
    each merging its output into the state. A router asks the model for a
    route key and splices the routed step in right after itself, so the list
    of steps grows while it is walked. The model, the JSON parser of the
    router's output and the search endpoint are parameters. */
module Chain {
  import opened Wrappers
  import opened Strings
  import opened JsonValue
  import opened Search
  import opened Context
  import opened WorkflowTypes
  import opened StuffDocuments

  /** The collaborators of a walk. `llm(context, values)` is the model's
      completion for the step's prompt filled from `values`. */
  datatype ChainOracles = ChainOracles(
    llm: (EngineContext, Record) -> Result<string>,
    parseJson: string -> Result<Value>,
    stringify: Value -> string,
    fetch: Fetch)

  const QUESTION_KEY: string := "question"
  const CHAT_HISTORY_KEY: string := "chat_history"
  const TEXT_KEY: string := "text"
  const ROUTES_KEY: string := "routes"

  /** Where the walk is: the current (possibly grown) step list, the chain
      state, and the documents of the most recent search. */
  datatype Walk = Walk(steps: seq<CompiledStep>, state: Record, docs: seq<Document>)

  // ---------------------------------------------------------------- REQUEST_RESPONSE

  /** A request/response step answers into `text` when it is the last step of
      the list as it stands now, and rewrites `question` otherwise. */
  function OutputKey(i: nat, steps: seq<CompiledStep>): (k: string)
    ensures k == TEXT_KEY <==> i + 1 == |steps|
    ensures k != TEXT_KEY ==> k == QUESTION_KEY
  {
    if i + 1 == |steps| then TEXT_KEY else QUESTION_KEY
  }

  /** The values a request/response step prompts with: the state, with
      `chat_history` defaulting to an empty list. */
  function RequestResponseInput(state: Record): (input: Record)
    ensures input.Keys == state.Keys + {CHAT_HISTORY_KEY}
    ensures forall k :: k in state && k != CHAT_HISTORY_KEY ==> input[k] == state[k]
    ensures CHAT_HISTORY_KEY in state && !Nullish(state[CHAT_HISTORY_KEY]) ==> input[CHAT_HISTORY_KEY] == state[CHAT_HISTORY_KEY]
    ensures (CHAT_HISTORY_KEY !in state || Nullish(state[CHAT_HISTORY_KEY])) ==> input[CHAT_HISTORY_KEY] == Arr([])
  {
    state[CHAT_HISTORY_KEY := OrElse(Get(state, CHAT_HISTORY_KEY), Arr([]))]
  }

  /** A request/response step: the completion is stored under the output key;
      nothing else in the state changes (the `chat_history` default of the
      prompt input is not kept). */
  function RunRequestResponse(step: CompiledStep, i: nat, steps: seq<CompiledStep>, state: Record, o: ChainOracles): (r: Result<Record>)
    ensures o.llm(step.context, RequestResponseInput(state)).Err? <==> r.Err?
    ensures r.Ok? ==> r.value.Keys == state.Keys + {OutputKey(i, steps)}
    ensures r.Ok? ==> r.value[OutputKey(i, steps)] == Str(o.llm(step.context, RequestResponseInput(state)).value)
    ensures r.Ok? ==> forall k :: k in state && k != OutputKey(i, steps) ==> r.value[k] == state[k]
  {
    var out :- o.llm(step.context, RequestResponseInput(state));
    Ok(state[OutputKey(i, steps) := Str(out)])
  }

  // ---------------------------------------------------------------- DATA_SEARCH

  /** What a search step produced: the new state, the documents found and
      the model's answer. */
  datatype SearchOutcome = SearchOutcome(state: Record, docs: seq<Document>, answer: string)

  /** The state after a search step that found `docs` and answered `answer`:
      the documents under `input_documents`, the answer under `text`, and a
      non-empty answer also as the next `question`. */
  function AnswerFromDocuments(state: Record, docs: seq<Document>, answer: string): (s: Record)
    ensures s.Keys == state.Keys + {DOCUMENTS_INPUT_KEY, TEXT_KEY} + (if answer == "" then {} else {QUESTION_KEY})
    ensures s[DOCUMENTS_INPUT_KEY] == DocsValue(docs) && s[TEXT_KEY] == Str(answer)
    ensures answer != "" ==> s[QUESTION_KEY] == Str(answer)
    ensures answer == "" ==> Get(s, QUESTION_KEY) == Get(state, QUESTION_KEY)
    ensures forall k :: k in state && k != DOCUMENTS_INPUT_KEY && k != TEXT_KEY && k != QUESTION_KEY ==> s[k] == state[k]
  {
    var answered := state[DOCUMENTS_INPUT_KEY := DocsValue(docs)][TEXT_KEY := Str(answer)];
    if answer != "" then answered[QUESTION_KEY := Str(answer)] else answered
  }

  /** The documents a search step's retriever finds for the current
      `question`. */
  function Retrieve(step: CompiledStep, state: Record, o: ChainOracles): Result<seq<Document>>
  {
    GetRelevantDocuments(step.retriever, Get(state, QUESTION_KEY), o.fetch, o.stringify)
  }

  /** The prompt values of a search step: the state with the found documents
      rendered into the document variable. */
  function SearchPrompt(state: Record, docs: seq<Document>, o: ChainOracles): Result<Record>
  {
    PrepInputs(state[DOCUMENTS_INPUT_KEY := DocsValue(docs)], DOCUMENTS_INPUT_KEY, DOCUMENT_VARIABLE_NAME, o.stringify)
  }

  /** A search step: retrieve with the current `question`, then answer from
      the documents rendered into the prompt. */
  function RunDataSearch(step: CompiledStep, state: Record, o: ChainOracles): (r: Result<SearchOutcome>)
    ensures Retrieve(step, state, o).Err? ==> r.Err?
    ensures Retrieve(step, state, o).Ok? ==>
      var prompt := SearchPrompt(state, Retrieve(step, state, o).value, o);
      (r.Err? <==> prompt.Err? || o.llm(step.context, prompt.value).Err?)
    ensures r.Ok? ==> Retrieve(step, state, o).Ok? && r.value.docs == Retrieve(step, state, o).value
    ensures r.Ok? ==>
      var prompt := SearchPrompt(state, r.value.docs, o);
      prompt.Ok? && o.llm(step.context, prompt.value) == Ok(r.value.answer)
    ensures r.Ok? ==> r.value.state == AnswerFromDocuments(state, r.value.docs, r.value.answer)
  {
    var docs :- Retrieve(step, state, o);
    var prompt :- SearchPrompt(state, docs, o);
    var answer :- o.llm(step.context, prompt);
    Ok(SearchOutcome(AnswerFromDocuments(state, docs, answer), docs, answer))
  }

  // ---------------------------------------------------------------- ROUTER

  /** The property of the parsed output holding the route key; a router built
      without `responseRouteKey` reads the property "undefined". */
  function ResponseRouteKey(step: CompiledStep): string
  {
    step.source.responseRouteKey.GetOr("undefined")
  }

  function RoutingErrorMessage(responseRouteKey: string): string
  {
    "Routing error! Response was not of the required output format { \"" + responseRouteKey + "\": \"<routeKey>\" }"
  }

  function NoRouteMessage(value: string, validKeys: seq<string>): string
  {
    "No route found matching \"" + value + "\". Valid routes were: " + Join(validKeys, ", ")
  }

  /** The index of the route stored under `key`. */
  function FindRoute(rs: seq<CompiledRoute>, key: string): (r: Option<nat>)
    ensures r.None? <==> key !in CompiledRouteKeys(rs)
    ensures r.Some? ==> r.value < |rs| && rs[r.value].key == key
    ensures r.Some? ==> forall j :: 0 <= j < r.value ==> rs[j].key != key
  {
    if rs == [] then None
    else if rs[0].key == key then Some(0)
    else
      var rest := FindRoute(rs[1..], key);
      assert CompiledRouteKeys(rs) == [rs[0].key] + CompiledRouteKeys(rs[1..]);
      match rest
      case None => None
      case Some(j) => Some(j + 1)
  }

  /** What a router step produced. */
  datatype RouteOutcome = RouteOutcome(steps: seq<CompiledStep>, state: Record, routeKey: string)

  /** A router step: the completion is parsed; the value under the router's
      response key must be truthy and name a route; the routed step is spliced
      in at i + 1; the parsed output is stored under `routes` and `question`
      keeps its value from before the step. */
  function RunRouter(step: CompiledStep, i: nat, steps: seq<CompiledStep>, state: Record, o: ChainOracles): (r: Result<RouteOutcome>)
    requires i < |steps|
    ensures r.Ok? ==>
      var out := o.llm(step.context, state);
      && out.Ok? && o.parseJson(out.value).Ok?
      && var parsed := o.parseJson(out.value).value;
      && var v := Property(parsed, ResponseRouteKey(step));
      && Truthy(v)
      && r.value.routeKey == ToJsString(v)
      && r.value.state == state[ROUTES_KEY := parsed][QUESTION_KEY := Get(state, QUESTION_KEY)]
    ensures r.Ok? ==>
      var j := FindRoute(step.routes, r.value.routeKey);
      && j.Some?
      && r.value.steps == steps[..i + 1] + [step.routes[j.value].step] + steps[i + 1..]
    ensures var out := o.llm(step.context, state);
      out.Ok? && o.parseJson(out.value).Ok? && !Truthy(Property(o.parseJson(out.value).value, ResponseRouteKey(step))) ==>
        r == Err(RoutingErrorMessage(ResponseRouteKey(step)))
    ensures var out := o.llm(step.context, state);
      out.Ok? && o.parseJson(out.value).Ok? ==>
        var v := Property(o.parseJson(out.value).value, ResponseRouteKey(step));
        Truthy(v) && ToJsString(v) !in CompiledRouteKeys(step.routes) ==>
          r == Err(NoRouteMessage(ToJsString(v), CompiledRouteKeys(step.routes)))
  {
    var out :- o.llm(step.context, state);
    var parsed :- o.parseJson(out);
    var v := Property(parsed, ResponseRouteKey(step));
    if !Truthy(v) then Err(RoutingErrorMessage(ResponseRouteKey(step)))
    else
      var key := ToJsString(v);
      match FindRoute(step.routes, key)
      case None => Err(NoRouteMessage(key, CompiledRouteKeys(step.routes)))
      case Some(j) =>
        Ok(RouteOutcome(steps[..i + 1] + [step.routes[j].step] + steps[i + 1..],
                        state[ROUTES_KEY := parsed][QUESTION_KEY := Get(state, QUESTION_KEY)],
                        key))
  }

  /** The splice of a router: the list grows by exactly one, the routed step
      sits right after the router, and every other step keeps its position
      relative to the router. */
  lemma RouterSplice(step: CompiledStep, i: nat, steps: seq<CompiledStep>, state: Record, o: ChainOracles)
    requires i < |steps|
    requires RunRouter(step, i, steps, state, o).Ok?
    ensures var out := RunRouter(step, i, steps, state, o).value;
      var j := FindRoute(step.routes, out.routeKey).value;
      && |out.steps| == |steps| + 1
      && out.steps[i + 1] == step.routes[j].step
      && (forall k :: 0 <= k <= i ==> out.steps[k] == steps[k])
      && (forall k :: i < k < |steps| ==> out.steps[k + 1] == steps[k])
  {
  }

  // ---------------------------------------------------------------- the walk

  /** Visits step i of the walk. */
  function ExecStep(w: Walk, i: nat, o: ChainOracles): (r: Result<Walk>)
    requires i < |w.steps|
    ensures r.Ok? ==> i < |r.value.steps| && r.value.steps[..i + 1] == w.steps[..i + 1]
    ensures r.Ok? ==> Total(r.value.steps[i + 1..]) < Total(w.steps[i..])
    ensures r.Ok? && w.steps[i].source.stepType != Router ==> r.value.steps == w.steps
    ensures r.Ok? && w.steps[i].source.stepType == Router ==> |r.value.steps| == |w.steps| + 1
    ensures r.Ok? && w.steps[i].source.stepType != DataSearch ==> r.value.docs == w.docs
    ensures r.Ok? && w.steps[i].source.stepType == DataSearch ==>
      Retrieve(w.steps[i], w.state, o).Ok? && r.value.docs == Retrieve(w.steps[i], w.state, o).value
  {
    var step := w.steps[i];
    TotalStep(w.steps, i);
    match step.source.stepType
    case RequestResponse =>
      var state :- RunRequestResponse(step, i, w.steps, w.state, o);
      Ok(Walk(w.steps, state, w.docs))
    case DataSearch =>
      var out :- RunDataSearch(step, w.state, o);
      Ok(Walk(w.steps, out.state, out.docs))
    case Router =>
      var out :- RunRouter(step, i, w.steps, w.state, o);
      RouterShrinksRemainder(step, i, w.steps, out.steps, FindRoute(step.routes, out.routeKey).value);
      Ok(Walk(out.steps, out.state, w.docs))
  }

  /** The remaining work from i is step i's tree plus the rest. */
  lemma TotalStep(steps: seq<CompiledStep>, i: nat)
    requires i < |steps|
    ensures Total(steps[i..]) == Size(steps[i]) + Total(steps[i + 1..])
  {
    assert steps[i..][0] == steps[i];
    assert steps[i..][1..] == steps[i + 1..];
  }

  /** Splicing in a route of the router at i leaves strictly less to walk
      after i than there was from i: the routed tree is a proper part of the
      router's tree. */
  lemma RouterShrinksRemainder(step: CompiledStep, i: nat, steps: seq<CompiledStep>, grown: seq<CompiledStep>, j: nat)
    requires i < |steps| && steps[i] == step && j < |step.routes|
    requires grown == steps[..i + 1] + [step.routes[j].step] + steps[i + 1..]
    ensures Total(grown[i + 1..]) < Total(steps[i..])
  {
    assert grown[i + 1..] == [step.routes[j].step] + steps[i + 1..];
    assert ([step.routes[j].step] + steps[i + 1..])[1..] == steps[i + 1..];
    RouteSmaller(step.routes, j);
    TotalStep(steps, i);
  }

  /** The walk from step i to the end of the (growing) list. It terminates
      because each visit leaves strictly fewer step-tree nodes to walk. */
  function Run(w: Walk, i: nat, o: ChainOracles): (r: Result<Walk>)
    requires i <= |w.steps|
    ensures r.Ok? ==> |w.steps| <= |r.value.steps| && r.value.steps[..i] == w.steps[..i]
    ensures i == |w.steps| ==> r == Ok(w)
    decreases Total(w.steps[i..])
  {
    if i == |w.steps| then Ok(w)
    else
      var next :- ExecStep(w, i, o);
      var rest := Run(next, i + 1, o);
      if rest.Err? then rest
      else
        KeptPrefix(w.steps, next.steps, rest.value.steps, i);
        rest
  }

  /** A prefix kept by one visit and by the walk after it is kept by both. */
  lemma KeptPrefix(before: seq<CompiledStep>, mid: seq<CompiledStep>, after: seq<CompiledStep>, i: nat)
    requires i < |before| <= |mid| <= |after|
    requires mid[..i + 1] == before[..i + 1] && after[..i + 1] == mid[..i + 1]
    ensures after[..i] == before[..i]
  {
    assert after[..i] == after[..i + 1][..i];
    assert before[..i] == before[..i + 1][..i];
  }

  // ---------------------------------------------------------------- _call

  /** The chain's result and the trace data it records. */
  datatype ChainOutput = ChainOutput(values: Record, trace: Record)

  function MissingQuestionMessage(inputKey: string): string
  {
    "Question key " + inputKey + " not found."
  }

  const MISSING_HISTORY_MESSAGE: string := "Chat history key chat_history not found."

  /** `_traceData`. */
  function Trace(question: Value, values: Record, chatHistory: Value, final: Walk): Record
  {
    map["originalQuestion" := question, "chainValues" := Obj(values), "chatHistory" := chatHistory,
        "sourceDocuments" := DocsValue(final.docs), "result" := Obj(final.state)]
  }

  /** `ChatEngineChain._call(values)`: both input keys must be present; the
      walk runs from the input values; the final state is returned, with the
      last search's documents as `sourceDocuments` when asked for. */
  function CallChain(values: Record, workflow: ChatEngineWorkflow, inputKey: string,
                     returnSourceDocuments: bool, o: ChainOracles): (r: Result<ChainOutput>)
    ensures inputKey !in values ==> r == Err(MissingQuestionMessage(inputKey))
    ensures inputKey in values && CHAT_HISTORY_KEY !in values ==> r == Err(MISSING_HISTORY_MESSAGE)
    ensures r.Ok? ==> inputKey in values && CHAT_HISTORY_KEY in values
    ensures r.Ok? ==>
      var final := Run(Walk(workflow.steps, values, []), 0, o);
      && final.Ok?
      && "result" in r.value.trace && "sourceDocuments" in r.value.trace && "originalQuestion" in r.value.trace
      && r.value.trace["result"] == Obj(final.value.state)
      && r.value.trace["sourceDocuments"] == DocsValue(final.value.docs)
      && r.value.trace["originalQuestion"] == values[inputKey]
      && (returnSourceDocuments ==> r.value.values == final.value.state["sourceDocuments" := DocsValue(final.value.docs)])
      && (!returnSourceDocuments ==> r.value.values == final.value.state)
  {
    if inputKey !in values then Err(MissingQuestionMessage(inputKey))
    else if CHAT_HISTORY_KEY !in values then Err(MISSING_HISTORY_MESSAGE)
    else
      var question := values[inputKey];
      var chatHistory := if Truthy(values[CHAT_HISTORY_KEY]) then values[CHAT_HISTORY_KEY] else Arr([]);
      var final :- Run(Walk(workflow.steps, values, []), 0, o);
      var output := if returnSourceDocuments then final.state["sourceDocuments" := DocsValue(final.docs)] else final.state;
      Ok(ChainOutput(output, Trace(question, values, chatHistory, final)))
  }

  /** `_call` as the source writes it: a loop over a step list that may grow
      under it. It computes exactly what `CallChain` describes. */
  method Call(values: Record, workflow: ChatEngineWorkflow, inputKey: string,
              returnSourceDocuments: bool, o: ChainOracles) returns (r: Result<ChainOutput>)
    ensures r == CallChain(values, workflow, inputKey, returnSourceDocuments, o)
  {
    if inputKey !in values {
      return Err(MissingQuestionMessage(inputKey));
    }
    if CHAT_HISTORY_KEY !in values {
      return Err(MISSING_HISTORY_MESSAGE);
    }
    var question := values[inputKey];
    var chatHistory := if Truthy(values[CHAT_HISTORY_KEY]) then values[CHAT_HISTORY_KEY] else Arr([]);
    var w := Walk(workflow.steps, values, []);
    var i: nat := 0;
    while i < |w.steps|
      invariant i <= |w.steps|
      invariant Run(Walk(workflow.steps, values, []), 0, o) == Run(w, i, o)
      decreases Total(w.steps[i..])
    {
      var next := ExecStep(w, i, o);
      if next.Err? {
        return Err(next.error);
      }
      w := next.value;
      i := i + 1;
    }
    var output := if returnSourceDocuments then w.state["sourceDocuments" := DocsValue(w.docs)] else w.state;
    return Ok(ChainOutput(output, Trace(question, values, chatHistory, w)));
  }
}

=== FILE: chain_properties.dfy ===
/** Properties of whole walks of `ChatEngineChain._call`
    (packages/galileo-sdk/src/chat/chain.ts): which visits happen, which
    documents are returned, and which visit answers into `text`. */
module ChainProperties {
  import opened Wrappers
  import opened JsonValue
  import opened WorkflowTypes
  import opened Chain

  /** What one visit did: a request/response step answered under a key, a
      search found documents, a router spliced in a step. */
  datatype Visit = Answered(key: string) | Searched(found: seq<Document>) | Routed(routed: CompiledStep)

  /** The entry of the visit of step i; a search records what the retriever
      found, whatever the walk's documents were before. */
  function VisitOf(w: Walk, i: nat, o: ChainOracles): Visit
    requires i < |w.steps| && ExecStep(w, i, o).Ok?
  {
    var next := ExecStep(w, i, o).value;
    match w.steps[i].source.stepType
    case RequestResponse => Answered(OutputKey(i, w.steps))
    case DataSearch => Searched(Retrieve(w.steps[i], w.state, o).value)
    case Router => Routed(next.steps[i + 1])
  }

  /** The visits of the walk from step i, in order, up to the end or up to
      (excluding) the visit that failed. */
  function Log(w: Walk, i: nat, o: ChainOracles): seq<Visit>
    requires i <= |w.steps|
    decreases Total(w.steps[i..])
  {
    if i == |w.steps| then []
    else
      match ExecStep(w, i, o)
      case Err(_) => []
      case Ok(next) => [VisitOf(w, i, o)] + Log(next, i + 1, o)
  }

  /** How many routers a log visited. */
  function RoutedCount(log: seq<Visit>): nat
  {
    if log == [] then 0 else (if log[0].Routed? then 1 else 0) + RoutedCount(log[1..])
  }

  /** One visit of a successful walk: the walk and its log continue from the
      visited step's result. */
  lemma StepOfRun(w: Walk, i: nat, o: ChainOracles)
    requires i < |w.steps|
    ensures Run(w, i, o).Ok? ==> ExecStep(w, i, o).Ok?
    ensures Run(w, i, o).Ok? ==> var next := ExecStep(w, i, o).value;
      && i + 1 <= |next.steps|
      && Run(w, i, o) == Run(next, i + 1, o)
      && Log(w, i, o) == [VisitOf(w, i, o)] + Log(next, i + 1, o)
  {
  }

  /** What a visit's entry says about the walk after it. */
  lemma VisitFacts(w: Walk, i: nat, o: ChainOracles)
    requires i < |w.steps|
    requires ExecStep(w, i, o).Ok?
    ensures var next := ExecStep(w, i, o).value;
      var v := VisitOf(w, i, o);
      && (v.Searched? ==> next.docs == v.found)
      && (!v.Searched? ==> next.docs == w.docs)
      && (v.Answered? ==> next.steps == w.steps && (v.key == TEXT_KEY <==> i + 1 == |w.steps|))
      && (v.Routed? <==> |next.steps| == |w.steps| + 1)
  {
  }

  /** A successful walk visits every step of the final list exactly once,
      and the list has grown by one step per router visited. */
  lemma {:induction false} RunVisitsEveryStep(w: Walk, i: nat, o: ChainOracles)
    requires i <= |w.steps|
    ensures Run(w, i, o).Ok? ==> i + |Log(w, i, o)| == |Run(w, i, o).value.steps|
    ensures Run(w, i, o).Ok? ==> |Run(w, i, o).value.steps| == |w.steps| + RoutedCount(Log(w, i, o))
    decreases Total(w.steps[i..])
  {
    if i < |w.steps| && Run(w, i, o).Ok? {
      StepOfRun(w, i, o);
      VisitFacts(w, i, o);
      var next := ExecStep(w, i, o).value;
      RunVisitsEveryStep(next, i + 1, o);
      var log := Log(w, i, o);
      assert log[1..] == Log(next, i + 1, o);
    }
  }

  /** `docs` are the documents of the last search in `log`, or `initial`
      when the log holds no search. */
  predicate IsLastSearch(log: seq<Visit>, initial: seq<Document>, docs: seq<Document>)
  {
    && ((forall j :: 0 <= j < |log| ==> !log[j].Searched?) ==> docs == initial)
    && (forall j :: 0 <= j < |log| && log[j].Searched? && (forall k :: j < k < |log| ==> !log[k].Searched?) ==>
          docs == log[j].found)
  }

  /** Prepending a visit: the last search of the rest wins, and the visit
      itself only matters when the rest holds no search. */
  lemma IsLastSearchCons(v: Visit, rest: seq<Visit>, initial: seq<Document>, afterV: seq<Document>, docs: seq<Document>)
    requires v.Searched? ==> afterV == v.found
    requires !v.Searched? ==> afterV == initial
    requires IsLastSearch(rest, afterV, docs)
    ensures IsLastSearch([v] + rest, initial, docs)
  {
    var log := [v] + rest;
    forall j | 0 <= j < |log| && log[j].Searched? && (forall k :: j < k < |log| ==> !log[k].Searched?)
      ensures docs == log[j].found
    {
      LastSearchInCons(v, rest, afterV, docs, j);
    }
    if forall j :: 0 <= j < |log| ==> !log[j].Searched? {
      NoSearchInCons(v, rest);
    }
  }

  /** The last search of `[v] + rest` is `v` itself or the last search of
      `rest`. */
  lemma LastSearchInCons(v: Visit, rest: seq<Visit>, afterV: seq<Document>, docs: seq<Document>, j: nat)
    requires v.Searched? ==> afterV == v.found
    requires IsLastSearch(rest, afterV, docs)
    requires j < |[v] + rest| && ([v] + rest)[j].Searched?
    requires forall k :: j < k < |[v] + rest| ==> !([v] + rest)[k].Searched?
    ensures docs == ([v] + rest)[j].found
  {
    var log := [v] + rest;
    if j == 0 {
      forall k | 0 <= k < |rest|
        ensures !rest[k].Searched?
      {
        assert rest[k] == log[k + 1];
      }
    } else {
      assert rest[j - 1] == log[j];
      forall k | j - 1 < k < |rest|
        ensures !rest[k].Searched?
      {
        assert rest[k] == log[k + 1];
      }
    }
  }

  /** A log without searches has a tail without searches. */
  lemma NoSearchInCons(v: Visit, rest: seq<Visit>)
    requires forall j :: 0 <= j < |[v] + rest| ==> !([v] + rest)[j].Searched?
    ensures !v.Searched?
    ensures forall k :: 0 <= k < |rest| ==> !rest[k].Searched?
  {
    var log := [v] + rest;
    assert log[0] == v;
    forall k | 0 <= k < |rest|
      ensures !rest[k].Searched?
    {
      assert rest[k] == log[k + 1];
    }
  }

  /** The documents a successful walk returns are those of the last search
      it visited, or the ones it started with when it visited none. */
  lemma {:induction false} RunDocsAreLastSearch(w: Walk, i: nat, o: ChainOracles)
    requires i <= |w.steps|
    ensures Run(w, i, o).Ok? ==> IsLastSearch(Log(w, i, o), w.docs, Run(w, i, o).value.docs)
    decreases Total(w.steps[i..])
  {
    if i < |w.steps| && Run(w, i, o).Ok? {
      StepOfRun(w, i, o);
      VisitFacts(w, i, o);
      var next := ExecStep(w, i, o).value;
      RunDocsAreLastSearch(next, i + 1, o);
      IsLastSearchCons(VisitOf(w, i, o), Log(next, i + 1, o), w.docs, next.docs, Run(next, i + 1, o).value.docs);
    }
  }

  /** Whether a request/response step answers into `text` depends on the
      list as it stands when the step runs; in a successful walk that is
      exactly when it is the last visit: a step that rewrote `question` is
      always followed by another. */
  lemma {:induction false} OnlyLastVisitAnswers(w: Walk, i: nat, o: ChainOracles)
    requires i <= |w.steps|
    ensures Run(w, i, o).Ok? ==> var log := Log(w, i, o);
      forall j :: 0 <= j < |log| && log[j].Answered? ==> (log[j].key == TEXT_KEY <==> j == |log| - 1)
    decreases Total(w.steps[i..])
  {
    if i < |w.steps| && Run(w, i, o).Ok? {
      StepOfRun(w, i, o);
      VisitFacts(w, i, o);
      var next := ExecStep(w, i, o).value;
      OnlyLastVisitAnswers(next, i + 1, o);
      RunVisitsEveryStep(next, i + 1, o);
      var log := Log(w, i, o);
      var rest := Log(next, i + 1, o);
      forall j | 0 <= j < |log| && log[j].Answered?
        ensures log[j].key == TEXT_KEY <==> j == |log| - 1
      {
        if j == 0 {
          assert log[0] == VisitOf(w, i, o);
          assert rest == [] <==> i + 1 == |w.steps|;
        } else {
          assert log[j] == rest[j - 1];
        }
      }
    }
  }

  /** The last visit of a walk always answers into `text`: a router is
      never last (it inserts a step after itself), a search writes `text`, and
      a request/response step at the end of the list writes `text`. So every
      successful walk over at least one step ends with a string `text`. */
  lemma {:induction false} LastVisitAnswers(w: Walk, i: nat, o: ChainOracles)
    requires i < |w.steps|
    ensures Run(w, i, o).Ok? ==> TEXT_KEY in Run(w, i, o).value.state && Run(w, i, o).value.state[TEXT_KEY].Str?
    decreases Total(w.steps[i..])
  {
    if !Run(w, i, o).Ok? {
      return;
    }
    StepOfRun(w, i, o);
    var next := ExecStep(w, i, o).value;
    if i + 1 < |next.steps| {
      LastVisitAnswers(next, i + 1, o);
    } else {
      assert Run(w, i, o) == Ok(next);
      StepAnswersWhenLast(w, i, o);
    }
  }

  /** A visit after which nothing is left to walk writes a string `text`. */
  lemma StepAnswersWhenLast(w: Walk, i: nat, o: ChainOracles)
    requires i < |w.steps|
    requires ExecStep(w, i, o).Ok?
    requires i + 1 == |ExecStep(w, i, o).value.steps|
    ensures TEXT_KEY in ExecStep(w, i, o).value.state && ExecStep(w, i, o).value.state[TEXT_KEY].Str?
  {
    var step := w.steps[i];
    match step.source.stepType
    case RequestResponse =>
      assert OutputKey(i, w.steps) == TEXT_KEY;
    case DataSearch =>
    case Router =>
  }

  /** The returned and traced `sourceDocuments` are those of the last search
      the walk visited, and empty when it visited none. */
  lemma SourceDocumentsAreLastSearch(values: Record, workflow: ChatEngineWorkflow, inputKey: string,
                                     returnSourceDocuments: bool, o: ChainOracles)
    ensures var r := CallChain(values, workflow, inputKey, returnSourceDocuments, o);
      var start := Walk(workflow.steps, values, []);
      r.Ok? ==>
        && Run(start, 0, o).Ok?
        && var docs := Run(start, 0, o).value.docs;
        && IsLastSearch(Log(start, 0, o), [], docs)
        && r.value.trace["sourceDocuments"] == DocsValue(docs)
        && (returnSourceDocuments ==> r.value.values["sourceDocuments"] == DocsValue(docs))
  {
    var start := Walk(workflow.steps, values, []);
    RunDocsAreLastSearch(start, 0, o);
  }

  /** A workflow with no steps returns its input values unchanged (plus an
      empty `sourceDocuments` when asked for). */
  lemma EmptyWorkflowEchoesInput(values: Record, inputKey: string, returnSourceDocuments: bool, o: ChainOracles)
    requires inputKey in values && CHAT_HISTORY_KEY in values
    ensures var r := CallChain(values, ChatEngineWorkflow([]), inputKey, returnSourceDocuments, o);
      && r.Ok?
      && (!returnSourceDocuments ==> r.value.values == values)
      && (returnSourceDocuments ==> r.value.values == values["sourceDocuments" := Arr([])])
  {
    assert Run(Walk([], values, []), 0, o) == Ok(Walk([], values, []));
    assert DocsValue([]) == Arr([]);
  }
}

=== FILE: code_editor.dfy ===
/** Showing and reading JSON in the website's code editors
    (demo/website/src/utils/codeEditor.ts). `JSON.stringify(v, null, 2)`
    and `JSON.parse` are parameters. */
module CodeEditor {
  import opened Wrappers
  import opened JsonValue

  /** `toCodeEditorJson(value, defaultValue)`: the default for a missing
      value, a string as is, anything else pretty-printed. */
  function ToCodeEditorJson(v: Value, defaultValue: string, stringify: Value -> string): (text: string)
    ensures Nullish(v) ==> text == defaultValue
    ensures v.Str? ==> text == v.s
    ensures !Nullish(v) && !v.Str? ==> text == stringify(v)
  {
    if Nullish(v) then defaultValue
    else if v.Str? then v.s
    else stringify(v)
  }

  /** `fromCodeEditorJson(value, defaultValue)`: the default for a missing
      or empty text, otherwise the parsed text, which throws when the text
      is not JSON. */
  function FromCodeEditorJson(text: Option<string>, defaultValue: Value, parse: string -> Result<Value>): (r: Result<Value>)
    ensures text.None? || text.value == "" ==> r == Ok(defaultValue)
    ensures text.Some? && text.value != "" ==> r == parse(text.value)
  {
    if text.None? || text.value == "" then Ok(defaultValue)
    else parse(text.value)
  }

  /** The round trip is conditional: a value reads back from the editor
      unchanged only when the given printer and parser agree on it (that
      `JSON.parse` undoes `JSON.stringify` is not proved here); a missing value reads back as the parsed default text; a
      string value is shown raw and read back as JSON text, not as the
      string. */
  lemma EditorRoundTrip(v: Value, stringify: Value -> string, parse: string -> Result<Value>)
    ensures !Nullish(v) && !v.Str? && stringify(v) != "" && parse(stringify(v)) == Ok(v) ==>
      FromCodeEditorJson(Some(ToCodeEditorJson(v, "{}", stringify)), Undefined, parse) == Ok(v)
    ensures Nullish(v) ==>
      FromCodeEditorJson(Some(ToCodeEditorJson(v, "{}", stringify)), Undefined, parse) == parse("{}")
    ensures v.Str? && v.s != "" ==>
      FromCodeEditorJson(Some(ToCodeEditorJson(v, "{}", stringify)), Undefined, parse) == parse(v.s)
  {
  }
}

=== FILE: compact_clone.dfy ===
/** `compactClone` (demo/infra/src/application/ai/inference-engine/engine/handler/shared/create-message.ts):
    a deep clone meant to drop every `undefined` property, so that a user
    configuration does not blank out system defaults when spread over them. */
module CompactClone {
  import opened Strings
  import opened JsonValue

  /** No object anywhere inside `v` has a property whose value is
      `undefined`. */
  predicate Compact(v: Value)
  {
    match v
    case Obj(f) => forall k :: k in f ==> !f[k].Undefined? && Compact(f[k])
    case Arr(items) => forall i :: 0 <= i < |items| ==> Compact(items[i])
    case _ => true
  }

  predicate CompactRecord(r: Record)
  {
    forall k :: k in r ==> !r[k].Undefined? && Compact(r[k])
  }

  /** `c` is `v` with every undefined object property removed, at every
      depth: an object keeps exactly its defined keys, each pruned in turn;
      an array keeps its length, each element pruned in turn; any other
      value (`null` included) is kept as is. */
  predicate Pruned(v: Value, c: Value)
    decreases v
  {
    match v
    case Obj(f) =>
      && c.Obj?
      && c.fields.Keys == (set k | k in f && !f[k].Undefined?)
      && forall k :: k in c.fields ==> Pruned(f[k], c.fields[k])
    case Arr(items) =>
      && c.Arr?
      && |c.items| == |items|
      && forall i :: 0 <= i < |items| ==> Pruned(items[i], c.items[i])
    case _ => c == v
  }

  /** The pruning of a value is unique, so `Pruned` pins the clone down
      completely. */
  lemma {:induction false} PrunedIsUnique(v: Value, c1: Value, c2: Value)
    requires Pruned(v, c1) && Pruned(v, c2)
    ensures c1 == c2
    decreases v
  {
    match v
    case Obj(f) =>
      forall k | k in c1.fields
        ensures c1.fields[k] == c2.fields[k]
      {
        PrunedIsUnique(f[k], c1.fields[k], c2.fields[k]);
      }
      assert c1.fields == c2.fields;
    case Arr(items) =>
      forall i | 0 <= i < |items|
        ensures c1.items[i] == c2.items[i]
      {
        PrunedIsUnique(items[i], c1.items[i], c2.items[i]);
      }
      assert c1.items == c2.items;
    case _ =>
  }

  /** As written: `omitBy(value, isUndefined)`, then `cloneDeepWith` that
      recompacts every nested value of type "object". lodash's `omitBy`
      turns `null` into `{}` and an array into an object keyed by index. */
  function CompactCloneAsWritten(r: Record): (c: Record)
    ensures c.Keys == set k | k in r && !r[k].Undefined?
    ensures forall k :: k in c ==> !c[k].Arr? && !c[k].Null?
    ensures forall k :: k in c && (r[k].Arr? || r[k].Null?) ==> c[k].Obj?
  {
    map k | k in r && !r[k].Undefined? :: NestedAsWritten(r[k])
  }

  function NestedAsWritten(v: Value): (c: Value)
    ensures !c.Arr? && !c.Null?
    ensures v.Obj? || v.Arr? || v.Null? <==> c.Obj?
    decreases v, 1
  {
    match v
    case Obj(f) => Obj(map k | k in f && !f[k].Undefined? :: NestedAsWritten(f[k]))
    case Arr(items) => Obj(IndexedAsWritten(items, 0))
    case Null => Obj(map[])
    case _ => v
  }

  /** The defined elements of an array under their index keys, the first
      element being index `from`. */
  function IndexedAsWritten(items: seq<Value>, from: nat): map<string, Value>
    decreases items, 0
  {
    if items == [] then map[]
    else
      var rest := IndexedAsWritten(items[1..], from + 1);
      if items[0].Undefined? then rest else rest[NatToString(from) := NestedAsWritten(items[0])]
  }

  /** As intended: undefined properties are removed at every level; `null`,
      arrays and every other value keep their shape. */
  function CompactCloneRecord(r: Record): (c: Record)
    ensures c.Keys == set k | k in r && !r[k].Undefined?
    ensures forall k :: k in c ==> Pruned(r[k], c[k])
    ensures CompactRecord(c)
  {
    map k | k in r && !r[k].Undefined? :: Nested(r[k])
  }

  function Nested(v: Value): (c: Value)
    ensures Compact(c)
    ensures Pruned(v, c)
  {
    match v
    case Obj(f) => Obj(map k | k in f && !f[k].Undefined? :: Nested(f[k]))
    case Arr(items) => Arr(seq(|items|, i requires 0 <= i < |items| => Nested(items[i])))
    case _ => v
  }

  /** A value with no undefined property is cloned unchanged. */
  lemma {:induction false} NestedKeepsCompact(v: Value)
    requires Compact(v)
    ensures Nested(v) == v
  {
    match v
    case Obj(f) =>
      forall k | k in f ensures Nested(f[k]) == f[k] {
        NestedKeepsCompact(f[k]);
      }
      assert Nested(v).fields == f;
    case Arr(items) =>
      forall i | 0 <= i < |items| ensures Nested(items[i]) == items[i] {
        NestedKeepsCompact(items[i]);
      }
      assert Nested(v).items == items;
    case _ =>
  }

  /** Compacting keeps every defined property and only those, and
      compacting twice is compacting once. */
  lemma CompactCloneIdempotent(r: Record)
    ensures CompactCloneRecord(CompactCloneRecord(r)) == CompactCloneRecord(r)
    ensures forall k :: k in r && !r[k].Undefined? && Compact(r[k]) ==> CompactCloneRecord(r)[k] == r[k]
  {
    var c := CompactCloneRecord(r);
    forall k | k in c ensures Nested(c[k]) == c[k] {
      NestedKeepsCompact(c[k]);
    }
    forall k | k in r && !r[k].Undefined? && Compact(r[k]) ensures c[k] == r[k] {
      NestedKeepsCompact(r[k]);
    }
  }

  /** A `null` property comes back as `{}` and an array as an object as
      written, while the intended clone keeps both. */
  lemma CompactCloneAsWrittenReshapes()
    ensures CompactCloneAsWritten(map["a" := Null]) == map["a" := Obj(map[])]
    ensures CompactCloneRecord(map["a" := Null]) == map["a" := Null]
    ensures CompactCloneAsWritten(map["b" := Arr([Num(7)])]) == map["b" := Obj(map["0" := Num(7)])]
    ensures CompactCloneRecord(map["b" := Arr([Num(7)])]) == map["b" := Arr([Num(7)])]
  {
    assert NatToString(0) == "0";
    assert IndexedAsWritten([Num(7)], 0) == map["0" := Num(7)] by {
      assert [Num(7)][1..] == [];
    }
    assert Nested(Arr([Num(7)])).items == [Num(7)];
  }
}

=== FILE: context.dfy ===
/** The chat engine context (packages/galileo-sdk/src/chat/context.ts): how a
    step's model reference is resolved to model info, and how the model info
    and per-step options become a configured LLM client. The LLM client itself
    is not modelled beyond the configuration it is constructed with. */
module Context {
  import opened Wrappers
  import opened Strings
  import opened JsonValue
  import opened ModelTypes

  /** The prompt template classes a step can be given. */
  datatype PromptKind = CondenseQuestionPrompt | QuestionAnswerPrompt | RouterPrompt

  /** A prompt: its class, its Handlebars template text and the partial
      variables substituted before rendering. Rendering is not modelled. */
  datatype PromptTemplate = PromptTemplate(kind: PromptKind, template: string, partialVariables: Option<Record>)

  /** `IChatEngineContextOptions`. */
  datatype ContextOptions = ContextOptions(
    maxNewTokens: int,
    modelKwargs: Option<Record>,
    endpointKwargs: Option<Record>,
    verbose: Option<bool>,
    prompt: PromptTemplate)

  /** The LLM client a context constructs, described by its settings. */
  datatype LlmClient =
    | SageMakerEndpointClient(endpointName: Value, endpointRegion: Value, role: Value,
                              endpointKwargs: Record, modelKwargs: Record, verbose: Option<bool>)
    | BedrockChatClient(modelId: Value, region: Value, role: Value, endpointUrl: Value,
                        modelKwargs: Record, verbose: Option<bool>)

  /** `ChatEngineContext`. */
  datatype EngineContext = EngineContext(modelInfo: Value, maxNewTokens: int, llm: LlmClient, prompt: PromptTemplate)

  /** `typeof v === 'object'`: objects, arrays and `null`. */
  predicate IsObjectType(v: Value)
  {
    v.Obj? || v.Arr? || v.Null?
  }

  /** Every property the override sets (at any depth) is present in `r`
      with the override's value, except where both sides are objects and the
      properties were merged further down. */
  predicate Covers(r: Value, b: Value)
    decreases b
  {
    if b.Undefined? then true
    else if b.Obj? then r.Obj? && forall k :: k in b.fields ==> k in r.fields && Covers(r.fields[k], b.fields[k])
    else r == b
  }

  /** Every value covers itself. */
  lemma CoversItself(v: Value)
    ensures Covers(v, v)
    decreases v
  {
    if v.Obj? {
      CoversItselfFields(v);
    }
  }

  lemma CoversItselfFields(v: Value)
    requires v.Obj?
    ensures forall k :: k in v.fields ==> Covers(v.fields[k], v.fields[k])
    decreases v, 0
  {
    forall k | k in v.fields ensures Covers(v.fields[k], v.fields[k]) {
      CoversItself(v.fields[k]);
    }
  }

  /** lodash `merge({}, a, b)` on JSON values: objects merge property by
      property, an `undefined` override keeps the base, anything else in the
      override replaces the base. */
  function DeepMerge(a: Value, b: Value): (r: Value)
    ensures Covers(r, b)
    ensures a.Obj? && b.Obj? ==> r.Obj? && r.fields.Keys == a.fields.Keys + b.fields.Keys
    ensures a.Obj? && b.Obj? ==> forall k :: k in a.fields && k !in b.fields ==> r.fields[k] == a.fields[k]
    decreases b
  {
    if b.Undefined? then a
    else if a.Obj? && b.Obj? then
      CoversItselfFields(b);
      Obj(map k | k in a.fields.Keys + b.fields.Keys ::
            if k in b.fields then
              (if k in a.fields then DeepMerge(a.fields[k], b.fields[k]) else b.fields[k])
            else a.fields[k])
    else
      CoversItself(b);
      b
  }

  /** `ChatEngineContext.resolveModelInfo(modelInfo)`. A string starting with
      '{' is parsed as model info; an object without a truthy `uuid` is
      returned as it is; otherwise the inventory is asked for the uuid (the
      string itself, the object's `uuid`, or `undefined` for the default model)
      and an object is merged over what the inventory returned. */
  function ResolveModelInfo(
    modelRef: Value,
    parseJson: string -> Result<Value>,
    getModelOrDefault: Value -> Result<Value>): (r: Result<Value>)
    ensures modelRef.Str? && StartsWith(modelRef.s, "{") && parseJson(modelRef.s).Err? ==> r.Err?
    ensures var info := ParsedRef(modelRef, parseJson);
      info.Ok? && (info.value.Obj? || info.value.Arr?) && !Truthy(Property(info.value, "uuid")) ==> r == info
    ensures modelRef.Str? && !StartsWith(modelRef.s, "{") ==> r == getModelOrDefault(modelRef)
    ensures modelRef.Undefined? ==> r == getModelOrDefault(Undefined)
    ensures modelRef.Obj? && Truthy(Property(modelRef, "uuid")) && r.Ok? ==>
      Covers(r.value, modelRef) && getModelOrDefault(Property(modelRef, "uuid")).Ok?
    ensures ParsedRef(modelRef, parseJson) == Ok(Null) ==> r.Err?
    ensures var info := ParsedRef(modelRef, parseJson);
      info.Ok? && NeedsLookup(info.value) ==>
        var resolved := getModelOrDefault(LookupKey(info.value));
        && (r.Err? <==> resolved.Err?)
        && (!info.value.Obj? ==> r == resolved)
        && (info.value.Obj? && r.Ok? ==> r.value == DeepMerge(resolved.value, info.value))
    ensures var info := ParsedRef(modelRef, parseJson);
      info.Ok? && NeedsLookup(info.value) && info.value.Obj? && r.Ok? ==>
        var resolved := getModelOrDefault(LookupKey(info.value)).value;
        && Covers(r.value, info.value)
        && (resolved.Obj? ==> r.value.Obj? && r.value.fields.Keys == resolved.fields.Keys + info.value.fields.Keys)
        && (resolved.Obj? ==> forall k :: k in resolved.fields && k !in info.value.fields ==> r.value.fields[k] == resolved.fields[k])
  {
    var info :- ParsedRef(modelRef, parseJson);
    if info.Null? then Err("Cannot read properties of null (reading 'uuid')")
    else if !NeedsLookup(info) then Ok(info)
    else
      var resolved :- getModelOrDefault(LookupKey(info));
      if IsObjectType(info) then Ok(DeepMerge(resolved, info)) else Ok(resolved)
  }

  /** Whether a (parsed, non-null) reference is looked up in the inventory:
      everything except an object or array without a truthy `uuid`. */
  predicate NeedsLookup(info: Value)
  {
    !(IsObjectType(info) && !Truthy(Property(info, "uuid")))
  }

  /** The uuid asked of the inventory: `undefined` for a nullish reference
      (the default model), the string itself, or the object's `uuid`. */
  function LookupKey(info: Value): Value
  {
    if Nullish(info) then Undefined else if info.Str? then info else Property(info, "uuid")
  }

  /** The model reference after the optional JSON parse of a '{'-string. */
  function ParsedRef(modelRef: Value, parseJson: string -> Result<Value>): Result<Value>
  {
    if modelRef.Str? && StartsWith(modelRef.s, "{") then parseJson(modelRef.s) else Ok(modelRef)
  }

  /** Resolving a reference that needs no lookup does not depend on the
      inventory at all. */
  lemma ResolveWithoutUuidSkipsInventory(
    modelRef: Value, parseJson: string -> Result<Value>,
    inventory1: Value -> Result<Value>, inventory2: Value -> Result<Value>)
    requires ParsedRef(modelRef, parseJson).Ok?
    requires var info := ParsedRef(modelRef, parseJson).value;
      (info.Obj? || info.Arr?) && !Truthy(Property(info, "uuid"))
    ensures ResolveModelInfo(modelRef, parseJson, inventory1) == ResolveModelInfo(modelRef, parseJson, inventory2)
  {
  }

  /** The SageMaker kwargs: framework defaults overridden key by key by the
      step options. */
  function SageMakerKwargs(frameworkKwargs: Value, optionKwargs: Option<Record>): Record
  {
    Overlay([Spread(frameworkKwargs), optionKwargs.GetOr(map[])])
  }

  /** The Bedrock model kwargs, lowest precedence first. */
  function BedrockKwargLayers(framework: Value, options: ContextOptions, defaultMaxNewTokens: int): seq<Record>
  {
    [map["maxTokens" := Num(defaultMaxNewTokens), "temperature" := Num(0)],
     Spread(Property(framework, "modelKwargs")),
     options.endpointKwargs.GetOr(map[]),
     options.modelKwargs.GetOr(map[])]
  }

  /** `new ChatEngineContext(modelInfo, options)`: a SageMaker endpoint client
      or a Bedrock chat client, chosen by the framework tag; any other
      framework is an error naming its type. `DEFAULT_MAX_NEW_TOKENS` is the
      constant of the models package, passed in. */
  function NewContext(modelInfo: Value, options: ContextOptions, defaultMaxNewTokens: int): (r: Result<EngineContext>)
    ensures var fw := Property(modelInfo, "framework");
      r.Ok? <==> IsSageMakerEndpointFramework(fw) || IsBedrockFramework(fw)
    ensures r.Ok? ==> r.value.modelInfo == modelInfo && r.value.maxNewTokens == options.maxNewTokens
                      && r.value.prompt == options.prompt
    ensures r.Ok? ==> (r.value.llm.SageMakerEndpointClient? <==> IsSageMakerEndpointFramework(Property(modelInfo, "framework")))
    ensures var fw := Property(modelInfo, "framework");
      !Nullish(fw) && r.Err? ==>
        r.error == "Model Framework \"" + ToJsString(Property(fw, "type")) + "\" is not supported/implemented"
  {
    var fw := Property(modelInfo, "framework");
    if IsSageMakerEndpointFramework(fw) then
      Ok(EngineContext(modelInfo, options.maxNewTokens,
        SageMakerEndpointClient(
          Property(fw, "endpointName"), Property(fw, "endpointRegion"), Property(fw, "role"),
          SageMakerKwargs(Property(fw, "endpointKwargs"), options.endpointKwargs),
          SageMakerKwargs(Property(fw, "modelKwargs"), options.modelKwargs),
          options.verbose),
        options.prompt))
    else if IsBedrockFramework(fw) then
      Ok(EngineContext(modelInfo, options.maxNewTokens,
        BedrockChatClient(
          Property(fw, "modelId"), Property(fw, "region"), Property(fw, "role"), Property(fw, "endpointUrl"),
          Overlay(BedrockKwargLayers(fw, options, defaultMaxNewTokens)),
          options.verbose),
        options.prompt))
    else if Nullish(fw) then
      Err("Cannot read properties of " + ToJsString(fw) + " (reading 'type')")
    else
      Err("Model Framework \"" + ToJsString(Property(fw, "type")) + "\" is not supported/implemented")
  }

  /** The value of a key in an overlay is that of the last layer defining it. */
  lemma OverlayTakes(layers: seq<Record>, k: string, i: nat)
    requires i < |layers| && k in layers[i]
    requires forall j :: i < j < |layers| ==> k !in layers[j]
    ensures k in Overlay(layers) && Overlay(layers)[k] == layers[i][k]
  {
    assert DefinedIn(layers, k);
    var w := LastDefining(layers, k);
    assert w == i;
  }

  /** A key no layer defines is not in the overlay. */
  lemma OverlayLacks(layers: seq<Record>, k: string)
    requires forall j :: 0 <= j < |layers| ==> k !in layers[j]
    ensures k !in Overlay(layers)
  {
  }

  /** SageMaker precedence: a key the step options set wins; otherwise the
      framework default is kept; nothing else appears. */
  lemma SageMakerKwargsPrecedence(frameworkKwargs: Value, optionKwargs: Option<Record>, k: string)
    ensures var r := SageMakerKwargs(frameworkKwargs, optionKwargs);
      var o := optionKwargs.GetOr(map[]);
      && (k in o ==> k in r && r[k] == o[k])
      && (k !in o && k in Spread(frameworkKwargs) ==> k in r && r[k] == Spread(frameworkKwargs)[k])
      && (k !in o && k !in Spread(frameworkKwargs) ==> k !in r)
  {
    var layers := [Spread(frameworkKwargs), optionKwargs.GetOr(map[])];
    if k in layers[1] {
      OverlayTakes(layers, k, 1);
    } else if k in layers[0] {
      OverlayTakes(layers, k, 0);
    } else {
      OverlayLacks(layers, k);
    }
  }

  /** Bedrock precedence, highest first: option `modelKwargs`, option
      `endpointKwargs`, framework `modelKwargs`, then the built-in
      `maxTokens`/`temperature` defaults; no other key appears. */
  lemma BedrockKwargsPrecedence(framework: Value, options: ContextOptions, d: int, k: string)
    ensures var r := Overlay(BedrockKwargLayers(framework, options, d));
      var om := options.modelKwargs.GetOr(map[]);
      var oe := options.endpointKwargs.GetOr(map[]);
      var fm := Spread(Property(framework, "modelKwargs"));
      && (k in om ==> k in r && r[k] == om[k])
      && (k !in om && k in oe ==> k in r && r[k] == oe[k])
      && (k !in om && k !in oe && k in fm ==> k in r && r[k] == fm[k])
      && (k !in om && k !in oe && k !in fm && k == "maxTokens" ==> k in r && r[k] == Num(d))
      && (k !in om && k !in oe && k !in fm && k == "temperature" ==> k in r && r[k] == Num(0))
      && (k !in om && k !in oe && k !in fm && k != "maxTokens" && k != "temperature" ==> k !in r)
  {
    var layers := BedrockKwargLayers(framework, options, d);
    if k in layers[3] {
      OverlayTakes(layers, k, 3);
    } else if k in layers[2] {
      OverlayTakes(layers, k, 2);
    } else if k in layers[1] {
      OverlayTakes(layers, k, 1);
    } else if k in layers[0] {
      OverlayTakes(layers, k, 0);
    } else {
      OverlayLacks(layers, k);
    }
  }
}

=== FILE: create_message.dfy ===
/** The inference handler's `createMessage`
    (demo/infra/src/application/ai/inference-engine/engine/handler/shared/create-message.ts):
    find the chat, build its workflow, construct the engine from the system
    configuration and answer one question. The stores, the models, the
    search service and the memory's history and last turn are parameters. */
module CreateMessage {
  import opened Wrappers
  import opened Strings
  import opened JsonValue
  import opened DdbTypes
  import opened EntityStore
  import opened Search
  import opened WorkflowTypes
  import opened WorkflowHelper
  import opened Chain
  import opened Engine
  import opened WorkflowBuilder
  import opened CompactClone
  import WorkspaceStore

  /** The table names read from the process environment. */
  datatype Environment = Environment(chatMessageTable: Option<string>, workspaceTable: Option<string>, workflowTable: Option<string>)

  /** The caller and the question. */
  datatype Request = Request(userId: string, isAdmin: bool, chatId: string, question: string,
                             useStreaming: bool, logLevelIsDebug: bool)

  /** What the handler runs against: the deployment's search url and system
      configuration, the chat lookup, the stored workflows and workspaces,
      the model inventory and the chain's services. */
  datatype Deployment = Deployment(
    env: Environment,
    searchUrl: string,
    systemConfig: Record,
    getChat: (string, string) -> Option<Chat>,
    workflows: Table<Workflow>,
    workspaces: Table<Workspace>,
    compiler: Compiler,
    oracles: ChainOracles)

  /** What the handler produces: an exception it lets escape, an error
      response, or the answered message. */
  datatype Outcome =
    | Thrown(message: string)
    | ErrorResponse(errorMessage: string)
    | Answered(question: Record, answer: Record, sources: Value, traceData: Option<Record>)

  function MissingEnvMessage(name: string): string
  {
    "expected env variable " + name + " but none was found"
  }

  function NoChatMessage(chatId: string, userId: string): string
  {
    "No chat found with id " + chatId + " for user " + userId
  }

  /** An environment variable is usable only when set and non-empty. */
  predicate EnvSet(v: Option<string>)
  {
    v.Some? && v.value != ""
  }

  /** The signing service of the search endpoint: Lambda for a function url,
      API Gateway otherwise. */
  function SigningService(searchUrl: string): (s: string)
    ensures s == "lambda" <==> exists i :: OccursAt(searchUrl, "lambda-url", i)
    ensures s != "lambda" ==> s == "execute-api"
  {
    IncludesMeansOccurs(searchUrl, "lambda-url");
    if Includes(searchUrl, "lambda-url") then "lambda" else "execute-api"
  }

  /** `{...systemConfig, ...userConfig}`: user settings win. */
  function MergeConfig(system: Record, user: Record): (config: Record)
    ensures config.Keys == system.Keys + user.Keys
    ensures forall k :: k in user ==> config[k] == user[k]
    ensures forall k :: k in system && k !in user ==> config[k] == system[k]
  {
    system + user
  }

  /** The user configuration: the compacted empty request options. */
  function UserConfig(): (c: Record)
    ensures c == map[]
  {
    CompactCloneRecord(map[])
  }

  /** `{...config.search, baseUrl: searchUrl}` read as retriever options:
      the deployment's search url always wins, the rest is taken when it
      has the declared type. */
  function SearchOptions(configSearch: Value, searchUrl: string): (s: SearchRetrieverInput)
    ensures s.baseUrl == searchUrl
    ensures Property(configSearch, "limit").Num? <==> s.limit.Some?
    ensures s.limit.Some? ==> s.limit.value == Property(configSearch, "limit").n
    ensures Property(configSearch, "filter").Obj? <==> s.filter.Some?
    ensures s.filter.Some? ==> s.filter.value == Property(configSearch, "filter").fields
    ensures Property(configSearch, "modelRefKey").Str? <==> s.modelRefKey.Some?
    ensures s.modelRefKey.Some? ==> s.modelRefKey.value == Property(configSearch, "modelRefKey").s
  {
    var limit := Property(configSearch, "limit");
    var filter := Property(configSearch, "filter");
    var modelRefKey := Property(configSearch, "modelRefKey");
    SearchRetrieverInput(
      searchUrl,
      if limit.Num? then Some(limit.n) else None,
      if filter.Obj? then Some(filter.fields) else None,
      if modelRefKey.Str? then Some(modelRefKey.s) else None)
  }

  /** The options `ChatEngine.from` is called with. */
  function EngineOptionsFor(req: Request, config: Record, searchUrl: string, workflow: WorkflowConfiguration): (o: EngineOptions)
    ensures o.chatId == req.chatId && o.userId == req.userId && o.workflow == workflow
    ensures o.returnTraceData == Some(req.isAdmin) && o.useStreaming == Some(req.useStreaming)
    ensures o.verbose == Some(req.logLevelIsDebug) && o.maxNewTokens.None?
    ensures o.search == SearchOptions(Get(config, "search"), searchUrl)
  {
    EngineOptions(req.chatId, req.userId, None, SearchOptions(Get(config, "search"), searchUrl),
                  Some(req.logLevelIsDebug), Some(req.isAdmin), Some(req.useStreaming), workflow)
  }

  /** The response for a successful query: the memory's last human and ai
      messages with their texts replaced by the question and the answer,
      the turn's sources, and for administrators the trace data with the
      configuration used. Reading the turn of a missing history throws,
      and that is caught like a failed query. */
  function ShapeResponse(result: QueryResponse, isAdmin: bool, config: Record, configs: seq<Value>): (out: Outcome)
    ensures Nullish(result.turn) ==> out.ErrorResponse?
    ensures !Nullish(result.turn) ==> out.Answered?
    ensures out.Answered? ==>
      && out.question.Keys == Spread(Property(result.turn, "human")).Keys + {"text"}
      && out.question["text"] == Str(result.question)
      && (forall k :: k in Spread(Property(result.turn, "human")) && k != "text" ==>
            out.question[k] == Spread(Property(result.turn, "human"))[k])
      && "text" in out.answer && out.answer["text"] == result.answer
      && (forall k :: k in Spread(Property(result.turn, "ai")) && k != "text" ==>
            k in out.answer && out.answer[k] == Spread(Property(result.turn, "ai"))[k])
      && out.sources == Property(result.turn, "sources")
    ensures out.Answered? ==> (out.traceData.Some? <==> isAdmin)
    ensures out.Answered? && isAdmin ==>
      && "config" in out.traceData.value && "configs" in out.traceData.value
      && out.traceData.value["config"] == Obj(config)
      && out.traceData.value["configs"] == Arr(configs)
      && (forall k :: k in result.traceData.GetOr(map[]) && k != "config" && k != "configs" ==>
            k in out.traceData.value && out.traceData.value[k] == result.traceData.value[k])
  {
    if Nullish(result.turn) then
      ErrorResponse("TypeError: Cannot read properties of " + ToJsString(result.turn) + " (reading 'human')")
    else
      Answered(
        Spread(Property(result.turn, "human"))["text" := Str(result.question)],
        Spread(Property(result.turn, "ai"))["text" := result.answer],
        Property(result.turn, "sources"),
        if isAdmin then Some(result.traceData.GetOr(map[])["config" := Obj(config)]["configs" := Arr(configs)]) else None)
  }

  /** `createMessage(params)`. The three table names are checked first; a
      missing chat is an error response; failures building the workflow or
      the engine escape; a failed query becomes an error response carrying
      `String(error)`. */
  function CreateMessage(req: Request, d: Deployment, history: Value, turn: Value): (out: Outcome)
    requires WorkspaceStore.KeyedById(d.workspaces)
    ensures !EnvSet(d.env.chatMessageTable) ==> out == Thrown(MissingEnvMessage("CHAT_MESSAGE_TABLE_NAME"))
    ensures EnvSet(d.env.chatMessageTable) && !EnvSet(d.env.workspaceTable) ==>
      out == Thrown(MissingEnvMessage("WORKSPACE_TABLE_NAME"))
    ensures EnvSet(d.env.chatMessageTable) && EnvSet(d.env.workspaceTable) && !EnvSet(d.env.workflowTable) ==>
      out == Thrown(MissingEnvMessage("WORKFLOW_TABLE_NAME"))
    ensures EnvSet(d.env.chatMessageTable) && EnvSet(d.env.workspaceTable) && EnvSet(d.env.workflowTable) ==>
      && (d.getChat(req.userId, req.chatId).None? ==> out == ErrorResponse(NoChatMessage(req.chatId, req.userId)))
      && (d.getChat(req.userId, req.chatId).Some? ==>
            var chat := d.getChat(req.userId, req.chatId).value;
            var workflow := Build(chat.workflowType, chat.workflowId, d.workflows, d.workspaces);
            && (workflow.Err? ==> out == Thrown(workflow.error))
            && (workflow.Ok? ==>
                  var engine := From(EngineOptionsFor(req, d.systemConfig, d.searchUrl, workflow.value), req.logLevelIsDebug, d.compiler);
                  && (engine.Err? ==> out == Thrown(engine.error))
                  && (engine.Ok? ==>
                        var result := Query(engine.value, req.question, history, turn, d.oracles);
                        && (result.Err? ==> out == ErrorResponse("Error: " + result.error))
                        && (result.Ok? ==> out == ShapeResponse(result.value, req.isAdmin, d.systemConfig,
                                                                [Obj(d.systemConfig), Obj(map[])])))))
  {
    if !EnvSet(d.env.chatMessageTable) then Thrown(MissingEnvMessage("CHAT_MESSAGE_TABLE_NAME"))
    else if !EnvSet(d.env.workspaceTable) then Thrown(MissingEnvMessage("WORKSPACE_TABLE_NAME"))
    else if !EnvSet(d.env.workflowTable) then Thrown(MissingEnvMessage("WORKFLOW_TABLE_NAME"))
    else
      match d.getChat(req.userId, req.chatId)
      case None => ErrorResponse(NoChatMessage(req.chatId, req.userId))
      case Some(chat) =>
        match Build(chat.workflowType, chat.workflowId, d.workflows, d.workspaces)
        case Err(e) => Thrown(e)
        case Ok(workflow) =>
          var user := UserConfig();
          var config := MergeConfig(d.systemConfig, user);
          assert config == d.systemConfig;
          match From(EngineOptionsFor(req, config, d.searchUrl, workflow), req.logLevelIsDebug, d.compiler)
          case Err(e) => Thrown(e)
          case Ok(engine) =>
            match Query(engine, req.question, history, turn, d.oracles)
            case Err(e) => ErrorResponse("Error: " + e)
            case Ok(result) => ShapeResponse(result, req.isAdmin, config, [Obj(d.systemConfig), Obj(user)])
  }

  /** Administrators, and only they, get trace data back, and it always
      records the configuration the engine ran with, which is the system
      configuration. */
  lemma TraceDataOnlyForAdmins(req: Request, d: Deployment, history: Value, turn: Value)
    requires WorkspaceStore.KeyedById(d.workspaces)
    ensures var out := CreateMessage(req, d, history, turn);
      out.Answered? ==>
        && (out.traceData.Some? <==> req.isAdmin)
        && (req.isAdmin ==> "config" in out.traceData.value && out.traceData.value["config"] == Obj(d.systemConfig))
        && out.question["text"] == Str(req.question)
  {
  }
}

=== FILE: ddb_types.dfy ===
/** The entities of the chat data layer
    (packages/galileo-sdk/src/chat/dynamodb/lib/types.ts). */
module DdbTypes {
  import opened Wrappers
  import opened JsonValue

  /** `Keys`: partition and sort key. */
  datatype Keys = Keys(pk: string, sk: string)

  /** A `GSI1SK`, which may be a string or a number. */
  datatype SortKey = SortText(text: string) | SortNumber(n: int)

  /** `GSI1Keys`: the secondary index key, the sort part optional. */
  datatype Gsi1Keys = Gsi1Keys(gsi1pk: string, gsi1sk: Option<SortKey>)

  /** `AllKeys = Keys & GSI1Keys`. */
  datatype AllKeys = AllKeys(pk: string, sk: string, gsi1pk: string, gsi1sk: Option<SortKey>)

  /** `DDBChatWorkflow.type`. */
  datatype ChatWorkflowType = WorkflowChat | WorkspaceChat

  datatype ChatWorkflow = ChatWorkflow(id: string, chatType: ChatWorkflowType)

  /** `DDBChat`. */
  datatype Chat = Chat(keys: Keys, index: Gsi1Keys, userId: string, chatId: string, title: string,
                       createdAt: int, workflowId: string, workflowType: string)

  /** `DDBChatMessage.type`. */
  datatype MessageType = Ai | Human

  /** `DDBChatMessage`. */
  datatype ChatMessage = ChatMessage(keys: Keys, index: Gsi1Keys, userId: string, messageId: string, chatId: string,
                                     createdAt: int, content: string, messageType: MessageType)

  /** `DDBMessageSource`. */
  datatype MessageSource = MessageSource(keys: Keys, userId: string, sourceId: string, chatId: string, messageId: string,
                                         createdAt: int, pageContent: string, metadata: Record)

  /** `DDBWorkspaceType`. */
  datatype WorkspaceType = RequestResponseWorkspace | DataWorkspace | RouterWorkspace

  function WorkspaceTypeName(t: WorkspaceType): string
  {
    match t
    case RequestResponseWorkspace => "REQUEST_RESPONSE"
    case DataWorkspace => "DATA"
    case RouterWorkspace => "ROUTER"
  }

  /** `DDBWorkspaceDataImport`: one of four statuses, with optional details. */
  datatype ImportStatus = NotStarted | InProgress | ImportFailure | ImportSuccess

  datatype DataImport = DataImport(status: ImportStatus, statusDetails: Option<string>)

  datatype WorkspacePrompt = WorkspacePrompt(promptTemplate: string)

  datatype ChatModel = ChatModel(modelId: string, name: string)

  datatype EmbeddingModelInfo = EmbeddingModelInfo(modelId: string, dimensions: int)

  /** `DDBWorkspaceDataIndexing`; the vector storage settings are opaque. */
  datatype DataIndexing = DataIndexing(aurora: Value, embeddingModel: EmbeddingModelInfo)

  datatype DataDefinition = DataDefinition(indexing: Option<DataIndexing>)

  /** A router's target: a workspace and what it is for. */
  datatype RouterTarget = RouterTarget(id: string, description: string)

  datatype RouterDefinition = RouterDefinition(workspaces: seq<RouterTarget>)

  /** An object-valued attribute as stored: absent, the `{}` an update writes
      for a missing value, or a value. */
  datatype Stored<T> = Absent | EmptyObject | Given(value: T)

  /** `DDBWorkspace`. */
  datatype Workspace = Workspace(
    workspaceId: string,
    name: string,
    description: Option<string>,
    userId: string,
    createdAt: int,
    workspaceType: WorkspaceType,
    prompt: Stored<WorkspacePrompt>,
    chatModel: Stored<ChatModel>,
    routerDefinition: Stored<RouterDefinition>,
    data: Option<DataDefinition>,
    dataImport: Option<DataImport>)

  /** `DDBWorkflowDefinition`: workspace ids in execution order. */
  datatype WorkflowDefinition = WorkflowDefinition(workspaceIds: seq<string>)

  /** `DDBWorkflow`. */
  datatype Workflow = Workflow(
    workflowId: string,
    name: string,
    description: Option<string>,
    userId: string,
    createdAt: int,
    definition: Stored<WorkflowDefinition>)
}

=== FILE: ddb_util.dfy ===
/** Key and token helpers of the chat data layer
    (packages/galileo-sdk/src/chat/dynamodb/lib/util.ts): the pagination
    token codec, the key builders, batched deletion and paginated reads. The
    database client is a parameter. */
module DdbUtil {
  import opened Wrappers
  import opened Strings
  import opened Lists
  import opened DdbTypes

  // ---------------------------------------------------------------- pagination tokens

  /** A `GSI1SK` as a template literal renders it: absent as "undefined". */
  function SortKeyText(k: Option<SortKey>): string
  {
    match k
    case None => "undefined"
    case Some(SortText(t)) => t
    case Some(SortNumber(n)) => IntToString(n)
  }

  /** `generateNextToken(params)`: the four key parts joined with '|';
      when no part holds a '|', splitting the token gives them back. */
  function GenerateNextToken(k: AllKeys): (token: string)
    ensures token == Join([k.pk, k.sk, k.gsi1pk, SortKeyText(k.gsi1sk)], "|")
    ensures '|' !in k.pk && '|' !in k.sk && '|' !in k.gsi1pk && '|' !in SortKeyText(k.gsi1sk) ==>
      Split(token, '|') == [k.pk, k.sk, k.gsi1pk, SortKeyText(k.gsi1sk)]
  {
    var parts := [k.pk, k.sk, k.gsi1pk, SortKeyText(k.gsi1sk)];
    assert parts[1..] == [k.sk, k.gsi1pk, SortKeyText(k.gsi1sk)];
    assert parts[1..][1..] == [k.gsi1pk, SortKeyText(k.gsi1sk)];
    assert parts[1..][1..][1..] == [SortKeyText(k.gsi1sk)];
    assert Join(parts[1..][1..], "|") == k.gsi1pk + "|" + SortKeyText(k.gsi1sk);
    assert Join(parts[1..], "|") == k.sk + "|" + (k.gsi1pk + "|" + SortKeyText(k.gsi1sk));
    assert Join(parts, "|") == k.pk + "|" + (k.sk + "|" + (k.gsi1pk + "|" + SortKeyText(k.gsi1sk)));
    assert (forall j :: 0 <= j < |parts| ==> '|' !in parts[j]) ==> Split(Join(parts, "|"), '|') == parts by {
      if forall j :: 0 <= j < |parts| ==> '|' !in parts[j] { SplitJoinRoundTrip(parts, '|'); }
    }
    k.pk + "|" + k.sk + "|" + k.gsi1pk + "|" + SortKeyText(k.gsi1sk)
  }

  /** What `parseNextToken` returns: each part is a string, or undefined when
      the token has fewer parts. */
  datatype ParsedKeys = ParsedKeys(pk: Option<string>, sk: Option<string>, gsi1pk: Option<string>, gsi1sk: Option<string>)

  function Part(parts: seq<string>, i: nat): Option<string>
  {
    if i < |parts| then Some(parts[i]) else None
  }

  /** `parseNextToken(token)`: the first four '|'-separated parts; any
      further parts are dropped. */
  function ParseNextToken(token: string): (r: ParsedKeys)
    ensures r.pk.Some?
    ensures '|' !in token ==> r == ParsedKeys(Some(token), None, None, None)
  {
    var parts := Split(token, '|');
    assert '|' !in token ==> parts == [token] by {
      if '|' !in token { SplitWithoutSeparator(token, '|'); }
    }
    ParsedKeys(Part(parts, 0), Part(parts, 1), Part(parts, 2), Part(parts, 3))
  }

  /** The token round trip: keys whose parts hold no '|' and whose `GSI1SK`
      is a string come back unchanged. */
  lemma TokenRoundTrip(k: AllKeys)
    requires '|' !in k.pk && '|' !in k.sk && '|' !in k.gsi1pk
    requires k.gsi1sk.Some? && k.gsi1sk.value.SortText? && '|' !in k.gsi1sk.value.text
    ensures ParseNextToken(GenerateNextToken(k)) == ParsedKeys(Some(k.pk), Some(k.sk), Some(k.gsi1pk), Some(k.gsi1sk.value.text))
  {
    var t := k.gsi1sk.value.text;
    assert SortKeyText(k.gsi1sk) == t;
    assert Split(GenerateNextToken(k), '|') == [k.pk, k.sk, k.gsi1pk, t];
  }

  /** The codec is not type-preserving: an absent `GSI1SK` comes back as the
      string "undefined", and a numeric one as its decimal text. */
  lemma TokenLosesSortKeyType(pk: string, sk: string, gsi1pk: string, n: nat)
    requires '|' !in pk && '|' !in sk && '|' !in gsi1pk
    ensures ParseNextToken(GenerateNextToken(AllKeys(pk, sk, gsi1pk, None))).gsi1sk == Some("undefined")
    ensures ParseNextToken(GenerateNextToken(AllKeys(pk, sk, gsi1pk, Some(SortNumber(n))))).gsi1sk == Some(NatToString(n))
  {
    var digits := NatToString(n);
    forall j | 0 <= j < |digits|
      ensures digits[j] != '|'
    {
    }
    assert IntToString(n) == digits;
    TokenRoundTrip(AllKeys(pk, sk, gsi1pk, Some(SortText("undefined"))));
    TokenRoundTrip(AllKeys(pk, sk, gsi1pk, Some(SortText(digits))));
  }

  // ---------------------------------------------------------------- key builders

  /** `getChatKey(userId, chatId = '')`. */
  function ChatKey(userId: string, chatId: Option<string>): (k: Keys)
    ensures k.pk == userId
    ensures StartsWith(k.sk, "CHAT#") && k.sk[5..] == chatId.GetOr("")
  {
    Keys(userId, "CHAT#" + chatId.GetOr(""))
  }

  /** Whether a `GSI1SK` value is truthy: "" and 0 are not. */
  predicate SortKeyTruthy(k: SortKey)
  {
    match k
    case SortText(t) => t != ""
    case SortNumber(n) => n != 0
  }

  /** `getChatsByTimeKey(userId, timestamp?)`: the sort part only for a
      truthy timestamp. */
  function ChatsByTimeKey(userId: string, timestamp: Option<SortKey>): (k: Gsi1Keys)
    ensures k.gsi1pk == userId + "#CHAT"
    ensures k.gsi1sk.Some? <==> timestamp.Some? && SortKeyTruthy(timestamp.value)
    ensures k.gsi1sk.Some? ==> k.gsi1sk == timestamp
  {
    Gsi1Keys(userId + "#CHAT", if timestamp.Some? && SortKeyTruthy(timestamp.value) then timestamp else None)
  }

  /** `getChatMessageKey(userId, messageId = '')`. */
  function ChatMessageKey(userId: string, messageId: Option<string>): (k: Keys)
    ensures k.pk == userId
    ensures StartsWith(k.sk, "MESSAGE#") && k.sk[8..] == messageId.GetOr("")
  {
    Keys(userId, "MESSAGE#" + messageId.GetOr(""))
  }

  /** `getChatMessagesByTimeKey(userId, chatId, timestamp = '')`: the sort
      part is always present, as text. */
  function ChatMessagesByTimeKey(userId: string, chatId: string, timestamp: Option<string>): (k: Gsi1Keys)
    ensures k.gsi1pk == userId + "#CHAT#" + chatId
    ensures k.gsi1sk == Some(SortText(timestamp.GetOr("")))
  {
    Gsi1Keys(userId + "#CHAT#" + chatId, Some(SortText(timestamp.GetOr(""))))
  }

  /** `getMessageSourceKey(userId, messageId, sourceKey = '')`. */
  function MessageSourceKey(userId: string, messageId: string, sourceKey: Option<string>): (k: Keys)
    ensures k.pk == userId
    ensures StartsWith(k.sk, "SOURCE#") && k.sk[7..] == messageId + "#" + sourceKey.GetOr("")
  {
    Keys(userId, "SOURCE#" + messageId + "#" + sourceKey.GetOr(""))
  }

  /** Chats, messages and sources of one user share a partition but never a
      sort key, and each builder is injective in its id. */
  lemma KeyKindsDisjoint(userId: string, chatId: Option<string>, messageId: Option<string>, m2: string, sourceKey: Option<string>)
    ensures ChatKey(userId, chatId) != ChatMessageKey(userId, messageId)
    ensures ChatKey(userId, chatId) != MessageSourceKey(userId, m2, sourceKey)
    ensures ChatMessageKey(userId, messageId) != MessageSourceKey(userId, m2, sourceKey)
  {
    assert ChatKey(userId, chatId).sk[0] == 'C';
    assert ChatMessageKey(userId, messageId).sk[0] == 'M';
    assert MessageSourceKey(userId, m2, sourceKey).sk[0] == 'S';
  }

  lemma ChatKeyInjective(u1: string, c1: string, u2: string, c2: string)
    requires ChatKey(u1, Some(c1)) == ChatKey(u2, Some(c2))
    ensures u1 == u2 && c1 == c2
  {
    assert c1 == ChatKey(u1, Some(c1)).sk[5..];
  }

  // ---------------------------------------------------------------- bulkDelete

  const BATCH_WRITE_LIMIT: nat := 25

  /** The service's answer to one batch write: the items it left
      unprocessed, if it reports any. */
  type BatchWrite = seq<Keys> -> Option<seq<Keys>>

  /** One round of `bulkDelete`: the first (at most) 25 queued items are sent;
      what the service leaves unprocessed goes back to the front of the
      queue. */
  function DeleteRound(queue: seq<Keys>, send: BatchWrite): (r: (seq<Keys>, seq<Keys>))
    requires queue != []
    ensures |r.0| == Min(BATCH_WRITE_LIMIT, |queue|)
    ensures 0 < |r.0| <= BATCH_WRITE_LIMIT && r.0 == queue[..|r.0|]
    ensures r.1 == send(r.0).GetOr([]) + queue[|r.0|..]
  {
    var n := Min(BATCH_WRITE_LIMIT, |queue|);
    (queue[..n], send(queue[..n]).GetOr([]) + queue[n..])
  }

  /** The batches sent by at most `fuel` rounds, and what is still queued. */
  function Drain(queue: seq<Keys>, send: BatchWrite, fuel: nat): (r: (seq<seq<Keys>>, seq<Keys>))
    ensures |r.0| <= fuel
    ensures r.1 != [] ==> |r.0| == fuel
    ensures forall j :: 0 <= j < |r.0| ==> 0 < |r.0[j]| <= BATCH_WRITE_LIMIT
    decreases fuel
  {
    if queue == [] || fuel == 0 then ([], queue)
    else
      var (batch, next) := DeleteRound(queue, send);
      var (rest, left) := Drain(next, send, fuel - 1);
      ([batch] + rest, left)
  }

  /** `bulkDelete(keys)`, with at most `fuel` calls to the service: the
      source loops for as long as the service leaves items unprocessed. */
  method BulkDelete(keys: seq<Keys>, send: BatchWrite, fuel: nat) returns (sent: seq<seq<Keys>>, left: seq<Keys>)
    ensures (sent, left) == Drain(keys, send, fuel)
  {
    var unprocessed := keys;
    var rounds := 0;
    sent := [];
    while unprocessed != [] && rounds < fuel
      invariant rounds <= fuel
      invariant Drain(keys, send, fuel).0 == sent + Drain(unprocessed, send, fuel - rounds).0
      invariant Drain(keys, send, fuel).1 == Drain(unprocessed, send, fuel - rounds).1
      decreases fuel - rounds
    {
      var round := DeleteRound(unprocessed, send);
      DrainStep(keys, send, fuel, rounds, sent, unprocessed);
      sent := sent + [round.0];
      unprocessed := round.1;
      rounds := rounds + 1;
    }
    assert sent + [] == sent;
    left := unprocessed;
  }

  /** The loop invariant of `BulkDelete` survives one round. */
  lemma DrainStep(keys: seq<Keys>, send: BatchWrite, fuel: nat, rounds: nat, sent: seq<seq<Keys>>, unprocessed: seq<Keys>)
    requires unprocessed != [] && rounds < fuel
    requires Drain(keys, send, fuel).0 == sent + Drain(unprocessed, send, fuel - rounds).0
    requires Drain(keys, send, fuel).1 == Drain(unprocessed, send, fuel - rounds).1
    ensures var round := DeleteRound(unprocessed, send);
      && Drain(keys, send, fuel).0 == (sent + [round.0]) + Drain(round.1, send, fuel - (rounds + 1)).0
      && Drain(keys, send, fuel).1 == Drain(round.1, send, fuel - (rounds + 1)).1
  {
    var remaining := fuel - rounds;
    DrainRound(unprocessed, send, remaining);
    var round := DeleteRound(unprocessed, send);
    var after := Drain(round.1, send, remaining - 1);
    assert Drain(unprocessed, send, remaining) == ([round.0] + after.0, after.1);
    assert sent + ([round.0] + after.0) == (sent + [round.0]) + after.0;
  }

  /** One round of `Drain` when there is something to send. */
  lemma DrainRound(queue: seq<Keys>, send: BatchWrite, fuel: nat)
    requires queue != [] && fuel > 0
    ensures var (batch, next) := DeleteRound(queue, send);
      Drain(queue, send, fuel) == ([batch] + Drain(next, send, fuel - 1).0, Drain(next, send, fuel - 1).1)
  {
  }

  /** When the service processes every batch, the batches sent are exactly
      `chunk(keys, 25)` — consecutive slices of 25 in key order. */
  lemma {:induction false} CompleteServiceSendsChunks(keys: seq<Keys>, send: BatchWrite, fuel: nat)
    requires forall b :: send(b).GetOr([]) == []
    requires fuel >= |Chunks(keys, BATCH_WRITE_LIMIT)|
    ensures Drain(keys, send, fuel) == (Chunks(keys, BATCH_WRITE_LIMIT), [])
    decreases |keys|
  {
    if keys != [] {
      var (batch, next) := DeleteRound(keys, send);
      assert next == keys[|batch|..];
      if |keys| <= BATCH_WRITE_LIMIT {
        assert batch == keys;
        assert next == [];
        assert Drain(next, send, fuel - 1) == ([], []);
        assert Drain(keys, send, fuel) == ([batch] + Drain(next, send, fuel - 1).0, Drain(next, send, fuel - 1).1);
        assert [batch] + [] == [keys];
        assert Chunks(keys, BATCH_WRITE_LIMIT) == [keys];
      } else {
        assert Chunks(keys, BATCH_WRITE_LIMIT) == [keys[..BATCH_WRITE_LIMIT]] + Chunks(keys[BATCH_WRITE_LIMIT..], BATCH_WRITE_LIMIT);
        CompleteServiceSendsChunks(next, send, fuel - 1);
      }
    }
  }

  // ---------------------------------------------------------------- getAllByPagination

  /** A page as the paginator yields it: its items may be missing. */
  type Page<T> = Option<seq<T>>

  /** The items of the pages, in page order. */
  function PageItems<T>(pages: seq<Page<T>>): (r: seq<T>)
  {
    if pages == [] then [] else pages[0].GetOr([]) + PageItems(pages[1..])
  }

  /** `getAllByPagination`: the concatenation of every page's items, pages
      without items skipped. */
  method GetAllByPagination<T>(pages: seq<Page<T>>) returns (entities: seq<T>)
    ensures entities == PageItems(pages)
  {
    entities := [];
    var i := 0;
    while i < |pages|
      invariant 0 <= i <= |pages|
      invariant entities + PageItems(pages[i..]) == PageItems(pages)
    {
      assert pages[i..][1..] == pages[i + 1..];
      if pages[i].Some? && |pages[i].value| > 0 {
        entities := entities + pages[i].value;
      }
      i := i + 1;
    }
    assert pages[i..] == [];
  }

  /** Every item of every page is returned: the items of page p sit, in
      order, right after those of the pages before it. */
  lemma {:induction false} PageItemsHoldEveryPage<T>(pages: seq<Page<T>>, p: nat)
    requires p < |pages| && pages[p].Some?
    ensures PageItems(pages) == PageItems(pages[..p]) + pages[p].value + PageItems(pages[p + 1..])
  {
    if p == 0 {
      assert pages[..0] == [];
      assert pages[1..] == pages[p + 1..];
    } else {
      assert pages[1..][..p - 1] == pages[1..p];
      assert pages[1..][p - 1] == pages[p];
      assert pages[1..][p..] == pages[p + 1..];
      PageItemsHoldEveryPage(pages[1..], p - 1);
      assert pages[..p][1..] == pages[1..p];
      assert PageItems(pages[..p]) == pages[0].GetOr([]) + PageItems(pages[1..p]);
    }
  }
}

=== FILE: document_preview.dfy ===
/** Previewing a cited source document in the chat
    (demo/website/src/components/chat/components/DownloadableSourceDocument.tsx
    and TextDocumentPreview.tsx): PDFs get a PDF preview, a few text formats
    a read-only code editor, everything else a download link. */
module DocumentPreview {
  import opened Wrappers
  import opened Strings

  const PDF_EXTENSION: string := "pdf"

  /** `TEXT_EXTENSIONS`, in declaration order. */
  const TEXT_EXTENSIONS: seq<string> := ["txt", "sql", "json", "js", "py", "ts"]

  /** `EXTENSION_TO_LANGUAGE`. */
  const EXTENSION_TO_LANGUAGE: map<string, string> :=
    map["sql" := "sql", "txt" := "text", "json" := "json", "js" := "javascript", "ts" := "typescript", "py" := "python"]

  /** The file extension of a download url's path: the text after the last
      '.', or the whole path when it has none. */
  function FileExtension(pathname: string): (ext: string)
    ensures '.' !in ext
    ensures |ext| <= |pathname| && pathname[|pathname| - |ext|..] == ext
    ensures |ext| < |pathname| ==> pathname[|pathname| - |ext| - 1] == '.'
    ensures '.' !in pathname ==> ext == pathname
  {
    LastSegmentIsTextAfterLastSeparator(pathname, '.');
    LastSegment(pathname, '.')
  }

  /** The editor language of a text extension, "text" when unmapped. */
  function LanguageFor(ext: string): (language: string)
    ensures ext in EXTENSION_TO_LANGUAGE ==> language == EXTENSION_TO_LANGUAGE[ext]
    ensures ext !in EXTENSION_TO_LANGUAGE ==> language == "text"
  {
    if ext in EXTENSION_TO_LANGUAGE then EXTENSION_TO_LANGUAGE[ext] else "text"
  }

  datatype Preview = PdfPreview | TextPreview(fileExtension: string) | NoPreview

  /** `DownloadableSourceDocument`'s choice, by exact (case-sensitive)
      extension. */
  function ChoosePreview(pathname: string): (p: Preview)
    ensures p == PdfPreview <==> FileExtension(pathname) == PDF_EXTENSION
    ensures p.TextPreview? <==> FileExtension(pathname) in TEXT_EXTENSIONS
    ensures p.TextPreview? ==> p.fileExtension == FileExtension(pathname)
  {
    var ext := FileExtension(pathname);
    if ext == PDF_EXTENSION then PdfPreview
    else if ext in TEXT_EXTENSIONS then TextPreview(ext)
    else NoPreview
  }

  /** What the text preview shows. */
  datatype TextView = Editor(content: string, language: string) | NoPreviewAvailable | Spinner

  /** `TextDocumentPreview`: the editor once the content has loaded, a
      download link after a failed load, a spinner while loading. */
  function TextPreviewView(isLoading: bool, data: Option<string>, failed: bool, fileExtension: string): (v: TextView)
    ensures v.Editor? <==> !isLoading && data.Some?
    ensures v.Editor? ==> v.content == data.value && v.language == LanguageFor(fileExtension)
    ensures v == NoPreviewAvailable <==> (isLoading || data.None?) && failed
  {
    if !isLoading && data.Some? then Editor(data.value, LanguageFor(fileExtension))
    else if failed then NoPreviewAvailable
    else Spinner
  }

  /** Every text extension has its own language, so the "text" fallback
      is only reached for `txt`. */
  lemma TextExtensionsAreMapped()
    ensures forall e :: e in TEXT_EXTENSIONS ==> e in EXTENSION_TO_LANGUAGE
    ensures forall e :: e in TEXT_EXTENSIONS && LanguageFor(e) == "text" ==> e == "txt"
    ensures EXTENSION_TO_LANGUAGE.Keys == set e | e in TEXT_EXTENSIONS
  {
  }

  /** The extension is what follows the last '.'. */
  lemma ExtensionAfterLastDot(stem: string, ext: string)
    requires '.' !in ext
    ensures FileExtension(stem + "." + ext) == ext
  {
    var path := stem + "." + ext;
    var r := FileExtension(path);
    assert path[|stem|] == '.';
    assert forall j :: |stem| < j < |path| ==> path[j] == ext[j - |stem| - 1];
  }

  /** Only the last extension counts, and case matters. */
  lemma PreviewExamples(stem: string)
    ensures ChoosePreview(stem + ".pdf") == PdfPreview
    ensures ChoosePreview(stem + ".tar.gz") == NoPreview
    ensures ChoosePreview(stem + ".sql") == TextPreview("sql")
    ensures ChoosePreview(stem + ".PDF") == NoPreview
  {
    PdfExample(stem);
    GzExample(stem);
    SqlExample(stem);
    UpperExample(stem);
  }

  // One extension per lemma keeps each proof small.

  lemma PdfExample(stem: string)
    ensures ChoosePreview(stem + ".pdf") == PdfPreview
  {
    PreviewOf(stem, "pdf");
    assert stem + "." + "pdf" == stem + ".pdf";
  }

  lemma GzExample(stem: string)
    ensures ChoosePreview(stem + ".tar.gz") == NoPreview
  {
    PreviewOf(stem + ".tar", "gz");
    assert stem + ".tar" + "." + "gz" == stem + ".tar.gz";
  }

  lemma SqlExample(stem: string)
    ensures ChoosePreview(stem + ".sql") == TextPreview("sql")
  {
    PreviewOf(stem, "sql");
    assert stem + "." + "sql" == stem + ".sql";
  }

  lemma UpperExample(stem: string)
    ensures ChoosePreview(stem + ".PDF") == NoPreview
  {
    PreviewOf(stem, "PDF");
    assert stem + "." + "PDF" == stem + ".PDF";
  }

  /** The preview of a path depends only on its last extension. */
  lemma PreviewOf(stem: string, ext: string)
    requires '.' !in ext
    ensures ChoosePreview(stem + "." + ext) == (if ext == PDF_EXTENSION then PdfPreview else if ext in TEXT_EXTENSIONS then TextPreview(ext) else NoPreview)
  {
    ExtensionAfterLastDot(stem, ext);
  }
}

=== FILE: engine.dfy ===
/** The chat engine façade (packages/galileo-sdk/src/chat/engine.ts):
    compiling a workflow configuration into the chain's steps with the
    engine defaults, answering one query, and shaping the trace data. */
module Engine {
  import opened Wrappers
  import opened Lists
  import opened JsonValue
  import opened Search
  import opened WorkflowTypes
  import opened WorkflowHelper
  import opened Chain

  /** `ChatEngineFromOption`, less the history table names and callbacks. */
  datatype EngineOptions = EngineOptions(
    chatId: string,
    userId: string,
    maxNewTokens: Option<int>,
    search: SearchRetrieverInput,
    verbose: Option<bool>,
    returnTraceData: Option<bool>,
    useStreaming: Option<bool>,
    workflow: WorkflowConfiguration)

  /** A constructed `ChatEngine`. */
  datatype ChatEngine = ChatEngine(
    chatId: string,
    userId: string,
    workflow: ChatEngineWorkflow,
    historyLimit: nat,
    returnTraceData: bool,
    useStreaming: bool)

  const DEFAULT_MAX_NEW_TOKENS: int := 500
  const HISTORY_LIMIT: nat := 20

  /** The options every step of an engine is compiled with; `verbose`
      defaults to whether the log level is DEBUG. */
  function EngineBuildOptions(options: EngineOptions, logLevelIsDebug: bool): (b: BuildOptions)
    ensures b.searchOptions == options.search
    ensures options.maxNewTokens.None? ==> b.maxNewTokens == DEFAULT_MAX_NEW_TOKENS
    ensures options.maxNewTokens.Some? ==> b.maxNewTokens == options.maxNewTokens.value
    ensures options.verbose.None? ==> b.verbose == Some(logLevelIsDebug)
    ensures options.verbose.Some? ==> b.verbose == options.verbose
  {
    BuildOptions(options.search, options.maxNewTokens.GetOr(DEFAULT_MAX_NEW_TOKENS), Some(options.verbose.GetOr(logLevelIsDebug)))
  }

  /** The steps compiled one by one, in order; the first failure (in list
      order) is the result. */
  function CompileSteps(steps: seq<WorkflowStep>, opts: BuildOptions, c: Compiler): (r: Result<seq<CompiledStep>>)
    ensures r.Ok? ==> |r.value| == |steps|
    ensures r.Ok? ==> forall i :: 0 <= i < |steps| ==> CompiledFrom(r.value[i], steps[i], opts)
    ensures r.Ok? <==> forall i :: 0 <= i < |steps| ==> BuildFromStep(steps[i], opts, c).Ok?
  {
    MapIndexed(steps, (s, i) => BuildFromStep(s, opts, c))
  }

  /** `ChatEngine.from(options)` followed by the constructor. */
  function From(options: EngineOptions, logLevelIsDebug: bool, c: Compiler): (r: Result<ChatEngine>)
    ensures r.Ok? ==> |r.value.workflow.steps| == |options.workflow.steps|
    ensures r.Ok? ==> forall i :: 0 <= i < |options.workflow.steps| ==>
      CompiledFrom(r.value.workflow.steps[i], options.workflow.steps[i], EngineBuildOptions(options, logLevelIsDebug))
    ensures r.Ok? <==> forall i :: 0 <= i < |options.workflow.steps| ==>
      BuildFromStep(options.workflow.steps[i], EngineBuildOptions(options, logLevelIsDebug), c).Ok?
    ensures r.Ok? ==> r.value.chatId == options.chatId && r.value.userId == options.userId
    ensures r.Ok? ==> r.value.historyLimit == HISTORY_LIMIT
    ensures r.Ok? ==> (r.value.returnTraceData <==> options.returnTraceData == Some(true))
    ensures r.Ok? ==> (r.value.useStreaming <==> options.useStreaming == Some(true))
  {
    var opts := EngineBuildOptions(options, logLevelIsDebug);
    var compiled := CompileSteps(options.workflow.steps, opts, c);
    if compiled.Err? then Err(compiled.error)
    else Ok(NewEngine(options, compiled.value))
  }

  /** The `ChatEngine` constructor over compiled steps. */
  function NewEngine(options: EngineOptions, steps: seq<CompiledStep>): (e: ChatEngine)
    ensures e.workflow.steps == steps
    ensures e.chatId == options.chatId && e.userId == options.userId && e.historyLimit == HISTORY_LIMIT
    ensures e.returnTraceData <==> options.returnTraceData == Some(true)
    ensures e.useStreaming <==> options.useStreaming == Some(true)
  {
    ChatEngine(options.chatId, options.userId, ChatEngineWorkflow(steps), HISTORY_LIMIT,
               options.returnTraceData.GetOr(false), options.useStreaming.GetOr(false))
  }

  /** `ChatEngineQueryResponse`. */
  datatype QueryResponse = QueryResponse(question: string, answer: Value, turn: Value, traceData: Option<Record>)

  /** `_resolveTraceData()`: the chat and user ids overlaid by the chain's
      trace. Reading the trace is given as a result; a failure to read it is
      reported in the data instead of being raised. */
  function ResolveTraceData(chatId: string, userId: string, trace: Result<Record>): (d: Record)
    ensures trace.Err? ==> d == map["__resolveTraceError" := Str(trace.error)]
    ensures trace.Ok? ==> d.Keys == {"chatId", "userId"} + trace.value.Keys
    ensures trace.Ok? ==> forall k :: k in trace.value ==> d[k] == trace.value[k]
    ensures trace.Ok? && "chatId" !in trace.value ==> d["chatId"] == Str(chatId)
    ensures trace.Ok? && "userId" !in trace.value ==> d["userId"] == Str(userId)
  {
    match trace
    case Ok(t) => map["chatId" := Str(chatId), "userId" := Str(userId)] + t
    case Err(msg) => map["__resolveTraceError" := Str(msg)]
  }

  /** The values the chain is invoked with: the question, and the history
      the memory provides under `chat_history`. */
  function QueryValues(query: string, history: Value): Record
  {
    map[QUESTION_KEY := Str(query), CHAT_HISTORY_KEY := history]
  }

  /** `query(query)`: the chain always returns source documents; the
      answer is the chain's `text`; `turn` is what the memory recorded last;
      trace data only when asked for. */
  function Query(e: ChatEngine, query: string, history: Value, turn: Value, o: ChainOracles): (r: Result<QueryResponse>)
    ensures var chain := CallChain(QueryValues(query, history), e.workflow, QUESTION_KEY, true, o);
      && (chain.Err? <==> r.Err?)
      && (r.Ok? ==> r.value.question == query && r.value.answer == Get(chain.value.values, TEXT_KEY))
      && (r.Ok? ==> r.value.turn == turn)
      && (r.Ok? && !e.returnTraceData ==> r.value.traceData == None)
      && (r.Ok? && e.returnTraceData ==> r.value.traceData == Some(ResolveTraceData(e.chatId, e.userId, Ok(chain.value.trace))))
  {
    var result :- CallChain(QueryValues(query, history), e.workflow, QUESTION_KEY, true, o);
    Ok(QueryResponse(query, Get(result.values, TEXT_KEY), turn,
                     if e.returnTraceData then Some(ResolveTraceData(e.chatId, e.userId, Ok(result.trace))) else None))
  }
}

=== FILE: entity_store.dfy ===
/** A DynamoDB table holding one kind of entity, seen as a map from the
    entity's id to the stored item. The reads and the delete shared by the
    workspace and workflow tables
    (packages/galileo-sdk/src/chat/dynamodb/lib/workspace.ts and
    packages/galileo-sdk/src/chat/dynamodb/lib/workflow.ts). */
module EntityStore {
  import opened Wrappers

  type Table<T> = map<string, T>

  /** The message DynamoDB fails a conditional write with. */
  const CONDITIONAL_CHECK_FAILED: string := "The conditional request failed"

  /** `GetCommand` by id: the stored item, or nothing. */
  function GetItem<T>(table: Table<T>, id: string): (r: Option<T>)
    ensures r.Some? <==> id in table
    ensures r.Some? ==> r.value == table[id]
  {
    if id in table then Some(table[id]) else None
  }

  /** `BatchGetCommand` for `ids`: the stored items among them, in request
      order; ids that are not stored contribute nothing. */
  function BatchGet<T(==)>(table: Table<T>, ids: seq<string>): (r: seq<T>)
    ensures |r| <= |ids|
    ensures forall j :: 0 <= j < |ids| && ids[j] in table ==> table[ids[j]] in r
    ensures forall x :: x in r ==> x in table.Values
    ensures (forall j :: 0 <= j < |ids| ==> ids[j] !in table) ==> r == []
  {
    if ids == [] then []
    else
      var rest := BatchGet(table, ids[1..]);
      assert forall j :: 1 <= j < |ids| ==> ids[j] == ids[1..][j - 1];
      if ids[0] in table then [table[ids[0]]] + rest else rest
  }

  /** `DeleteCommand` with `ALL_OLD`: that key is gone, every other entry is
      unchanged, and the old item (if any) is returned. There is no
      existence condition. */
  function DeleteItem<T>(table: Table<T>, id: string): (r: (Table<T>, Option<T>))
    ensures r.0.Keys == table.Keys - {id}
    ensures forall k :: k in r.0 ==> r.0[k] == table[k]
    ensures r.1 == GetItem(table, id)
  {
    (table - {id}, GetItem(table, id))
  }

  /** A full scan (`listWorkspace`, `listWorkflows`): every stored item
      exactly once, in the order the service returns them. */
  method ListItems<T(==)>(table: Table<T>) returns (items: seq<T>)
    ensures |items| == |table|
    ensures forall k :: k in table ==> table[k] in items
    ensures forall x :: x in items ==> x in table.Values
  {
    var rest := table;
    items := [];
    while rest != map[]
      invariant rest.Keys <= table.Keys
      invariant forall k :: k in rest ==> rest[k] == table[k]
      invariant |items| + |rest| == |table|
      invariant forall k :: k in table && k !in rest ==> table[k] in items
      invariant forall x :: x in items ==> x in table.Values
      decreases |rest|
    {
      var k :| k in rest;
      assert (rest - {k}).Keys == rest.Keys - {k};
      items := items + [rest[k]];
      rest := rest - {k};
    }
  }
}

=== FILE: flags.dfy ===
/** Feature flags (demo/website/src/providers/FlagsProvider.tsx): the
    deployment's runtime flags, overridden by the comma-separated
    `features` URL parameter, each flag on exactly when it is `true`. */
module Flags {
  import opened Wrappers
  import opened Strings
  import opened JsonValue

  const SEARCH_PARAM_FEATURES: string := "features"
  const FEATURE_FLAG_STREAMING: string := "streaming"

  /** The override read from the `features` parameter: every name listed
      is switched on; a missing or empty parameter overrides nothing. */
  function ParseFeatures(featureParam: Option<string>): (overrides: map<string, bool>)
    ensures featureParam.None? || featureParam.value == "" ==> overrides == map[]
    ensures featureParam.Some? && featureParam.value != "" ==>
      forall name :: name in overrides <==> name in Split(featureParam.value, ',')
    ensures forall name :: name in overrides ==> overrides[name]
  {
    if featureParam.None? || featureParam.value == "" then map[]
    else EnableAll(Split(featureParam.value, ','))
  }

  /** `names.reduce((aggr, f) => ({...aggr, [f]: true}), {})`. */
  function EnableAll(names: seq<string>): (m: map<string, bool>)
    ensures forall name :: name in m <==> name in names
    ensures forall name :: name in m ==> m[name]
  {
    if names == [] then map[]
    else EnableAll(names[..|names| - 1])[names[|names| - 1] := true]
  }

  /** `{...flags, ...flagsOverride}`: an override wins. */
  function MergeFlags(flags: Value, overrides: map<string, bool>): (merged: Record)
    ensures merged.Keys == Spread(flags).Keys + overrides.Keys
    ensures forall name :: name in overrides ==> merged[name] == Bool(overrides[name])
    ensures forall name :: name in Spread(flags) && name !in overrides ==> merged[name] == Spread(flags)[name]
  {
    Spread(flags) + map name | name in overrides :: Bool(overrides[name])
  }

  /** `useFeatureFlag(flag)`: strictly `true`, not merely truthy. */
  function FeatureFlag(flags: Record, flag: string): (on: bool)
    ensures on <==> flag in flags && flags[flag] == Bool(true)
    ensures flag in flags && (flags[flag].Str? || flags[flag].Num? || flags[flag].Obj?) ==> !on
  {
    Get(flags, flag) == Bool(true)
  }

  /** Naming a feature in the URL switches it on whatever the deployment
      says; without the parameter the deployment's value decides, and only
      a literal `true` counts. */
  lemma UrlSwitchesOn(flags: Value, param: string, flag: string)
    ensures flag in Split(param, ',') && param != "" ==> FeatureFlag(MergeFlags(flags, ParseFeatures(Some(param))), flag)
    ensures FeatureFlag(MergeFlags(flags, ParseFeatures(None)), flag) <==> Get(Spread(flags), flag) == Bool(true)
    ensures !FeatureFlag(MergeFlags(Obj(map[flag := Str("true")]), ParseFeatures(None)), flag)
  {
  }
}

=== FILE: json_value.dfy ===
/** JavaScript values as the system passes them around: chain state, parsed
    model output, request bodies, stored items. Numbers are integers (no
    floating point); objects are finite maps from property names to values. */
module JsonValue {
  import opened Wrappers
  import opened Strings

  datatype Value =
    | Undefined
    | Null
    | Bool(b: bool)
    | Num(n: int)
    | Str(s: string)
    | Arr(items: seq<Value>)
    | Obj(fields: map<string, Value>)

  /** A plain object's own properties; the chain state is one of these. */
  type Record = map<string, Value>

  /** JavaScript truthiness (`if (v)`), without `NaN`. */
  predicate Truthy(v: Value)
  {
    match v
    case Undefined => false
    case Null => false
    case Bool(b) => b
    case Num(n) => n != 0
    case Str(s) => s != ""
    case Arr(_) => true
    case Obj(_) => true
  }

  /** `v == null`: the values `??` and `?.` treat as missing. */
  predicate Nullish(v: Value)
  {
    v.Undefined? || v.Null?
  }

  /** `v ?? d` */
  function OrElse(v: Value, d: Value): Value
  {
    if Nullish(v) then d else v
  }

  /** `record[key]`: a missing property reads as `undefined`. */
  function Get(r: Record, key: string): Value
  {
    if key in r then r[key] else Undefined
  }

  /** `v?.[key]` on a plain value: only objects have own properties here. */
  function Property(v: Value, key: string): Value
  {
    if v.Obj? then Get(v.fields, key) else Undefined
  }

  /** `{...v}`: the own properties an object spread copies; spreading
      `undefined` or `null` copies nothing. JavaScript would spread an
      array or a string by index; here every non-object spreads to the
      empty record, which agrees wherever the spread value is an object,
      `undefined` or `null`. */
  function Spread(v: Value): Record
  {
    if v.Obj? then v.fields else map[]
  }

  /** `String(v)`, as template literals print a value. */
  function ToJsString(v: Value): string
  {
    match v
    case Undefined => "undefined"
    case Null => "null"
    case Bool(b) => if b then "true" else "false"
    case Num(n) => IntToString(n)
    case Str(s) => s
    case Arr(items) => JoinElements(items)
    case Obj(_) => "[object Object]"
  }

  /** `Array.prototype.join(",")`: `null` and `undefined` print as "". */
  function JoinElements(items: seq<Value>): string
  {
    if items == [] then ""
    else
      var first := if Nullish(items[0]) then "" else ToJsString(items[0]);
      if |items| == 1 then first else first + "," + JoinElements(items[1..])
  }

  /** A LangChain `Document`. `metadata` is whatever the search service
      returned for it, normally an object. */
  datatype Document = Document(pageContent: string, metadata: Value)

  /** A document as it sits in the chain state under `input_documents`. */
  function DocValue(d: Document): Value
  {
    Obj(map["pageContent" := Str(d.pageContent), "metadata" := d.metadata])
  }

  function DocsValue(ds: seq<Document>): Value
  {
    Arr(seq(|ds|, i requires 0 <= i < |ds| => DocValue(ds[i])))
  }

  /** Reads a document back from its value form. */
  function DocOf(v: Value): Option<Document>
  {
    if v.Obj? && v.fields.Keys == {"pageContent", "metadata"} && v.fields["pageContent"].Str?
    then Some(Document(v.fields["pageContent"].s, v.fields["metadata"]))
    else None
  }

  /** Reads a document array back from its value form; `None` for anything
      that is not an array of documents. */
  function DocsOf(v: Value): Option<seq<Document>>
  {
    if v.Arr? then DocItems(v.items) else None
  }

  function DocItems(items: seq<Value>): Option<seq<Document>>
  {
    if items == [] then Some([])
    else
      match (DocOf(items[0]), DocItems(items[1..]))
      case (Some(d), Some(ds)) => Some([d] + ds)
      case _ => None
  }

  /** Documents stored in the chain state read back unchanged. */
  lemma {:induction false} DocsRoundTrip(ds: seq<Document>)
    ensures DocsOf(DocsValue(ds)) == Some(ds)
  {
    DocItemsRoundTrip(ds);
  }

  lemma {:induction false} DocItemsRoundTrip(ds: seq<Document>)
    ensures DocItems(DocsValue(ds).items) == Some(ds)
  {
    var items := DocsValue(ds).items;
    if ds != [] {
      var d := ds[0];
      assert items[0] == DocValue(d);
      assert DocValue(d).fields.Keys == {"pageContent", "metadata"};
      assert DocOf(items[0]) == Some(d);
      assert items[1..] == DocsValue(ds[1..]).items;
      DocItemsRoundTrip(ds[1..]);
      assert [d] + ds[1..] == ds;
    }
  }

  /** Some layer defines `k`. */
  predicate DefinedIn(layers: seq<Record>, k: string)
  {
    exists i :: 0 <= i < |layers| && k in layers[i]
  }

  /** `{...layers[0], ...layers[1], ...}`: every key of every layer, the last
      layer that defines a key supplying its value. */
  function Overlay(layers: seq<Record>): (r: Record)
    ensures forall k :: k in r <==> DefinedIn(layers, k)
    ensures forall k :: k in r ==> LastDefining(layers, k) < |layers| && r[k] == layers[LastDefining(layers, k)][k]
  {
    if layers == [] then map[]
    else
      var init := Overlay(layers[..|layers| - 1]);
      OverlayLast(layers, init);
      init + layers[|layers| - 1]
  }

  /** Spreading one more layer over the spread of the others. */
  lemma OverlayLast(layers: seq<Record>, init: Record)
    requires layers != []
    requires var front := layers[..|layers| - 1];
      && (forall k :: k in init <==> DefinedIn(front, k))
      && (forall k :: k in init ==> LastDefining(front, k) < |front| && init[k] == front[LastDefining(front, k)][k])
    ensures var r := init + layers[|layers| - 1];
      && (forall k :: k in r <==> DefinedIn(layers, k))
      && (forall k :: k in r ==> LastDefining(layers, k) < |layers| && r[k] == layers[LastDefining(layers, k)][k])
  {
    var front := layers[..|layers| - 1];
    var r := init + layers[|layers| - 1];
    forall k | DefinedIn(front, k) ensures DefinedIn(layers, k) {
      var i :| 0 <= i < |front| && k in front[i];
      assert layers[i] == front[i];
    }
    forall k | DefinedIn(layers, k) ensures k in r {
      var i :| 0 <= i < |layers| && k in layers[i];
      if i < |layers| - 1 {
        assert front[i] == layers[i];
      }
    }
    forall k | k in r ensures LastDefining(layers, k) < |layers| && r[k] == layers[LastDefining(layers, k)][k] {
      if k !in layers[|layers| - 1] {
        assert LastDefining(layers, k) == LastDefining(front, k);
        assert layers[LastDefining(front, k)] == front[LastDefining(front, k)];
      }
    }
  }

  /** The index of the last layer that defines `k`: the layer a spread takes
      the value of `k` from. */
  function LastDefining(layers: seq<Record>, k: string): (i: nat)
    ensures DefinedIn(layers, k) ==> i < |layers| && k in layers[i]
    ensures forall j :: i < j < |layers| ==> k !in layers[j]
  {
    if layers == [] then 0
    else if k in layers[|layers| - 1] then |layers| - 1
    else
      var front := layers[..|layers| - 1];
      var i := LastDefining(front, k);
      assert DefinedIn(layers, k) ==> DefinedIn(front, k) by {
        if DefinedIn(layers, k) {
          var j :| 0 <= j < |layers| && k in layers[j];
          assert j < |layers| - 1;
          assert front[j] == layers[j];
        }
      }
      assert forall j :: i < j < |front| ==> front[j] == layers[j];
      i
  }
}

=== FILE: lists.dfy ===
/** Array operations the system builds its list edits and batching from:
    `slice` with JavaScript's index clamping, replace/remove at an index written
    as `[...prev.slice(0, i), x, ...prev.slice(i + 1)]`, fixed-size chunking
    and flattening. */
module Lists {
  import opened Wrappers

  function Min(a: nat, b: nat): nat { if a <= b then a else b }

  /** `s.slice(start, end)` for non-negative indices: both are clamped to the
      length, and an empty array results when `start >= end`. */
  function Slice<T>(s: seq<T>, start: nat, end: nat): (r: seq<T>)
    ensures |r| == if Min(start, |s|) <= Min(end, |s|) then Min(end, |s|) - Min(start, |s|) else 0
    ensures forall j :: 0 <= j < |r| ==> r[j] == s[start + j]
  {
    var a := Min(start, |s|);
    var b := Min(end, |s|);
    if a <= b then s[a..b] else []
  }

  /** `[...s.slice(0, i), x, ...s.slice(i + 1)]`. */
  function ReplaceAt<T>(s: seq<T>, i: nat, x: T): (r: seq<T>)
    ensures i < |s| ==> |r| == |s| && r[i] == x && forall j :: 0 <= j < |s| && j != i ==> r[j] == s[j]
    ensures i >= |s| ==> r == s + [x]
  {
    Slice(s, 0, i) + [x] + Slice(s, i + 1, |s|)
  }

  /** `[...s.slice(0, i), ...s.slice(i + 1)]`. */
  function RemoveAt<T>(s: seq<T>, i: nat): (r: seq<T>)
    ensures i < |s| ==> |r| == |s| - 1
    ensures i < |s| ==> forall j :: 0 <= j < i ==> r[j] == s[j]
    ensures i < |s| ==> forall j :: i <= j < |r| ==> r[j] == s[j + 1]
    ensures i >= |s| ==> r == s
  {
    Slice(s, 0, i) + Slice(s, i + 1, |s|)
  }

  /** Removing at a valid index takes out exactly one occurrence of that
      element and keeps every other element. */
  lemma RemoveAtMultiset<T>(s: seq<T>, i: nat)
    requires i < |s|
    ensures multiset(RemoveAt(s, i)) + multiset{s[i]} == multiset(s)
  {
    var r := RemoveAt(s, i);
    assert r == s[..i] + s[i + 1..];
    assert s == s[..i] + [s[i]] + s[i + 1..];
  }

  /** `lodash/chunk(s, n)`: consecutive slices of `n` elements, the last one
      possibly shorter. */
  function Chunks<T>(s: seq<T>, n: nat): (r: seq<seq<T>>)
    requires n > 0
    ensures Flatten(r) == s
    ensures forall j :: 0 <= j < |r| ==> 0 < |r[j]| <= n
    ensures forall j :: 0 <= j < |r| - 1 ==> |r[j]| == n
    decreases |s|
  {
    if |s| <= n then
      if s == [] then [] else [s]
    else
      var rest := Chunks(s[n..], n);
      FlattenCons(s[..n], rest);
      assert s[..n] + s[n..] == s;
      [s[..n]] + rest
  }

  /** Concatenation of all the inner sequences, in order. */
  function Flatten<T>(ss: seq<seq<T>>): seq<T>
  {
    if ss == [] then [] else ss[0] + Flatten(ss[1..])
  }

  lemma FlattenCons<T>(x: seq<T>, ss: seq<seq<T>>)
    ensures Flatten([x] + ss) == x + Flatten(ss)
  {
    assert ([x] + ss)[1..] == ss;
  }

  /** Flattening distributes over concatenation of the outer sequence. */
  lemma {:induction false} FlattenAppend<T>(a: seq<seq<T>>, b: seq<seq<T>>)
    ensures Flatten(a + b) == Flatten(a) + Flatten(b)
  {
    if a != [] {
      assert (a + b)[1..] == a[1..] + b;
      FlattenAppend(a[1..], b);
    } else {
      assert a + b == b;
    }
  }

  /** `xs.map((x, i) => f(x, i))` where `f` may throw: the first failure
      stops the map; otherwise element i is `f(xs[i], i)`. */
  function MapIndexed<T, U>(xs: seq<T>, f: (T, nat) -> Result<U>): (r: Result<seq<U>>)
    ensures r.Ok? <==> forall i :: 0 <= i < |xs| ==> f(xs[i], i).Ok?
    ensures r.Ok? ==> |r.value| == |xs| && forall i :: 0 <= i < |xs| ==> r.value[i] == f(xs[i], i).value
  {
    if xs == [] then Ok([])
    else
      var n := |xs| - 1;
      var init := MapIndexed(xs[..n], f);
      assert forall i :: 0 <= i < n ==> xs[..n][i] == xs[i];
      if init.Err? then Err(init.error)
      else
        var last := f(xs[n], n);
        if last.Err? then Err(last.error)
        else Ok(init.value + [last.value])
  }
}

=== FILE: model_types.dfy ===
/** Model frameworks (packages/galileo-sdk/src/models/types.ts): the two
    ways a foundation model can be invoked, and the type guards that tell
    them apart on a framework value read from configuration. */
module ModelTypes {
  import opened Wrappers
  import opened JsonValue

  /** The `ModelFramework` enum: exactly two tags. */
  datatype FrameworkType = SageMakerEndpoint | Bedrock

  function TypeName(t: FrameworkType): string
  {
    match t
    case SageMakerEndpoint => "SageMakerEndpoint"
    case Bedrock => "Bedrock"
  }

  /** A typed framework description, as `IModelFramework` declares it. */
  datatype ModelFramework =
    | SageMakerEndpointFramework(endpointName: string, endpointRegion: string, role: Option<string>,
                                 modelKwargs: Option<Record>, endpointKwargs: Option<Record>)
    | BedrockFramework(modelId: string, region: string, role: Option<string>,
                       modelKwargs: Option<Record>, endpointUrl: Option<string>)
  {
    function Type(): FrameworkType
    {
      if SageMakerEndpointFramework? then SageMakerEndpoint else Bedrock
    }
  }

  function OptionalString(o: Option<string>): Value
  {
    match o
    case Some(s) => Str(s)
    case None => Undefined
  }

  function OptionalRecord(o: Option<Record>): Value
  {
    match o
    case Some(r) => Obj(r)
    case None => Undefined
  }

  /** The framework as the JSON object configuration carries. */
  function Encode(f: ModelFramework): Value
  {
    match f
    case SageMakerEndpointFramework(name, region, role, mk, ek) =>
      Obj(map["type" := Str(TypeName(SageMakerEndpoint)), "endpointName" := Str(name),
              "endpointRegion" := Str(region), "role" := OptionalString(role),
              "modelKwargs" := OptionalRecord(mk), "endpointKwargs" := OptionalRecord(ek)])
    case BedrockFramework(id, region, role, mk, url) =>
      Obj(map["type" := Str(TypeName(Bedrock)), "modelId" := Str(id), "region" := Str(region),
              "role" := OptionalString(role), "modelKwargs" := OptionalRecord(mk),
              "endpointUrl" := OptionalString(url)])
  }

  /** The framework tag of a configuration value, when it is one of the two. */
  function TagOf(framework: Value): Option<FrameworkType>
  {
    var t := Property(framework, "type");
    if t == Str(TypeName(SageMakerEndpoint)) then Some(SageMakerEndpoint)
    else if t == Str(TypeName(Bedrock)) then Some(Bedrock)
    else None
  }

  /** `isSageMakerEndpointFramework(framework)`: `framework?.type === "SageMakerEndpoint"`. */
  function IsSageMakerEndpointFramework(framework: Value): (r: bool)
    ensures r <==> TagOf(framework) == Some(SageMakerEndpoint)
    ensures Nullish(framework) ==> !r
  {
    Property(framework, "type") == Str("SageMakerEndpoint")
  }

  /** `isBedrockFramework(framework)`: `framework?.type === "Bedrock"`. */
  function IsBedrockFramework(framework: Value): (r: bool)
    ensures r <==> TagOf(framework) == Some(Bedrock)
    ensures Nullish(framework) ==> !r
    ensures r ==> !IsSageMakerEndpointFramework(framework)
  {
    Property(framework, "type") == Str("Bedrock")
  }

  /** `isManagedDefaultFramework`: the managed default model is a SageMaker
      endpoint, so this guard is the SageMaker guard under another name. */
  function IsManagedDefaultFramework(framework: Value): (r: bool)
    ensures r == IsSageMakerEndpointFramework(framework)
  {
    Property(framework, "type") == Str("SageMakerEndpoint")
  }

  /** On a typed framework the guards read back exactly its tag. */
  lemma GuardsMatchTag(f: ModelFramework)
    ensures IsSageMakerEndpointFramework(Encode(f)) <==> f.SageMakerEndpointFramework?
    ensures IsBedrockFramework(Encode(f)) <==> f.BedrockFramework?
    ensures TagOf(Encode(f)) == Some(f.Type())
  {
    assert Property(Encode(f), "type") == Str(TypeName(f.Type()));
  }
}

=== FILE: pipeline_start.dfy ===
/** The first task of the corpus ingestion state machine
    (demo/infra/src/application/corpus/pipeline/handlers/task/start.ts):
    merge the execution's environment overrides, resolve the workspace's
    embedding model into environment variables for the later tasks, and
    report whether another execution of the state machine is running. */
module PipelineStart {
  import opened Wrappers
  import opened Strings
  import opened JsonValue
  import opened DdbTypes

  /** What the start step reads from outside: the workspace lookup (table name,
      workspace id), the vector table name of a workspace, and the ids of the
      state machine's RUNNING executions (`None` when the listing has no
      `executions`). */
  datatype Services = Services(
    getWorkspace: (Value, Value) -> Option<Workspace>,
    tableNameFor: Value -> string,
    listRunning: Value -> Option<seq<string>>)

  const SAGEMAKER_MODELS_KEY: string := "EMBEDDINGS_SAGEMAKER_MODELS"

  /** `workspace?.data?.indexing?.embeddingModel || null`. */
  function EmbeddingInfo(w: Option<Workspace>): (r: Option<EmbeddingModelInfo>)
    ensures r.Some? <==> w.Some? && w.value.data.Some? && w.value.data.value.indexing.Some?
    ensures r.Some? ==> r.value == w.value.data.value.indexing.value.embeddingModel
  {
    match w
    case None => None
    case Some(ws) =>
      match ws.data
      case None => None
      case Some(d) =>
        match d.indexing
        case None => None
        case Some(i) => Some(i.embeddingModel)
  }

  /** `state.X.Id`, which throws when `state.X` is missing. */
  function IdOf(state: Record, key: string): (r: Result<Value>)
    ensures Nullish(Get(state, key)) <==> r.Err?
    ensures r.Ok? ==> r.value == Property(Get(state, key), "Id")
  {
    var holder := Get(state, key);
    if Nullish(holder) then Err("Cannot read properties of " + ToJsString(holder) + " (reading 'Id')")
    else Ok(Property(holder, "Id"))
  }

  /** `executionArn != execution.executionArn`: a non-string id differs from
      every listed arn. */
  predicate Differs(executionArn: Value, listed: string)
  {
    !(executionArn.Str? && executionArn.s == listed)
  }

  /** Some RUNNING execution other than this one is listed. */
  predicate AnotherExecutionRunning(executions: Option<seq<string>>, executionArn: Value)
  {
    executions.Some? && exists j :: 0 <= j < |executions.value| && Differs(executionArn, executions.value[j])
  }

  /** The scan over the listed executions, returning at the first one that
      is not this execution. */
  method IsRunning(executions: Option<seq<string>>, executionArn: Value) returns (running: bool)
    ensures running <==> AnotherExecutionRunning(executions, executionArn)
  {
    if executions.None? {
      return false;
    }
    var listed := executions.value;
    var j := 0;
    while j < |listed|
      invariant 0 <= j <= |listed|
      invariant forall k :: 0 <= k < j ==> !Differs(executionArn, listed[k])
    {
      if Differs(executionArn, listed[j]) {
        return true;
      }
      j := j + 1;
    }
    return false;
  }

  /** The environment the later tasks see: the state's environment under the
      overrides' environment, plus the embedding table, model id and vector
      size, without the SageMaker models JSON. */
  function DerivedEnvironment(base: Record, workspaceId: Value, info: EmbeddingModelInfo, tableNameFor: Value -> string): (env: Record)
    ensures env.Keys == (base.Keys - {SAGEMAKER_MODELS_KEY}) + {"EMBEDDING_TABLENAME", "EMBEDDING_MODEL_ID", "EMBEDDING_MODEL_VECTOR_SIZE"}
    ensures env["EMBEDDING_TABLENAME"] == Str(tableNameFor(workspaceId))
    ensures env["EMBEDDING_MODEL_ID"] == Str(info.modelId)
    ensures env["EMBEDDING_MODEL_VECTOR_SIZE"] == Str(IntToString(info.dimensions))
    ensures forall k :: k in base && k !in {SAGEMAKER_MODELS_KEY, "EMBEDDING_TABLENAME", "EMBEDDING_MODEL_ID", "EMBEDDING_MODEL_VECTOR_SIZE"} ==>
      env[k] == base[k]
  {
    var withInfo := base["EMBEDDING_TABLENAME" := Str(tableNameFor(workspaceId))]
                        ["EMBEDDING_MODEL_ID" := Str(info.modelId)]
                        ["EMBEDDING_MODEL_VECTOR_SIZE" := Str(IntToString(info.dimensions))];
    withInfo - {SAGEMAKER_MODELS_KEY}
  }

  /** `{...state, ...overrides, Environment, ExecutionStatus}`: the
      overrides replace the state's fields, and the two computed fields
      replace both. */
  function TaskOutput(state: Record, overrides: Value, environment: Record, running: bool): (out: Record)
    ensures out.Keys == state.Keys + Spread(overrides).Keys + {"Environment", "ExecutionStatus"}
    ensures out["Environment"] == Obj(environment)
    ensures out["ExecutionStatus"] == Obj(map["IsRunning" := Bool(running)])
    ensures forall k :: k in Spread(overrides) && k !in {"Environment", "ExecutionStatus"} ==> out[k] == Spread(overrides)[k]
    ensures forall k :: k in state && k !in Spread(overrides) && k !in {"Environment", "ExecutionStatus"} ==> out[k] == state[k]
  {
    (state + Spread(overrides))["Environment" := Obj(environment)]["ExecutionStatus" := Obj(map["IsRunning" := Bool(running)])]
  }

  /** The environment after the overrides: `{...state.Environment,
      ...overrides.Environment}`. */
  function MergedEnvironment(state: Record): (env: Record)
    ensures env.Keys == Spread(Get(state, "Environment")).Keys + Spread(Property(Overrides(state), "Environment")).Keys
    ensures forall k :: k in Spread(Property(Overrides(state), "Environment")) ==> env[k] == Spread(Property(Overrides(state), "Environment"))[k]
    ensures forall k :: k in Spread(Get(state, "Environment")) && k !in Spread(Property(Overrides(state), "Environment")) ==>
      env[k] == Spread(Get(state, "Environment"))[k]
  {
    Spread(Get(state, "Environment")) + Spread(Property(Overrides(state), "Environment"))
  }

  /** `lambdaHandler(state)`. */
  function Start(state: Record, s: Services): (r: Result<Record>)
    ensures IdOf(state, "StateMachine").Err? || IdOf(state, "Execution").Err? ==> r.Err?
    ensures var env := MergedEnvironment(state);
      IdOf(state, "StateMachine").Ok? && IdOf(state, "Execution").Ok? ==>
        && (!Truthy(Get(env, "WORKSPACE_ID")) ==> r == Err("WORKSPACE_ID is not provided"))
        && (Truthy(Get(env, "WORKSPACE_ID"))
            && EmbeddingInfo(s.getWorkspace(Get(env, "WORKSPACE_TABLE"), Get(env, "WORKSPACE_ID"))).None? ==>
              r == Err("Unable to locate embedding model info for workspace " + ToJsString(Get(env, "WORKSPACE_ID"))))
    ensures r.Ok? ==>
      var env := MergedEnvironment(state);
      var info := EmbeddingInfo(s.getWorkspace(Get(env, "WORKSPACE_TABLE"), Get(env, "WORKSPACE_ID")));
      && IdOf(state, "StateMachine").Ok? && IdOf(state, "Execution").Ok?
      && Truthy(Get(env, "WORKSPACE_ID")) && info.Some?
      && r.value == TaskOutput(state, Overrides(state),
                               DerivedEnvironment(env, Get(env, "WORKSPACE_ID"), info.value, s.tableNameFor),
                               AnotherExecutionRunning(s.listRunning(IdOf(state, "StateMachine").value), IdOf(state, "Execution").value))
  {
    var stateMachineArn :- IdOf(state, "StateMachine");
    var executionArn :- IdOf(state, "Execution");
    var env := MergedEnvironment(state);
    var workspaceId := Get(env, "WORKSPACE_ID");
    if !Truthy(workspaceId) then Err("WORKSPACE_ID is not provided")
    else
      match EmbeddingInfo(s.getWorkspace(Get(env, "WORKSPACE_TABLE"), workspaceId))
      case None => Err("Unable to locate embedding model info for workspace " + ToJsString(workspaceId))
      case Some(info) =>
        var environment := DerivedEnvironment(env, workspaceId, info, s.tableNameFor);
        Ok(TaskOutput(state, Overrides(state), environment, AnotherExecutionRunning(s.listRunning(stateMachineArn), executionArn)))
  }

  /** `state.Execution.Input || {}`. */
  function Overrides(state: Record): (o: Value)
    ensures Truthy(Property(Get(state, "Execution"), "Input")) ==> o == Property(Get(state, "Execution"), "Input")
    ensures !Truthy(Property(Get(state, "Execution"), "Input")) ==> o == Obj(map[])
  {
    var input := Property(Get(state, "Execution"), "Input");
    if Truthy(input) then input else Obj(map[])
  }

  /** An execution alone in the listing is not "running" again, whatever
      else the listing holds is. */
  lemma AloneIsNotRunning(arn: string, others: seq<string>)
    ensures !AnotherExecutionRunning(Some([arn]), Str(arn))
    ensures AnotherExecutionRunning(Some(others), Str(arn)) <==> exists j :: 0 <= j < |others| && others[j] != arn
    ensures !AnotherExecutionRunning(None, Str(arn))
  {
  }

  /** The environment handed on never carries the SageMaker models JSON,
      always names the embedding model, and keeps every other override. */
  lemma StartEnvironment(state: Record, s: Services)
    requires Start(state, s).Ok?
    ensures var env := Start(state, s).value["Environment"];
      && env.Obj? && SAGEMAKER_MODELS_KEY !in env.fields
      && "EMBEDDING_MODEL_ID" in env.fields && env.fields["EMBEDDING_MODEL_ID"].Str?
      && forall k :: (k in Spread(Property(Overrides(state), "Environment"))
                      && k !in {SAGEMAKER_MODELS_KEY, "EMBEDDING_TABLENAME", "EMBEDDING_MODEL_ID", "EMBEDDING_MODEL_VECTOR_SIZE"}) ==>
           k in env.fields && env.fields[k] == Spread(Property(Overrides(state), "Environment"))[k]
  {
  }
}

=== FILE: router_select.dfy ===
/** Editing a router workspace's targets
    (demo/website/src/components/workspaces/components/WorkspaceRouterSelect.tsx):
    each target is a workspace id with a content hint; targets are edited in
    place, removed, or added with the first listed workspace preselected. */
module RouterSelect {
  import opened Wrappers
  import opened Lists
  import opened DdbTypes
  import WorkflowBuilder

  /** A select option. */
  datatype SelectOption = SelectOption(value: string, optionLabel: string, description: string)

  /** `workspaceToOption(workspace)`: selected by id, shown by name, described
      by type. */
  function WorkspaceToOption(w: Workspace): (o: SelectOption)
    ensures o.value == w.workspaceId && o.optionLabel == w.name && o.description == WorkspaceTypeName(w.workspaceType)
  {
    SelectOption(w.workspaceId, w.name, WorkspaceTypeName(w.workspaceType))
  }

  /** The option shown as selected for a workspace id: the listed workspace
      with that id (`Object.fromEntries` keeps the last), or nothing when
      no listed workspace has it. */
  function SelectedOption(all: seq<Workspace>, id: string): (o: Option<SelectOption>)
    ensures o.Some? <==> exists j :: 0 <= j < |all| && all[j].workspaceId == id
    ensures o.Some? ==> o.value.value == id && exists j :: 0 <= j < |all| && o.value == WorkspaceToOption(all[j])
    ensures o.Some? ==> exists j :: 0 <= j < |all| && all[j].workspaceId == id && o.value == WorkspaceToOption(all[j])
                                    && forall k :: j < k < |all| ==> all[k].workspaceId != id
  {
    var byId := WorkflowBuilder.Lookup(all);
    if id in byId then
      LookupKeepsLast(all, id);
      Some(WorkspaceToOption(byId[id]))
    else None
  }

  /** The index of the last listed workspace with the id, or -1. */
  function LastWith(ws: seq<Workspace>, id: string): (j: int)
    ensures -1 <= j < |ws|
    ensures j >= 0 ==> ws[j].workspaceId == id
    ensures forall k :: j < k < |ws| ==> ws[k].workspaceId != id
  {
    if ws == [] then -1
    else if ws[|ws| - 1].workspaceId == id then |ws| - 1
    else LastWith(ws[..|ws| - 1], id)
  }

  /** Keyed by id, a later workspace replaces an earlier one with the same
      id: the entry under an id is its last listed workspace. */
  lemma {:induction false} LookupKeepsLast(ws: seq<Workspace>, id: string)
    requires id in WorkflowBuilder.Lookup(ws)
    ensures 0 <= LastWith(ws, id) && WorkflowBuilder.Lookup(ws)[id] == ws[LastWith(ws, id)]
  {
    var init := ws[..|ws| - 1];
    var last := ws[|ws| - 1];
    if last.workspaceId != id {
      assert WorkflowBuilder.Lookup(ws) == WorkflowBuilder.Lookup(init)[last.workspaceId := last];
      LookupKeepsLast(init, id);
      assert ws[LastWith(init, id)] == init[LastWith(init, id)];
    }
  }

  /** A partial target, as the id select and the hint textarea send it. */
  datatype TargetPatch = TargetPatch(id: Option<string>, description: Option<string>)

  /** `{...target, ...patch}`. */
  function ApplyPatch(t: RouterTarget, p: TargetPatch): (r: RouterTarget)
    ensures r.id == (if p.id.Some? then p.id.value else t.id)
    ensures r.description == (if p.description.Some? then p.description.value else t.description)
  {
    RouterTarget(p.id.GetOr(t.id), p.description.GetOr(t.description))
  }

  /** `updateWorkspace(i, value)`: target `i` takes the patched fields;
      every other target is unchanged. */
  function UpdateTarget(prev: seq<RouterTarget>, i: nat, p: TargetPatch): (r: seq<RouterTarget>)
    requires i < |prev|
    ensures |r| == |prev| && r[i] == ApplyPatch(prev[i], p)
    ensures forall j :: 0 <= j < |prev| && j != i ==> r[j] == prev[j]
  {
    ReplaceAt(prev, i, ApplyPatch(prev[i], p))
  }

  /** The close button of target `i`. */
  function RemoveTarget(prev: seq<RouterTarget>, i: nat): (r: seq<RouterTarget>)
    ensures i < |prev| ==> multiset(r) + multiset{prev[i]} == multiset(prev)
    ensures i < |prev| ==> |r| == |prev| - 1 && forall j :: 0 <= j < i ==> r[j] == prev[j]
    ensures i < |prev| ==> forall j :: i < j < |prev| ==> r[j - 1] == prev[j]
    ensures i >= |prev| ==> r == prev
  {
    if i < |prev| then RemoveAtMultiset(prev, i); RemoveAt(prev, i)
    else RemoveAt(prev, i)
  }

  function AddTargetMessage(): string
  {
    "TypeError: Cannot read properties of undefined (reading 'workspaceId')"
  }

  /** The "Add Workspace" button as written: `allWorkspaces[0].workspaceId`
      without optional chaining, which throws when no workspace is listed. */
  function AddTargetAsWritten(prev: seq<RouterTarget>, all: seq<Workspace>): (r: Result<seq<RouterTarget>>)
    ensures all == [] <==> r.Err?
    ensures r.Ok? ==> r.value == prev + [RouterTarget(all[0].workspaceId, "")]
  {
    if all == [] then Err(AddTargetMessage())
    else Ok(prev + [RouterTarget(all[0].workspaceId, "")])
  }

  /** The "Add Workspace" button as intended (and as the sequence editor
      does it): a new target with an empty hint, preselecting the first
      listed workspace, or no workspace when none is listed. */
  function AddTarget(prev: seq<RouterTarget>, all: seq<Workspace>): (r: seq<RouterTarget>)
    ensures |r| == |prev| + 1 && r[..|prev|] == prev
    ensures r[|prev|].description == ""
    ensures all != [] ==> r[|prev|].id == all[0].workspaceId
    ensures all == [] ==> r[|prev|].id == ""
  {
    prev + [RouterTarget(if all == [] then "" else all[0].workspaceId, "")]
  }

  /** With no workspace listed, adding a target throws as written but adds
      an empty target as intended; otherwise the two agree. */
  lemma AddTargetOnEmptyListing(prev: seq<RouterTarget>, all: seq<Workspace>)
    ensures all == [] ==> AddTargetAsWritten(prev, all).Err? && AddTarget(prev, all) == prev + [RouterTarget("", "")]
    ensures all != [] ==> AddTargetAsWritten(prev, all) == Ok(AddTarget(prev, all))
  {
  }

  /** Adding a target and removing it again restores the targets. */
  lemma AddThenRemove(prev: seq<RouterTarget>, all: seq<Workspace>)
    ensures RemoveTarget(AddTarget(prev, all), |prev|) == prev
  {
    var added := AddTarget(prev, all);
    assert RemoveAt(added, |prev|) == added[..|prev|];
  }
}

=== FILE: search.dfy ===
/** The document retriever (packages/galileo-sdk/src/chat/search.ts): one
    retriever per workspace, posting the query to the corpus search endpoint
    and turning the response into documents. The HTTP call is a parameter. */
module Search {
  import opened Wrappers
  import opened Strings
  import opened JsonValue

  /** `SearchRetrieverInput`: the options shared by every step's retriever. */
  datatype SearchRetrieverInput = SearchRetrieverInput(
    baseUrl: string,
    limit: Option<int>,
    filter: Option<Record>,
    modelRefKey: Option<string>)

  /** A constructed `SearchRetriever`. */
  datatype SearchRetriever = SearchRetriever(
    url: string,
    k: int,
    filter: Option<Record>,
    modelRefKey: Option<string>)

  /** The HTTP response the retriever sees. Reading the body as text or as
      JSON may fail; each reading is given. */
  datatype HttpResponse = HttpResponse(status: int, statusText: string, text: Result<string>, json: Result<Value>)
  {
    /** `response.ok` */
    predicate Ok() { 200 <= status <= 299 }
  }

  /** The fetch function: POSTs the serialised body to the url. A failed
      request is an error. */
  type Fetch = (string, string) -> Result<HttpResponse>

  const DEFAULT_K: int := 5

  /** The search endpoint of a workspace. */
  function SearchUrl(baseUrl: string, workspaceId: string): string
  {
    baseUrl + "workspace/" + workspaceId + "/search"
  }

  /** `new SearchRetriever({...input, workspaceId})`. */
  function NewSearchRetriever(input: SearchRetrieverInput, workspaceId: string): (r: SearchRetriever)
    ensures r.url == SearchUrl(input.baseUrl, workspaceId)
    ensures input.limit.None? ==> r.k == DEFAULT_K
    ensures input.limit.Some? ==> r.k == input.limit.value
    ensures r.filter == input.filter && r.modelRefKey == input.modelRefKey
  {
    SearchRetriever(SearchUrl(input.baseUrl, workspaceId), input.limit.GetOr(DEFAULT_K), input.filter, input.modelRefKey)
  }

  /** Retrievers built from the same options for different workspaces post to
      different endpoints: a step only ever searches its own workspace. */
  lemma SearchUrlInjective(baseUrl: string, w1: string, w2: string)
    requires SearchUrl(baseUrl, w1) == SearchUrl(baseUrl, w2)
    ensures w1 == w2
  {
    var p := baseUrl + "workspace/";
    var u1 := SearchUrl(baseUrl, w1);
    var u2 := SearchUrl(baseUrl, w2);
    assert u1 == p + w1 + "/search";
    assert u2 == p + w2 + "/search";
    assert |w1| == |w2|;
    assert w1 == u1[|p|..|p| + |w1|];
    assert w2 == u2[|p|..|p| + |w2|];
  }

  /** `createJsonBody(query)`: the query and `k` always; `filter` and
      `modelRefKey` only when configured (truthy). */
  function CreateJsonBody(r: SearchRetriever, query: Value): (body: Record)
    ensures "query" in body && body["query"] == query
    ensures "k" in body && body["k"] == Num(r.k)
    ensures "filter" in body <==> r.filter.Some?
    ensures r.filter.Some? ==> body["filter"] == Obj(r.filter.value)
    ensures "modelRefKey" in body <==> r.modelRefKey.Some? && r.modelRefKey.value != ""
    ensures "modelRefKey" in body ==> body["modelRefKey"] == Str(r.modelRefKey.value)
    ensures body.Keys <= {"query", "k", "filter", "modelRefKey"}
  {
    var base := map["query" := query, "k" := Num(r.k)];
    var withFilter := if r.filter.Some? then base["filter" := Obj(r.filter.value)] else base;
    if r.modelRefKey.Some? && r.modelRefKey.value != "" then withFilter["modelRefKey" := Str(r.modelRefKey.value)]
    else withFilter
  }

  /** What `responseError` reports about a failed response. */
  datatype ResponseErrorInfo = ResponseErrorInfo(status: int, statusText: string, errorMessage: string)

  /** `responseError(response)`: the body text, or `String(error)` when the
      body cannot be read; status and status text are kept either way. */
  function ResponseError(response: HttpResponse): (e: ResponseErrorInfo)
    ensures e.status == response.status && e.statusText == response.statusText
    ensures response.text.Ok? ==> e.errorMessage == response.text.value
    ensures response.text.Err? ==> e.errorMessage == "Error: " + response.text.error
  {
    match response.text
    case Ok(t) => ResponseErrorInfo(response.status, response.statusText, t)
    case Err(msg) => ResponseErrorInfo(response.status, response.statusText, "Error: " + msg)
  }

  /** The error message of a non-ok response. */
  function FailedRetrievalMessage(url: string, response: HttpResponse): string
  {
    "Failed to retrieve documents from " + url + ": " + IntToString(response.status) + " " + response.statusText
  }

  /** `processJsonResponse(json)`: `json.documents` mapped to documents with
      `pageContent` (converted to a string, "" when missing) and `metadata`. */
  function ProcessJsonResponse(json: Value): (r: Result<seq<Document>>)
    ensures Nullish(json) ==> r.Err?
    ensures !Nullish(json) && !Property(json, "documents").Arr? ==> r == Err("json.documents.map is not a function")
    ensures !Nullish(json) && Property(json, "documents").Arr? ==>
      var items := Property(json, "documents").items;
      && (r.Ok? <==> forall i :: 0 <= i < |items| ==> !Nullish(items[i]))
      && (r.Ok? ==> |r.value| == |items| && forall i :: 0 <= i < |items| ==> FromItem(items[i], r.value[i]))
  {
    var docs := Property(json, "documents");
    if Nullish(json) then Err("Cannot read properties of " + ToJsString(json) + " (reading 'documents')")
    else if !docs.Arr? then Err("json.documents.map is not a function")
    else ResponseDocuments(docs.items)
  }

  /** A document read from one response item: `pageContent` as a string
      ("" when missing), `metadata` defaulting to `{}` when nullish. */
  predicate FromItem(item: Value, d: Document)
  {
    var content := Property(item, "pageContent");
    && (content.Undefined? ==> d.pageContent == "")
    && (content.Str? ==> d.pageContent == content.s)
    && (!content.Undefined? ==> d.pageContent == ToJsString(content))
    && (Nullish(Property(item, "metadata")) ==> d.metadata == Obj(map[]))
    && (!Nullish(Property(item, "metadata")) ==> d.metadata == Property(item, "metadata"))
  }

  function ResponseDocuments(items: seq<Value>): (r: Result<seq<Document>>)
    ensures r.Ok? ==> |r.value| == |items|
    ensures r.Ok? <==> forall i :: 0 <= i < |items| ==> !Nullish(items[i])
    ensures r.Ok? ==> forall i :: 0 <= i < |items| ==> FromItem(items[i], r.value[i])
  {
    if items == [] then Ok([])
    else if Nullish(items[0]) then Err("Cannot read properties of " + ToJsString(items[0]) + " (reading 'pageContent')")
    else
      var content := Property(items[0], "pageContent");
      var metadata := OrElse(Property(items[0], "metadata"), Obj(map[]));
      var d := Document(if content.Undefined? then "" else ToJsString(content), metadata);
      var rest :- ResponseDocuments(items[1..]);
      Ok([d] + rest)
  }

  /** `_getRelevantDocuments(query)`: POST the body; a non-ok status fails
      with the url, status and status text and yields no documents. */
  function GetRelevantDocuments(r: SearchRetriever, query: Value, fetch: Fetch, stringify: Value -> string): (res: Result<seq<Document>>)
    ensures var sent := fetch(r.url, stringify(Obj(CreateJsonBody(r, query))));
      && (sent.Err? ==> res.Err?)
      && (sent.Ok? && !sent.value.Ok() ==> res == Err(FailedRetrievalMessage(r.url, sent.value)))
      && (res.Ok? ==> sent.Ok? && sent.value.Ok() && sent.value.json.Ok?)
  {
    var response :- fetch(r.url, stringify(Obj(CreateJsonBody(r, query))));
    if !response.Ok() then Err(FailedRetrievalMessage(r.url, response))
    else
      var json :- response.json;
      ProcessJsonResponse(json)
  }
}

=== FILE: sequence_editor.dfy ===
/** Editing a workflow's ordered workspace ids
    (demo/website/src/components/workspaces/components/WorkspaceSequenceEditor.tsx). */
module SequenceEditor {
  import opened Lists
  import opened DdbTypes

  /** Choosing workspace `id` for step `i`. */
  function SelectStep(prev: seq<string>, i: nat, id: string): (r: seq<string>)
    ensures i < |prev| ==> |r| == |prev| && r[i] == id && forall j :: 0 <= j < |prev| && j != i ==> r[j] == prev[j]
    ensures i >= |prev| ==> r == prev + [id]
  {
    ReplaceAt(prev, i, id)
  }

  /** The close button of step `i`. */
  function RemoveStep(prev: seq<string>, i: nat): (r: seq<string>)
    ensures i < |prev| ==> multiset(r) + multiset{prev[i]} == multiset(prev)
    ensures i < |prev| ==> |r| == |prev| - 1 && r == prev[..i] + prev[i + 1..]
    ensures i >= |prev| ==> r == prev
  {
    if i < |prev| then RemoveAtMultiset(prev, i); RemoveAt(prev, i)
    else RemoveAt(prev, i)
  }

  /** "Add Workspace": a new last step on the first listed workspace, or
      an empty id when none is listed. */
  function AddStep(prev: seq<string>, all: seq<Workspace>): (r: seq<string>)
    ensures |r| == |prev| + 1 && r[..|prev|] == prev
    ensures all != [] ==> r[|prev|] == all[0].workspaceId
    ensures all == [] ==> r[|prev|] == ""
  {
    prev + [if all == [] then "" else all[0].workspaceId]
  }

  /** A caret follows step `i` when another step comes after it. */
  predicate ShowCaret(ids: seq<string>, i: nat)
  {
    i < |ids| - 1
  }

  /** Carets sit exactly between consecutive steps: every step but the last
      has one, and appending a step gives the old last step a caret. */
  lemma CaretsBetweenSteps(ids: seq<string>, all: seq<Workspace>)
    ensures forall i :: 0 <= i < |ids| ==> (ShowCaret(ids, i) <==> i != |ids| - 1)
    ensures ids != [] ==> ShowCaret(AddStep(ids, all), |ids| - 1) && !ShowCaret(AddStep(ids, all), |ids|)
  {
  }

  /** Adding a step and removing it again restores the sequence; selecting
      at a step never changes the number of steps. */
  lemma EditsKeepSequence(ids: seq<string>, all: seq<Workspace>, i: nat, id: string)
    ensures RemoveStep(AddStep(ids, all), |ids|) == ids
    ensures i < |ids| ==> |SelectStep(ids, i, id)| == |ids|
  {
    assert AddStep(ids, all)[..|ids|] == ids;
  }
}

=== FILE: strings.dfy ===
/** The JavaScript string operations the system relies on: `split` on a
    one-character separator, `join`, "last segment after a separator",
    `startsWith`, `includes`, and the decimal rendering of integers used by
    template literals and `String(n)`. */
module Strings {

  /** `s.split(sep)` for a one-character separator: the pieces between
      separators, always at least one (`"".split("/")` is `[""]`). */
  function Split(s: string, sep: char): (parts: seq<string>)
    ensures |parts| >= 1
  {
    if s == [] then [""]
    else
      var rest := Split(s[1..], sep);
      if s[0] == sep then [""] + rest
      else [[s[0]] + rest[0]] + rest[1..]
  }

  /** `parts.join(sep)`. */
  function Join(parts: seq<string>, sep: string): string
  {
    if parts == [] then ""
    else if |parts| == 1 then parts[0]
    else parts[0] + sep + Join(parts[1..], sep)
  }

  /** Joining two or more parts puts the separator after the first. */
  lemma JoinFirst(parts: seq<string>, sep: string)
    requires |parts| >= 2
    ensures Join(parts, sep) == parts[0] + sep + Join(parts[1..], sep)
  {
  }

  /** `parts[parts.length - 1]` after `s.split(sep)`. */
  function LastSegment(s: string, sep: char): string
  {
    var parts := Split(s, sep);
    parts[|parts| - 1]
  }

  /** A string without the separator is a single piece. */
  lemma {:induction false} SplitWithoutSeparator(s: string, sep: char)
    requires sep !in s
    ensures Split(s, sep) == [s]
  {
    if s != [] {
      SplitWithoutSeparator(s[1..], sep);
      assert [s[0]] + s[1..] == s;
    }
  }

  /** Splitting at the first separator: the piece before it comes first, the
      rest is split on its own. */
  lemma {:induction false} SplitAtFirstSeparator(a: string, b: string, sep: char)
    requires sep !in a
    ensures Split(a + [sep] + b, sep) == [a] + Split(b, sep)
  {
    if a == [] {
      assert a + [sep] + b == [sep] + b;
      assert ([sep] + b)[1..] == b;
    } else {
      var s := a + [sep] + b;
      assert s[0] == a[0];
      assert s[1..] == a[1..] + [sep] + b;
      SplitAtFirstSeparator(a[1..], b, sep);
      assert [a[0]] + a[1..] == a;
    }
  }

  /** Joining pieces that hold no separator and splitting again gives the
      pieces back: `split` inverts `join`. */
  lemma {:induction false} SplitJoinRoundTrip(parts: seq<string>, sep: char)
    requires |parts| >= 1
    requires forall i :: 0 <= i < |parts| ==> sep !in parts[i]
    ensures Split(Join(parts, [sep]), sep) == parts
  {
    if |parts| == 1 {
      SplitWithoutSeparator(parts[0], sep);
    } else {
      SplitJoinRoundTrip(parts[1..], sep);
      SplitAtFirstSeparator(parts[0], Join(parts[1..], [sep]), sep);
      assert parts[0] + [sep] + Join(parts[1..], [sep]) == Join(parts, [sep]);
      assert [parts[0]] + parts[1..] == parts;
    }
  }

  /** Joining the pieces of a split with the same separator restores the
      string: `join` inverts `split`. */
  lemma {:induction false} JoinSplitRoundTrip(s: string, sep: char)
    ensures Join(Split(s, sep), [sep]) == s
  {
    if s != [] {
      JoinSplitRoundTrip(s[1..], sep);
      var rest := Split(s[1..], sep);
      if s[0] == sep {
        assert Split(s, sep) == [""] + rest;
        assert ([""] + rest)[1..] == rest;
        assert [s[0]] + s[1..] == s;
      } else {
        var parts := Split(s, sep);
        assert parts == [[s[0]] + rest[0]] + rest[1..];
        if |rest| == 1 {
          assert [s[0]] + s[1..] == s;
        } else {
          assert parts[1..] == rest[1..];
          assert Join(rest, [sep]) == rest[0] + [sep] + Join(rest[1..], [sep]);
          assert [s[0]] + s[1..] == s;
        }
      }
    }
  }

  /** The last segment is the text after the last separator: a suffix of the
      string with no separator in it, preceded by a separator unless it is the
      whole string. */
  lemma {:induction false} LastSegmentIsTextAfterLastSeparator(s: string, sep: char)
    ensures var r := LastSegment(s, sep);
      && |r| <= |s|
      && r == s[|s| - |r|..]
      && sep !in r
      && (|r| < |s| ==> s[|s| - |r| - 1] == sep)
      && (sep !in s ==> r == s)
  {
    LastSegmentFacts(s, sep);
  }

  lemma {:induction false} LastSegmentFacts(s: string, sep: char)
    ensures var parts := Split(s, sep);
      var r := parts[|parts| - 1];
      && |r| <= |s|
      && r == s[|s| - |r|..]
      && sep !in r
      && (|parts| == 1 <==> sep !in s)
      && (|parts| == 1 ==> r == s)
      && (|parts| > 1 ==> |r| < |s| && s[|s| - |r| - 1] == sep)
  {
    if s != [] {
      LastSegmentFacts(s[1..], sep);
      var rest := Split(s[1..], sep);
      var parts := Split(s, sep);
      if s[0] == sep {
        assert parts == [""] + rest;
        assert parts[|parts| - 1] == rest[|rest| - 1];
        assert s[0] in s;
      } else {
        assert parts == [[s[0]] + rest[0]] + rest[1..];
        if |rest| == 1 {
          assert parts == [[s[0]] + s[1..]];
          assert [s[0]] + s[1..] == s;
          assert sep !in s by {
            forall j | 0 <= j < |s| ensures s[j] != sep {
              if j > 0 { assert s[j] == s[1..][j - 1]; }
            }
          }
        } else {
          assert parts[|parts| - 1] == rest[|rest| - 1];
          var r := rest[|rest| - 1];
          assert s[1..][|s| - 1 - |r| - 1] == sep;
          assert sep in s[1..];
          assert sep in s by {
            var j :| 0 <= j < |s[1..]| && s[1..][j] == sep;
            assert s[j + 1] == sep;
          }
        }
      }
    }
  }

  /** `s.startsWith(prefix)`. */
  predicate StartsWith(s: string, prefix: string)
  {
    |prefix| <= |s| && s[..|prefix|] == prefix
  }

  /** `s.includes(sub)`, scanning from the front. */
  predicate Includes(s: string, sub: string)
    decreases |s|
  {
    StartsWith(s, sub) || (s != [] && Includes(s[1..], sub))
  }

  /** `sub` occurs in `s` starting at index `i`. */
  predicate OccursAt(s: string, sub: string, i: int)
  {
    0 <= i <= |s| - |sub| && s[i..i + |sub|] == sub
  }

  /** `Includes` holds exactly when `sub` occurs at some position of `s`. */
  lemma {:induction false} IncludesMeansOccurs(s: string, sub: string)
    ensures Includes(s, sub) <==> exists i :: OccursAt(s, sub, i)
    decreases |s|
  {
    if s != [] {
      IncludesMeansOccurs(s[1..], sub);
      if Includes(s[1..], sub) {
        var i :| OccursAt(s[1..], sub, i);
        assert s[i + 1..i + 1 + |sub|] == s[1..][i..i + |sub|];
        assert OccursAt(s, sub, i + 1);
      }
      if StartsWith(s, sub) {
        assert OccursAt(s, sub, 0);
      }
      if exists i :: OccursAt(s, sub, i) {
        var i :| OccursAt(s, sub, i);
        if i > 0 {
          assert s[1..][i - 1..i - 1 + |sub|] == s[i..i + |sub|];
          assert OccursAt(s[1..], sub, i - 1);
        }
      }
    } else {
      if StartsWith(s, sub) {
        assert OccursAt(s, sub, 0);
      }
      if exists i :: OccursAt(s, sub, i) {
        var i :| OccursAt(s, sub, i);
        assert i == 0;
      }
    }
  }

  function DigitChar(d: nat): char
    requires d < 10
  {
    "0123456789"[d]
  }

  function DigitValue(c: char): nat
  {
    if '0' <= c <= '9' then (c as int - '0' as int) as nat else 0
  }

  /** The decimal rendering of a natural number, as `String(n)` prints it. */
  function NatToString(n: nat): (s: string)
    ensures |s| >= 1
    ensures forall i :: 0 <= i < |s| ==> '0' <= s[i] <= '9'
  {
    if n < 10 then [DigitChar(n)] else NatToString(n / 10) + [DigitChar(n % 10)]
  }

  /** `String(n)` for any integer. */
  function IntToString(n: int): string
  {
    if n < 0 then "-" + NatToString(-n) else NatToString(n)
  }

  /** Reads a string of decimal digits back as a number. */
  function ParseDecimal(s: string): nat
  {
    if s == [] then 0 else ParseDecimal(s[..|s| - 1]) * 10 + DigitValue(s[|s| - 1])
  }

  /** Reading a rendered number gives the number back. */
  lemma {:induction false} DecimalRoundTrip(n: nat)
    ensures ParseDecimal(NatToString(n)) == n
  {
    if n >= 10 {
      DecimalRoundTrip(n / 10);
      var s := NatToString(n);
      assert s[..|s| - 1] == NatToString(n / 10);
    }
  }

  /** Distinct numbers render differently. */
  lemma NatToStringInjective(a: nat, b: nat)
    requires NatToString(a) == NatToString(b)
    ensures a == b
  {
    DecimalRoundTrip(a);
    DecimalRoundTrip(b);
  }
}

=== FILE: stuff_documents.dfy ===
/** Rendering retrieved documents into the question-answer prompt
    (packages/galileo-sdk/src/chat/stuff-documents-metadata-chain.ts and
    `CustomStuffDocumentsChain` in packages/galileo-sdk/src/chat/chain.ts).
    Each document is shown as a metadata block and a content block headed by
    its display name; documents are separated by a blank line. */
module StuffDocuments {
  import opened Wrappers
  import opened Strings
  import opened JsonValue
  import opened Lists

  /** `StuffDocumentsChain` defaults. */
  const DOCUMENTS_INPUT_KEY: string := "input_documents"
  const DOCUMENT_VARIABLE_NAME: string := "context"

  /** `getDocumentName(sourceLocation)`: nothing for a missing or empty
      location, otherwise the text after its last '/'. A location that is
      truthy but not a string has no `split`, which throws. */
  function DocumentName(sourceLocation: Value): (r: Result<Option<string>>)
    ensures !Truthy(sourceLocation) ==> r == Ok(None)
    ensures sourceLocation.Str? && sourceLocation.s != "" ==> r.Ok? && r.value.Some?
    ensures Truthy(sourceLocation) && !sourceLocation.Str? ==> r.Err?
    ensures r.Ok? && r.value.Some? ==>
      var loc := sourceLocation.s;
      var name := r.value.value;
      && sourceLocation.Str?
      && '/' !in name
      && |name| <= |loc| && loc[|loc| - |name|..] == name
      && (|name| < |loc| ==> loc[|loc| - |name| - 1] == '/')
  {
    if !Truthy(sourceLocation) then Ok(None)
    else if !sourceLocation.Str? then Err("sourceLocation.split is not a function")
    else
      LastSegmentIsTextAfterLastSeparator(sourceLocation.s, '/');
      Ok(Some(LastSegment(sourceLocation.s, '/')))
  }

  /** The name a document is shown under: its file name, or `Document N`
      (N = index + 1), or `Document ` when no index is given. */
  function DisplayName(d: Document, index: Option<nat>): (r: Result<string>)
    ensures var name := DocumentName(Property(d.metadata, "source_location"));
      && (name.Err? <==> r.Err?)
      && (name.Ok? && name.value.Some? ==> r == Ok(name.value.value))
      && (name.Ok? && name.value.None? && index.Some? ==> r == Ok("Document " + NatToString(index.value + 1)))
      && (name.Ok? && name.value.None? && index.None? ==> r == Ok("Document "))
  {
    var name :- DocumentName(Property(d.metadata, "source_location"));
    match name
    case Some(n) => Ok(n)
    case None =>
      match index
      case Some(i) => Ok("Document " + NatToString(i + 1))
      case None => Ok("Document ")
  }

  /** `renderDocumentContent`: the display name, then the page content
      verbatim between triple quotes on lines of its own. */
  function RenderDocumentContent(d: Document, index: Option<nat>): (r: Result<string>)
    ensures DisplayName(d, index).Err? <==> r.Err?
    ensures r.Ok? ==> var name := DisplayName(d, index).value;
      && |r.value| == |name| + 14 + |d.pageContent| + 4
      && r.value[..|name|] == name
      && r.value[|name| + 14..|name| + 14 + |d.pageContent|] == d.pageContent
  {
    var name :- DisplayName(d, index);
    Ok(name + " Content: \"\"\"\n" + d.pageContent + "\n\"\"\"")
  }

  /** `renderDocumentMetadata`; `stringify` is `JSON.stringify`: the
      display name, then the serialised metadata at the end. */
  function RenderDocumentMetadata(d: Document, index: Option<nat>, stringify: Value -> string): (r: Result<string>)
    ensures DisplayName(d, index).Err? <==> r.Err?
    ensures r.Ok? ==> var name := DisplayName(d, index).value;
      && |r.value| == |name| + 11 + |stringify(d.metadata)|
      && r.value[..|name|] == name
      && r.value[|name| + 11..] == stringify(d.metadata)
  {
    var name :- DisplayName(d, index);
    Ok(name + " Metadata: " + stringify(d.metadata))
  }

  /** `renderDocument`: the metadata block, ", ", then the content block,
      both under the same display name. */
  function RenderDocument(d: Document, index: Option<nat>, stringify: Value -> string): (r: Result<string>)
    ensures DisplayName(d, index).Err? <==> r.Err?
    ensures r.Ok? ==>
      var name := DisplayName(d, index).value;
      r.value == name + " Metadata: " + stringify(d.metadata) + ", " + name + " Content: \"\"\"\n" + d.pageContent + "\n\"\"\""
  {
    match (RenderDocumentMetadata(d, index, stringify), RenderDocumentContent(d, index))
    case (Ok(metadata), Ok(content)) => Ok(metadata + ", " + content)
    case (Err(e), _) => Err(e)
    case (_, Err(e)) => Err(e)
  }

  /** `documents.map((d, i) => renderDocument(d, i))`: the first failing
      document stops the map. */
  function RenderBlocks(ds: seq<Document>, stringify: Value -> string): (r: Result<seq<string>>)
    ensures r.Ok? ==> |r.value| == |ds|
    ensures r.Ok? <==> forall i :: 0 <= i < |ds| ==> RenderDocument(ds[i], Some(i), stringify).Ok?
    ensures r.Ok? ==> forall i :: 0 <= i < |ds| ==> r.value[i] == RenderDocument(ds[i], Some(i), stringify).value
  {
    MapIndexed(ds, (d, i) => RenderDocument(d, Some(i), stringify))
  }

  /** `renderDocuments(documents)`: document i rendered with index i, in
      input order, joined with a blank line. */
  function RenderDocuments(ds: seq<Document>, stringify: Value -> string): (r: Result<string>)
    ensures r.Ok? <==> forall i :: 0 <= i < |ds| ==> RenderDocument(ds[i], Some(i), stringify).Ok?
    ensures ds == [] ==> r == Ok("")
    ensures |ds| == 1 && r.Ok? ==> r == RenderDocument(ds[0], Some(0), stringify)
  {
    var blocks :- RenderBlocks(ds, stringify);
    Ok(Join(blocks, "\n\n"))
  }

  /** Several documents render as the first block, a blank line, and the
      rest rendered the same way. */
  lemma RenderDocumentsShape(ds: seq<Document>, stringify: Value -> string)
    ensures |ds| >= 2 && RenderDocuments(ds, stringify).Ok? ==>
      var blocks := RenderBlocks(ds, stringify).value;
      RenderDocuments(ds, stringify).value == blocks[0] + "\n\n" + Join(blocks[1..], "\n\n")
  {
    var r := RenderDocuments(ds, stringify);
    var b := RenderBlocks(ds, stringify);
    if |ds| >= 2 && r.Ok? {
      assert b.Ok? && r.value == Join(b.value, "\n\n");
      JoinFirst(b.value, "\n\n");
    }
  }

  /** `StuffDocumentsMetadataChain._prepInputs(values)`: fails when the
      documents key is missing; otherwise every other key is kept and the
      rendered documents are added under `documentVariableName`. */
  function PrepInputs(values: Record, inputKey: string, documentVariableName: string, stringify: Value -> string): (r: Result<Record>)
    ensures inputKey !in values ==> r == Err("Document key " + inputKey + " not found.")
    ensures r.Ok? ==> inputKey in values && DocsOf(values[inputKey]).Some?
    ensures r.Ok? ==> r.value.Keys == (values.Keys - {inputKey}) + {documentVariableName}
    ensures r.Ok? ==> forall k :: k in values && k != inputKey && k != documentVariableName ==> r.value[k] == values[k]
    ensures r.Ok? ==> var rendered := RenderDocuments(DocsOf(values[inputKey]).value, stringify);
      rendered.Ok? && r.value[documentVariableName] == Str(rendered.value)
    ensures inputKey in values && DocsOf(values[inputKey]).Some? ==>
      (r.Ok? <==> RenderDocuments(DocsOf(values[inputKey]).value, stringify).Ok?)
  {
    if inputKey !in values then Err("Document key " + inputKey + " not found.")
    else
      match DocsOf(values[inputKey])
      case None => Err("documents.map is not a function")
      case Some(docs) =>
        var rendered :- RenderDocuments(docs, stringify);
        Ok((values - {inputKey})[documentVariableName := Str(rendered)])
  }

  /** `CustomStuffDocumentsChain._prepInputs(values)`: the base preparation
      (given as `basePrep`) with the raw documents also exposed under
      `<documentVariableName>_documents`, unless the base result sets that key
      itself. */
  function CustomPrepInputs(values: Record, inputKey: string, documentVariableName: string,
                            basePrep: Record -> Result<Record>): (r: Result<Record>)
    ensures basePrep(values).Err? ==> r.Err?
    ensures r.Ok? ==> var base := basePrep(values).value;
      && r.value.Keys == base.Keys + {documentVariableName + "_documents"}
      && (forall k :: k in base ==> r.value[k] == base[k])
      && (documentVariableName + "_documents" !in base ==>
            r.value[documentVariableName + "_documents"] == Get(values, inputKey))
  {
    var base :- basePrep(values);
    Ok(map[documentVariableName + "_documents" := Get(values, inputKey)] + base)
  }
}

=== FILE: workflow_builder.dfy ===
/** Building a workflow configuration for a chat from the stored workflow
    and workspaces (demo/infra/src/application/ai/inference-engine/engine/handler/shared/workflow.ts).
    A chat names either a workflow or a single workspace; each workspace id
    becomes one step. */
module WorkflowBuilder {
  import opened Wrappers
  import opened JsonValue
  import opened DdbTypes
  import opened EntityStore
  import opened WorkflowTypes
  import WorkflowHelper
  import WorkspaceStore

  /** `getStepType(workspace)`. */
  function GetStepType(t: WorkspaceType): (s: StepType)
    ensures s == DataSearch <==> t == DataWorkspace
    ensures s == Router <==> t == RouterWorkspace
    ensures s == RequestResponse <==> t == RequestResponseWorkspace
  {
    match t
    case DataWorkspace => DataSearch
    case RouterWorkspace => Router
    case RequestResponseWorkspace => RequestResponse
  }

  /** The workflow a chat runs: a stored one, or a wrapper around a single
      workspace. */
  datatype LocatedWorkflow = LocatedWorkflow(workflowId: string, name: string, definition: Stored<WorkflowDefinition>)

  const WORKFLOW_CHAT_TYPE: string := "WORKFLOW"

  /** The workflow part of `getWorkflowAndWorkspaces`. */
  function LocateWorkflow(workflowType: string, workflowId: string, workflows: Table<Workflow>): (r: Result<LocatedWorkflow>)
    ensures workflowType == WORKFLOW_CHAT_TYPE && workflowId !in workflows ==> r == Err("Unable to locate workflow " + workflowId)
    ensures workflowType == WORKFLOW_CHAT_TYPE && workflowId in workflows ==>
      r.Ok? && r.value.workflowId == workflows[workflowId].workflowId && r.value.definition == workflows[workflowId].definition
    ensures workflowType != WORKFLOW_CHAT_TYPE ==>
      r == Ok(LocatedWorkflow(workflowId, "Workflow Wrapper for workspace " + workflowId, Given(WorkflowDefinition([workflowId]))))
  {
    if workflowType == WORKFLOW_CHAT_TYPE then
      match GetItem(workflows, workflowId)
      case None => Err("Unable to locate workflow " + workflowId)
      case Some(w) => Ok(LocatedWorkflow(w.workflowId, w.name, w.definition))
    else
      Ok(LocatedWorkflow(workflowId, "Workflow Wrapper for workspace " + workflowId, Given(WorkflowDefinition([workflowId]))))
  }

  /** `workflow.definition.workspaceIds`, as read from a stored definition:
      an update without a definition stored `{}`. */
  function WorkspaceIdsOf(definition: Stored<WorkflowDefinition>): (r: Result<seq<string>>)
    ensures r.Ok? <==> definition.Given?
    ensures r.Ok? ==> r.value == definition.value.workspaceIds
  {
    match definition
    case Given(d) => Ok(d.workspaceIds)
    case EmptyObject => Err("Cannot read properties of undefined (reading 'map')")
    case Absent => Err("Cannot read properties of undefined (reading 'workspaceIds')")
  }

  /** The workspaces of a workflow, as the batch get returns them. Ids that
      are not stored are dropped by the batch get, so the "Unable to locate
      all workspaces" check that follows never fires. */
  function FetchWorkspaces(wf: LocatedWorkflow, workspaces: Table<Workspace>): (r: Result<seq<Workspace>>)
    ensures r.Ok? <==> wf.definition.Given?
    ensures r.Ok? ==> r.value == BatchGet(workspaces, wf.definition.value.workspaceIds)
  {
    var ids :- WorkspaceIdsOf(wf.definition);
    Ok(BatchGet(workspaces, ids))
  }

  /** The reduce as written: each step returns `{...w, [w.workspaceId]: w}`,
      dropping the accumulator, so only the last workspace is kept. */
  function LookupAsWritten(ws: seq<Workspace>): (m: map<string, Workspace>)
    ensures ws == [] ==> m == map[]
    ensures ws != [] ==> m.Keys == {ws[|ws| - 1].workspaceId} && m[ws[|ws| - 1].workspaceId] == ws[|ws| - 1]
  {
    if ws == [] then map[] else map[ws[|ws| - 1].workspaceId := ws[|ws| - 1]]
  }

  /** The intended reduce, `{...acc, [w.workspaceId]: w}`: every workspace
      is found under its own id, and nothing else is. */
  function Lookup(ws: seq<Workspace>): (m: map<string, Workspace>)
    ensures forall j :: 0 <= j < |ws| ==> ws[j].workspaceId in m
    ensures forall id :: id in m ==> m[id].workspaceId == id && m[id] in ws
  {
    if ws == [] then map[]
    else
      var init := Lookup(ws[..|ws| - 1]);
      var last := ws[|ws| - 1];
      assert forall j :: 0 <= j < |ws| - 1 ==> ws[..|ws| - 1][j] == ws[j];
      init[last.workspaceId := last]
  }

  /** `convertWorkspaceToWorkflowStep(workspace)`: the workspace's id, its
      chat model's id and its prompt template (or ""), typed by
      `getStepType`; no router fields are carried over. A workspace without
      a chat model cannot be read. */
  function ConvertWorkspace(w: Workspace): (r: Result<WorkflowStep>)
    ensures r.Ok? <==> !w.chatModel.Absent?
    ensures r.Ok? ==> r.value.workspaceId == w.workspaceId && r.value.stepType == GetStepType(w.workspaceType)
    ensures r.Ok? && w.chatModel.Given? ==> r.value.llmModelId == Str(w.chatModel.value.modelId)
    ensures r.Ok? && w.chatModel.EmptyObject? ==> r.value.llmModelId == Undefined
    ensures r.Ok? ==> r.value.promptTemplate == (if w.prompt.Given? then w.prompt.value.promptTemplate else "")
    ensures r.Ok? ==> r.value.routes == NoRoutes && r.value.responseRouteKey.None? && r.value.additionalPromptSubstitutions.None?
  {
    match w.chatModel
    case Absent => Err("Cannot read properties of undefined (reading 'modelId')")
    case EmptyObject => Ok(WorkflowStep(GetStepType(w.workspaceType), w.workspaceId, Undefined, PromptOf(w), None, None, NoRoutes))
    case Given(m) => Ok(WorkflowStep(GetStepType(w.workspaceType), w.workspaceId, Str(m.modelId), PromptOf(w), None, None, NoRoutes))
  }

  /** `workspace.prompt?.promptTemplate || ''`. */
  function PromptOf(w: Workspace): string
  {
    if w.prompt.Given? then w.prompt.value.promptTemplate else ""
  }

  /** One step per workspace id, in definition order, each read from the
      lookup; an id missing from the lookup fails in `getStepType`. */
  function StepsFor(ids: seq<string>, lookup: map<string, Workspace>): (r: Result<seq<WorkflowStep>>)
    ensures r.Ok? ==> |r.value| == |ids|
    ensures r.Ok? ==> forall i :: 0 <= i < |ids| ==> ids[i] in lookup && ConvertWorkspace(lookup[ids[i]]) == Ok(r.value[i])
    ensures r.Ok? <==> forall i :: 0 <= i < |ids| ==> ids[i] in lookup && !lookup[ids[i]].chatModel.Absent?
  {
    if ids == [] then Ok([])
    else
      assert forall i :: 1 <= i < |ids| ==> ids[1..][i - 1] == ids[i];
      if ids[0] !in lookup then Err("Cannot read properties of undefined (reading 'type')")
      else
        var first :- ConvertWorkspace(lookup[ids[0]]);
        var rest :- StepsFor(ids[1..], lookup);
        var r := [first] + rest;
        assert forall i :: 1 <= i < |ids| ==> r[i] == rest[i - 1];
        Ok(r)
  }

  /** `build()` as written, with the reduce that keeps only the last
      workspace. */
  function BuildAsWritten(workflowType: string, workflowId: string, workflows: Table<Workflow>, workspaces: Table<Workspace>): (r: Result<WorkflowConfiguration>)
    ensures var wf := LocateWorkflow(workflowType, workflowId, workflows);
      && (wf.Err? ==> r == Err(wf.error))
      && (r.Ok? ==> wf.Ok? && wf.value.definition.Given?)
    ensures r.Ok? ==> var ids := LocateWorkflow(workflowType, workflowId, workflows).value.definition.value.workspaceIds;
      && |r.value.steps| == |ids|
      && forall i, j :: 0 <= i < |ids| && 0 <= j < |ids| ==> ids[i] == ids[j]
  {
    var wf :- LocateWorkflow(workflowType, workflowId, workflows);
    var found :- FetchWorkspaces(wf, workspaces);
    var steps :- StepsFor(wf.definition.value.workspaceIds, LookupAsWritten(found));
    Ok(WorkflowConfiguration(steps))
  }

  /** `build()` with the intended reduce: one step per workspace id of the
      definition, in order, each converted from the stored workspace with
      that id; it fails exactly when the workflow or a workspace (or a
      workspace's chat model) is missing. */
  function Build(workflowType: string, workflowId: string, workflows: Table<Workflow>, workspaces: Table<Workspace>): (r: Result<WorkflowConfiguration>)
    requires WorkspaceStore.KeyedById(workspaces)
    ensures var wf := LocateWorkflow(workflowType, workflowId, workflows);
      && (wf.Err? ==> r == Err(wf.error))
      && (r.Ok? ==> wf.Ok? && wf.value.definition.Given?)
    ensures r.Ok? ==> var ids := LocateWorkflow(workflowType, workflowId, workflows).value.definition.value.workspaceIds;
      && |r.value.steps| == |ids|
      && forall i :: 0 <= i < |ids| ==>
           ids[i] in workspaces && r.value.steps[i].workspaceId == ids[i]
           && ConvertWorkspace(workspaces[ids[i]]) == Ok(r.value.steps[i])
    ensures var wf := LocateWorkflow(workflowType, workflowId, workflows);
      wf.Ok? && wf.value.definition.Given? ==>
        var ids := wf.value.definition.value.workspaceIds;
        (r.Ok? <==> forall i :: 0 <= i < |ids| ==> ids[i] in workspaces && !workspaces[ids[i]].chatModel.Absent?)
  {
    var wf :- LocateWorkflow(workflowType, workflowId, workflows);
    var found :- FetchWorkspaces(wf, workspaces);
    var ids := wf.definition.value.workspaceIds;
    var lookup := Lookup(found);
    LookupOfBatchGet(workspaces, ids);
    var steps :- StepsFor(ids, lookup);
    Ok(WorkflowConfiguration(steps))
  }

  /** The intended lookup over a batch get holds exactly the requested ids
      that are stored, each with its stored workspace. */
  lemma LookupOfBatchGet(workspaces: Table<Workspace>, ids: seq<string>)
    requires WorkspaceStore.KeyedById(workspaces)
    ensures forall id :: id in Lookup(BatchGet(workspaces, ids)) <==> id in workspaces && id in ids
    ensures forall id :: id in Lookup(BatchGet(workspaces, ids)) ==> Lookup(BatchGet(workspaces, ids))[id] == workspaces[id]
  {
    var found := BatchGet(workspaces, ids);
    var m := Lookup(found);
    forall id | id in m
      ensures id in workspaces && id in ids && m[id] == workspaces[id]
    {
      var j :| 0 <= j < |found| && found[j].workspaceId == id;
      BatchGetFrom(workspaces, ids, found[j]);
    }
    forall id | id in workspaces && id in ids
      ensures id in m
    {
      var i :| 0 <= i < |ids| && ids[i] == id;
      assert workspaces[ids[i]] in found;
      var j :| 0 <= j < |found| && found[j] == workspaces[id];
    }
  }

  /** What a batch get returns is stored under one of the requested ids. */
  lemma {:induction false} BatchGetFrom(workspaces: Table<Workspace>, ids: seq<string>, w: Workspace)
    requires WorkspaceStore.KeyedById(workspaces)
    requires w in BatchGet(workspaces, ids)
    ensures w.workspaceId in workspaces && w.workspaceId in ids && workspaces[w.workspaceId] == w
  {
    if ids != [] {
      var rest := BatchGet(workspaces, ids[1..]);
      if ids[0] in workspaces && w == workspaces[ids[0]] {
      } else {
        assert w in rest;
        BatchGetFrom(workspaces, ids[1..], w);
      }
    }
  }

  /** A ROUTER workspace converts to a ROUTER step with no routes, which the
      compiler rejects: a router workspace cannot run through this path. */
  lemma RouterWorkspaceCannotCompile(w: Workspace, opts: WorkflowHelper.BuildOptions, c: WorkflowHelper.Compiler)
    requires w.workspaceType == RouterWorkspace && ConvertWorkspace(w).Ok?
    ensures WorkflowHelper.BuildFromStep(ConvertWorkspace(w).value, opts, c).Err?
  {
  }

  /** Two distinct stored workspaces: the workflow fails to build as
      written, because the lookup lost the first one. */
  lemma BuildAsWrittenLosesWorkspaces(workflowId: string, wf: Workflow, a: Workspace, b: Workspace)
    requires a.workspaceId != b.workspaceId
    requires wf.definition == Given(WorkflowDefinition([a.workspaceId, b.workspaceId]))
    ensures BuildAsWritten(WORKFLOW_CHAT_TYPE, workflowId, map[workflowId := wf],
                           map[a.workspaceId := a, b.workspaceId := b]).Err?
  {
    var workflows := map[workflowId := wf];
    var workspaces := map[a.workspaceId := a, b.workspaceId := b];
    var ids := [a.workspaceId, b.workspaceId];
    var located := TwoWorkspacesFetched(workflowId, wf, a, b);
    var lost := LookupAsWritten([a, b]);
    assert ids[0] !in lost;
    assert StepsFor(ids, lost).Err?;
  }

  /** The same workflow builds one step per workspace with the intended
      lookup. */
  lemma BuildKeepsBothWorkspaces(workflowId: string, wf: Workflow, a: Workspace, b: Workspace)
    requires a.workspaceId != b.workspaceId && a.chatModel.Given? && b.chatModel.Given?
    requires wf.definition == Given(WorkflowDefinition([a.workspaceId, b.workspaceId]))
    ensures var built := Build(WORKFLOW_CHAT_TYPE, workflowId, map[workflowId := wf],
                               map[a.workspaceId := a, b.workspaceId := b]);
      built.Ok? && |built.value.steps| == 2
  {
    var workspaces := map[a.workspaceId := a, b.workspaceId := b];
    var ids := [a.workspaceId, b.workspaceId];
    var located := TwoWorkspacesFetched(workflowId, wf, a, b);
    assert forall i :: 0 <= i < |ids| ==> ids[i] in workspaces && !workspaces[ids[i]].chatModel.Absent?;
  }

  /** Locating and fetching a two-workspace workflow. */
  lemma TwoWorkspacesFetched(workflowId: string, wf: Workflow, a: Workspace, b: Workspace) returns (located: LocatedWorkflow)
    requires a.workspaceId != b.workspaceId
    requires wf.definition == Given(WorkflowDefinition([a.workspaceId, b.workspaceId]))
    ensures LocateWorkflow(WORKFLOW_CHAT_TYPE, workflowId, map[workflowId := wf]) == Ok(located)
    ensures located.definition.Given? && located.definition.value.workspaceIds == [a.workspaceId, b.workspaceId]
    ensures FetchWorkspaces(located, map[a.workspaceId := a, b.workspaceId := b]) == Ok([a, b])
  {
    var workspaces := map[a.workspaceId := a, b.workspaceId := b];
    var ids := [a.workspaceId, b.workspaceId];
    var r := LocateWorkflow(WORKFLOW_CHAT_TYPE, workflowId, map[workflowId := wf]);
    assert r.Ok?;
    located := r.value;
    assert BatchGet(workspaces, ids) == [a, b] by {
      assert ids[1..] == [b.workspaceId];
      assert [b.workspaceId][1..] == [];
      assert BatchGet(workspaces, [b.workspaceId]) == [b];
    }
  }
}

=== FILE: workflow_form.dfy ===
/** The workflow create/edit form
    (demo/website/src/components/workflows/WorkflowForm.tsx): a name and an
    ordered list of workspace ids, submitted only when the name is set and
    every step names a workspace. */
module WorkflowForm {
  import opened Wrappers
  import opened EntityStore
  import opened DdbTypes
  import WorkflowStore

  /** The form's state. */
  datatype FormState = FormState(name: string, workspaceIds: seq<string>)

  /** `CreateWorkflowRequestContent`. */
  datatype WorkflowRequest = WorkflowRequest(name: string, definition: WorkflowDefinition)

  /** The initial state: `workflow?.name || ''` and
      `workflow?.definition.workspaceIds || []`; a stored workflow whose
      definition is missing cannot be opened. */
  function InitialState(workflow: Option<Workflow>): (r: Result<FormState>)
    ensures workflow.None? ==> r == Ok(FormState("", []))
    ensures r.Err? <==> workflow.Some? && workflow.value.definition.Absent?
    ensures r.Ok? && workflow.Some? ==> r.value.name == workflow.value.name
    ensures r.Ok? && workflow.Some? && workflow.value.definition.Given? ==>
      r.value.workspaceIds == workflow.value.definition.value.workspaceIds
    ensures r.Ok? && workflow.Some? && workflow.value.definition.EmptyObject? ==> r.value.workspaceIds == []
  {
    match workflow
    case None => Ok(FormState("", []))
    case Some(w) =>
      match w.definition
      case Absent => Err("TypeError: Cannot read properties of undefined (reading 'workspaceIds')")
      case EmptyObject => Ok(FormState(w.name, []))
      case Given(d) => Ok(FormState(w.name, d.workspaceIds))
  }

  /** `isValid`: a name, at least one step, and no step left empty. */
  function IsValid(s: FormState): (ok: bool)
    ensures ok <==> s.name != "" && s.workspaceIds != [] && "" !in s.workspaceIds
  {
    s.name != "" && |s.workspaceIds| > 0 && forall j :: 0 <= j < |s.workspaceIds| ==> s.workspaceIds[j] != ""
  }

  /** The submit button: disabled unless valid; submitting sends the name
      and the ids in order. */
  function Submit(s: FormState): (r: Option<WorkflowRequest>)
    ensures r.Some? <==> IsValid(s)
    ensures r.Some? ==> r.value.name == s.name && r.value.definition.workspaceIds == s.workspaceIds
  {
    if IsValid(s) then Some(WorkflowRequest(s.name, WorkflowDefinition(s.workspaceIds))) else None
  }

  /** A submitted workflow, once stored, opens in the form exactly as it was
      submitted. */
  lemma SubmitStoreReopen(s: FormState, table: Table<Workflow>, userId: string, newId: string, now: int)
    requires IsValid(s)
    ensures var req := Submit(s).value;
      var stored := WorkflowStore.CreateWorkflow(table, userId, WorkflowStore.WorkflowInput(req.name, None, req.definition), newId, now);
      InitialState(GetItem(stored.0, newId)) == Ok(s)
  {
  }
}

=== FILE: workflow_helper.dfy ===
/** Step compilation (packages/galileo-sdk/src/chat/workflow/helper.ts):
    each configured step gets the prompt class of its type, a retriever for
    its own workspace and a model context; router routes are compiled
    recursively under the same keys. */
module WorkflowHelper {
  import opened Wrappers
  import opened JsonValue
  import opened Search
  import opened Context
  import opened WorkflowTypes

  /** What compilation needs from outside: JSON parsing, the model inventory
      lookup, and the models package's `DEFAULT_MAX_NEW_TOKENS`. */
  datatype Compiler = Compiler(
    parseJson: string -> Result<Value>,
    getModelOrDefault: Value -> Result<Value>,
    defaultMaxNewTokens: int)

  /** The per-engine options every step is compiled with. */
  datatype BuildOptions = BuildOptions(searchOptions: SearchRetrieverInput, maxNewTokens: int, verbose: Option<bool>)

  /** `promptFromStep(step)`: the condense-question prompt for
      `REQUEST_RESPONSE`, the question-answer prompt for `DATA_SEARCH`, the
      router prompt for `ROUTER`; the step's template and substitutions are
      passed through. */
  function PromptFromStep(step: WorkflowStep): (p: PromptTemplate)
    ensures p.template == step.promptTemplate
    ensures p.partialVariables == step.additionalPromptSubstitutions
    ensures p.kind == CondenseQuestionPrompt <==> step.stepType == RequestResponse
    ensures p.kind == QuestionAnswerPrompt <==> step.stepType == DataSearch
    ensures p.kind == RouterPrompt <==> step.stepType == Router
  {
    match step.stepType
    case RequestResponse => PromptTemplate(CondenseQuestionPrompt, step.promptTemplate, step.additionalPromptSubstitutions)
    case DataSearch => PromptTemplate(QuestionAnswerPrompt, step.promptTemplate, step.additionalPromptSubstitutions)
    case Router => PromptTemplate(RouterPrompt, step.promptTemplate, step.additionalPromptSubstitutions)
  }

  /** The compiled tree mirrors the configured tree: every node keeps its
      configured step, searches its own workspace, is prompted for its type,
      and a router's routes are compiled under the same keys in the same
      order; other steps have no compiled routes. */
  predicate CompiledFrom(c: CompiledStep, s: WorkflowStep, opts: BuildOptions)
    decreases s, 1
  {
    && c.source == s
    && c.retriever == NewSearchRetriever(opts.searchOptions, s.workspaceId)
    && c.context.prompt == PromptFromStep(s)
    && c.context.maxNewTokens == opts.maxNewTokens
    && match s.routes
       case Routes(rs) => if s.stepType == Router then RoutesCompiledFrom(c.routes, rs, opts) else c.routes == []
       case NoRoutes => s.stepType != Router && c.routes == []
  }

  predicate RoutesCompiledFrom(crs: seq<CompiledRoute>, rs: seq<Route>, opts: BuildOptions)
    decreases rs, 0
  {
    && |crs| == |rs|
    && forall i :: 0 <= i < |rs| ==> crs[i].key == rs[i].key && CompiledFrom(crs[i].step, rs[i].step, opts)
  }

  /** The context options a step is compiled with. */
  function StepContextOptions(step: WorkflowStep, opts: BuildOptions): ContextOptions
  {
    ContextOptions(opts.maxNewTokens, None, None, opts.verbose, PromptFromStep(step))
  }

  /** `ChatEngineWorkflowHelper.buildFromStep`. Model info is resolved from
      `llmModelId`, then the context is built, then (for a router) the routes;
      the first failure is the result. A router without a `routes` object
      fails as `Object.entries(undefined)` does. */
  function BuildFromStep(step: WorkflowStep, opts: BuildOptions, c: Compiler): (r: Result<CompiledStep>)
    ensures r.Ok? ==> CompiledFrom(r.value, step, opts)
    ensures r.Ok? && step.stepType == Router ==>
      step.routes.Routes? && CompiledRouteKeys(r.value.routes) == RouteKeys(step.routes.entries)
    ensures step.stepType == Router && step.routes.NoRoutes? ==> r.Err?
    ensures ResolveModelInfo(step.llmModelId, c.parseJson, c.getModelOrDefault).Err? ==> r.Err?
    ensures r.Ok? ==> var info := ResolveModelInfo(step.llmModelId, c.parseJson, c.getModelOrDefault);
      && info.Ok?
      && r.value.context.modelInfo == info.value
      && NewContext(info.value, StepContextOptions(step, opts), c.defaultMaxNewTokens) == Ok(r.value.context)
    decreases step, 1
  {
    var info :- ResolveModelInfo(step.llmModelId, c.parseJson, c.getModelOrDefault);
    var context :- NewContext(info, StepContextOptions(step, opts), c.defaultMaxNewTokens);
    var retriever := NewSearchRetriever(opts.searchOptions, step.workspaceId);
    if step.stepType != Router then
      Ok(CompiledStep(step, retriever, context, []))
    else
      match step.routes
      case NoRoutes => Err("Cannot convert undefined or null to object")
      case Routes(rs) =>
        var compiled :- BuildRoutes(rs, opts, c);
        Ok(CompiledStep(step, retriever, context, compiled))
  }

  /** `Object.fromEntries` of the routes compiled one by one, keys kept. */
  function BuildRoutes(rs: seq<Route>, opts: BuildOptions, c: Compiler): (r: Result<seq<CompiledRoute>>)
    ensures r.Ok? ==> RoutesCompiledFrom(r.value, rs, opts)
    decreases rs, 0
  {
    if rs == [] then Ok([])
    else
      var first :- BuildFromStep(rs[0].step, opts, c);
      var rest :- BuildRoutes(rs[1..], opts, c);
      RoutesCompiledCons(rs, first, rest, opts);
      Ok([CompiledRoute(rs[0].key, first)] + rest)
  }

  /** A compiled first route followed by the compiled rest mirrors the
      whole table. */
  lemma RoutesCompiledCons(rs: seq<Route>, first: CompiledStep, rest: seq<CompiledRoute>, opts: BuildOptions)
    requires rs != [] && CompiledFrom(first, rs[0].step, opts) && RoutesCompiledFrom(rest, rs[1..], opts)
    ensures RoutesCompiledFrom([CompiledRoute(rs[0].key, first)] + rest, rs, opts)
  {
    var r := [CompiledRoute(rs[0].key, first)] + rest;
    assert forall i :: 1 <= i < |rs| ==> r[i] == rest[i - 1] && rs[i] == rs[1..][i - 1];
  }

  /** An empty route table compiles: nothing rejects a router with no
      routes. */
  lemma EmptyRoutesCompile(step: WorkflowStep, opts: BuildOptions, c: Compiler)
    requires step.stepType == Router && step.routes == Routes([])
    requires ResolveModelInfo(step.llmModelId, c.parseJson, c.getModelOrDefault).Ok?
    requires NewContext(ResolveModelInfo(step.llmModelId, c.parseJson, c.getModelOrDefault).value,
                        StepContextOptions(step, opts), c.defaultMaxNewTokens).Ok?
    ensures BuildFromStep(step, opts, c).Ok?
    ensures BuildFromStep(step, opts, c).value.routes == []
  {
  }
}

=== FILE: workflow_store.dfy ===
/** The workflow table (packages/galileo-sdk/src/chat/dynamodb/lib/workflow.ts)
    as a map from workflow id to workflow. Fresh ids and timestamps are
    parameters. */
module WorkflowStore {
  import opened Wrappers
  import opened DdbTypes
  import opened EntityStore

  /** Every workflow is stored under its own id. */
  predicate KeyedById(table: Table<Workflow>)
  {
    forall k :: k in table ==> table[k].workflowId == k
  }

  /** What `createWorkflow` is given. */
  datatype WorkflowInput = WorkflowInput(name: string, description: Option<string>, definition: WorkflowDefinition)

  /** `createWorkflow`: the input plus a fresh id, the creation time and the
      owner; put under the new id. */
  function CreateWorkflow(table: Table<Workflow>, userId: string, input: WorkflowInput, newId: string, now: int): (r: (Table<Workflow>, Workflow))
    ensures var w := r.1;
      && w.workflowId == newId && w.createdAt == now && w.userId == userId
      && w.name == input.name && w.description == input.description && w.definition == Given(input.definition)
    ensures r.0.Keys == table.Keys + {newId} && r.0[newId] == r.1
    ensures forall k :: k in table && k != newId ==> r.0[k] == table[k]
  {
    var w := Workflow(newId, input.name, input.description, userId, now, Given(input.definition));
    (table[newId := w], w)
  }

  /** What `updateWorkflow` is given. */
  datatype WorkflowUpdate = WorkflowUpdate(name: string, description: Option<string>, definition: Option<WorkflowDefinition>)

  /** `updateWorkflow`: conditional on the id existing; sets the name, the
      description (or "") and the definition (or `{}`). */
  function UpdateWorkflow(table: Table<Workflow>, id: string, data: WorkflowUpdate): (r: Result<(Table<Workflow>, Workflow)>)
    ensures id !in table <==> r.Err?
    ensures r.Err? ==> r.error == CONDITIONAL_CHECK_FAILED
    ensures r.Ok? ==> r.value.0.Keys == table.Keys && r.value.0[id] == r.value.1
    ensures r.Ok? ==> forall k :: k in table && k != id ==> r.value.0[k] == table[k]
    ensures r.Ok? ==> var old_, new_ := table[id], r.value.1;
      && new_.workflowId == old_.workflowId && new_.userId == old_.userId && new_.createdAt == old_.createdAt
      && new_.name == data.name
      && (data.description.Some? && data.description.value != "" ==> new_.description == data.description)
      && (data.description.None? || data.description.value == "" ==> new_.description == Some(""))
      && (data.definition.Some? ==> new_.definition == Given(data.definition.value))
      && (data.definition.None? ==> new_.definition == EmptyObject)
  {
    if id !in table then Err(CONDITIONAL_CHECK_FAILED)
    else
      var w := table[id].(
        name := data.name,
        description := Some(if data.description.Some? && data.description.value != "" then data.description.value else ""),
        definition := if data.definition.Some? then Given(data.definition.value) else EmptyObject);
      Ok((table[id := w], w))
  }

  /** Creating, updating and deleting keep every workflow under its own id;
      an update followed by a read returns what the update returned. */
  lemma OperationsKeepKeying(table: Table<Workflow>, userId: string, input: WorkflowInput, newId: string, now: int,
                             id: string, data: WorkflowUpdate)
    requires KeyedById(table)
    ensures KeyedById(CreateWorkflow(table, userId, input, newId, now).0)
    ensures UpdateWorkflow(table, id, data).Ok? ==> KeyedById(UpdateWorkflow(table, id, data).value.0)
    ensures UpdateWorkflow(table, id, data).Ok? ==>
      GetItem(UpdateWorkflow(table, id, data).value.0, id) == Some(UpdateWorkflow(table, id, data).value.1)
    ensures KeyedById(DeleteItem(table, id).0)
  {
  }
}

=== FILE: workflow_types.dfy ===
/** Workflow steps (packages/galileo-sdk/src/chat/workflow/types.ts): the
    configured step tree, and the compiled tree the chain walks, in which every
    step also carries its retriever and its model context. */
module WorkflowTypes {
  import opened Wrappers
  import opened JsonValue
  import opened Search
  import opened Context

  /** `WorkflowStep.type`: exactly three kinds of step. */
  datatype StepType = RequestResponse | DataSearch | Router

  /** A configured step. The router fields are optional because step objects
      are plain data: only `ROUTER` steps are meant to carry them (see
      `WellTyped`), and a router built without `routes` is representable. */
  datatype WorkflowStep = WorkflowStep(
    stepType: StepType,
    workspaceId: string,
    llmModelId: Value,
    promptTemplate: string,
    additionalPromptSubstitutions: Option<Record>,
    responseRouteKey: Option<string>,
    routes: RouteTable)

  /** A step's `routes` object: absent, or its entries in key order. */
  datatype RouteTable = NoRoutes | Routes(entries: seq<Route>)

  /** One entry of a router's `routes` object, in key order. */
  datatype Route = Route(key: string, step: WorkflowStep)

  /** `WorkflowConfiguration`: an ordered, possibly empty, list of steps. */
  datatype WorkflowConfiguration = WorkflowConfiguration(steps: seq<WorkflowStep>)

  /** A compiled step: the configured step with its retriever and context,
      and, for a router, the compiled routes (empty for every other kind). */
  datatype CompiledStep = CompiledStep(
    source: WorkflowStep,
    retriever: SearchRetriever,
    context: EngineContext,
    routes: seq<CompiledRoute>)

  datatype CompiledRoute = CompiledRoute(key: string, step: CompiledStep)

  /** `ChatEngineWorkflow`. */
  datatype ChatEngineWorkflow = ChatEngineWorkflow(steps: seq<CompiledStep>)

  /** The discipline the TypeScript types impose: router fields exactly on
      router steps, all the way down the tree. */
  predicate WellTyped(s: WorkflowStep)
    decreases s, 1
  {
    && (s.stepType == Router <==> s.routes.Routes?)
    && (s.stepType == Router <==> s.responseRouteKey.Some?)
    && match s.routes
       case Routes(rs) => RoutesWellTyped(rs)
       case NoRoutes => true
  }

  predicate RoutesWellTyped(rs: seq<Route>)
    decreases rs, 0
  {
    forall i :: 0 <= i < |rs| ==> WellTyped(rs[i].step)
  }

  /** `Object.keys(routes)`: the route keys in entry order. */
  function RouteKeys(rs: seq<Route>): (keys: seq<string>)
    ensures |keys| == |rs| && forall i :: 0 <= i < |rs| ==> keys[i] == rs[i].key
  {
    seq(|rs|, i requires 0 <= i < |rs| => rs[i].key)
  }

  /** The keys of a compiled route table, first to last, as the walk's
      lookup meets them. */
  function CompiledRouteKeys(rs: seq<CompiledRoute>): (keys: seq<string>)
    ensures |keys| == |rs| && forall i :: 0 <= i < |rs| ==> keys[i] == rs[i].key
  {
    if rs == [] then []
    else
      var rest := CompiledRouteKeys(rs[1..]);
      assert forall i :: 1 <= i < |rs| ==> rs[1..][i - 1] == rs[i];
      [rs[0].key] + rest
  }

  /** The number of steps in a compiled step tree. */
  function Size(s: CompiledStep): (n: nat)
    ensures n >= 1
    decreases s, 1
  {
    1 + RoutesSize(s.routes)
  }

  function RoutesSize(rs: seq<CompiledRoute>): nat
    decreases rs, 0
  {
    if rs == [] then 0 else Size(rs[0].step) + RoutesSize(rs[1..])
  }

  /** The number of steps in all the trees of a step list. */
  function Total(steps: seq<CompiledStep>): nat
  {
    if steps == [] then 0 else Size(steps[0]) + Total(steps[1..])
  }

  /** Every route of a router is a strictly smaller tree than the router. */
  lemma {:induction false} RouteSmaller(rs: seq<CompiledRoute>, j: nat)
    requires j < |rs|
    ensures Size(rs[j].step) <= RoutesSize(rs)
  {
    if j > 0 {
      RouteSmaller(rs[1..], j - 1);
      assert rs[1..][j - 1] == rs[j];
    }
  }

  lemma {:induction false} TotalAppend(a: seq<CompiledStep>, b: seq<CompiledStep>)
    ensures Total(a + b) == Total(a) + Total(b)
  {
    if a != [] {
      assert (a + b)[1..] == a[1..] + b;
      TotalAppend(a[1..], b);
    } else {
      assert a + b == b;
    }
  }
}

=== FILE: workspace_form.dfy ===
/** The workspace create/edit form
    (demo/website/src/components/workspaces/WorkspaceForm.tsx). The default
    prompt of each workspace type is a parameter: the prompt texts are not
    part of this model. */
module WorkspaceForm {
  import opened Wrappers
  import opened JsonValue
  import opened EntityStore
  import opened DdbTypes
  import WorkspaceStore

  /** The form's state. */
  datatype FormState = FormState(
    workspaceType: WorkspaceType,
    name: string,
    description: string,
    promptTemplate: string,
    embeddingModel: Option<EmbeddingModelInfo>,
    chatModel: Stored<ChatModel>,
    routerTargets: seq<RouterTarget>)

  /** `CreateWorkspaceRequestContent` as the form sends it. */
  datatype WorkspaceRequest = WorkspaceRequest(
    name: string,
    description: string,
    workspaceType: WorkspaceType,
    chatModel: Stored<ChatModel>,
    prompt: WorkspacePrompt,
    data: Option<DataDefinition>,
    routerDefinition: Option<RouterDefinition>)

  const DEFAULT_DIMENSIONS: int := 768

  /** The initial state: the edited workspace's values, or a DATA workspace
      with the default prompt when creating. A stored prompt is used as is,
      even when empty; a missing one falls back to the type's default. The
      chat model is kept as stored, an empty `{}` included. */
  function InitialState(workspace: Option<Workspace>, defaultPrompt: WorkspaceType -> string): (s: FormState)
    ensures workspace.None? ==> s == FormState(DataWorkspace, "", "", defaultPrompt(DataWorkspace), None, Absent, [])
    ensures workspace.Some? ==> var w := workspace.value;
      && s.workspaceType == w.workspaceType && s.name == w.name
      && s.description == w.description.GetOr("")
      && s.promptTemplate == (if w.prompt.Given? then w.prompt.value.promptTemplate else defaultPrompt(w.workspaceType))
      && s.chatModel == w.chatModel
      && s.routerTargets == (if w.routerDefinition.Given? then w.routerDefinition.value.workspaces else [])
      && (s.embeddingModel.Some? <==> w.data.Some? && w.data.value.indexing.Some?)
  {
    match workspace
    case None => FormState(DataWorkspace, "", "", defaultPrompt(DataWorkspace), None, Absent, [])
    case Some(w) =>
      FormState(
        w.workspaceType, w.name, w.description.GetOr(""),
        if w.prompt.Given? then w.prompt.value.promptTemplate else defaultPrompt(w.workspaceType),
        if w.data.Some? && w.data.value.indexing.Some? then Some(w.data.value.indexing.value.embeddingModel) else None,
        w.chatModel,
        if w.routerDefinition.Given? then w.routerDefinition.value.workspaces else [])
  }

  /** Choosing a type; when creating, the prompt follows the type's
      default. */
  function SetType(s: FormState, t: WorkspaceType, editing: bool, defaultPrompt: WorkspaceType -> string): (r: FormState)
    ensures r.workspaceType == t
    ensures !editing ==> r.promptTemplate == defaultPrompt(t)
    ensures editing ==> r.promptTemplate == s.promptTemplate
    ensures r.(workspaceType := s.workspaceType, promptTemplate := s.promptTemplate) == s
  {
    s.(workspaceType := t, promptTemplate := if editing then s.promptTemplate else defaultPrompt(t))
  }

  /** `isValid`: `workspaceName && workspaceType`, both as JavaScript
      truthiness. The type is always one of the non-empty type names, so
      only the name decides. */
  function IsValid(s: FormState): (ok: bool)
    ensures ok <==> Truthy(Str(s.name)) && Truthy(Str(WorkspaceTypeName(s.workspaceType)))
  {
    s.name != ""
  }

  /** The data settings sent for a DATA workspace: the chosen embedding
      model, with "" and 768 standing in for a missing (or empty, or zero)
      id and dimension count. */
  function DataFor(s: FormState): (d: Option<DataDefinition>)
    ensures d.Some? <==> s.workspaceType == DataWorkspace
    ensures d.Some? ==> d.value.indexing.Some? && d.value.indexing.value.aurora == Obj(map[])
    ensures d.Some? ==> var m := d.value.indexing.value.embeddingModel;
      && (s.embeddingModel.None? ==> m == EmbeddingModelInfo("", DEFAULT_DIMENSIONS))
      && (s.embeddingModel.Some? ==> m.modelId == s.embeddingModel.value.modelId)
      && (s.embeddingModel.Some? && s.embeddingModel.value.dimensions != 0 ==> m.dimensions == s.embeddingModel.value.dimensions)
      && (s.embeddingModel.Some? && s.embeddingModel.value.dimensions == 0 ==> m.dimensions == DEFAULT_DIMENSIONS)
  {
    if s.workspaceType != DataWorkspace then None
    else
      var modelId := if s.embeddingModel.Some? then s.embeddingModel.value.modelId else "";
      var dimensions := if s.embeddingModel.Some? && s.embeddingModel.value.dimensions != 0 then s.embeddingModel.value.dimensions else DEFAULT_DIMENSIONS;
      Some(DataDefinition(Some(DataIndexing(Obj(map[]), EmbeddingModelInfo(modelId, dimensions)))))
  }

  /** The router settings sent for a ROUTER workspace. */
  function RouterFor(s: FormState): (r: Option<RouterDefinition>)
    ensures r.Some? <==> s.workspaceType == RouterWorkspace
    ensures r.Some? ==> r.value.workspaces == s.routerTargets
  {
    if s.workspaceType == RouterWorkspace then Some(RouterDefinition(s.routerTargets)) else None
  }

  /** `submit()` as written: the prompt sent is always the type's default,
      so an edited template is never saved. */
  function SubmitAsWritten(s: FormState, defaultPrompt: WorkspaceType -> string): (r: Option<WorkspaceRequest>)
    ensures r.Some? <==> IsValid(s)
    ensures r.Some? ==> r.value.prompt == WorkspacePrompt(defaultPrompt(s.workspaceType))
  {
    if !IsValid(s) then None
    else Some(WorkspaceRequest(s.name, s.description, s.workspaceType, s.chatModel,
                               WorkspacePrompt(defaultPrompt(s.workspaceType)), DataFor(s), RouterFor(s)))
  }

  /** `submit()` as intended: the form's own prompt template is sent. */
  function Submit(s: FormState): (r: Option<WorkspaceRequest>)
    ensures r.Some? <==> IsValid(s)
    ensures r.Some? ==> r.value.prompt == WorkspacePrompt(s.promptTemplate)
    ensures r.Some? ==> r.value.name == s.name && r.value.description == s.description && r.value.workspaceType == s.workspaceType
    ensures r.Some? ==> r.value.chatModel == s.chatModel && r.value.data == DataFor(s) && r.value.routerDefinition == RouterFor(s)
  {
    if !IsValid(s) then None
    else Some(WorkspaceRequest(s.name, s.description, s.workspaceType, s.chatModel,
                               WorkspacePrompt(s.promptTemplate), DataFor(s), RouterFor(s)))
  }

  /** The request stored by `createWorkspace`, which takes a chat model. */
  function StoreRequest(req: WorkspaceRequest, table: Table<Workspace>, userId: string, newId: string, now: int): (r: Option<Workspace>)
    ensures r.Some? <==> req.chatModel.Given?
    ensures r.Some? ==> r.value.workspaceId == newId && r.value.userId == userId && r.value.createdAt == now
    ensures r.Some? ==> r.value.dataImport == Some(DataImport(NotStarted, None))
    ensures r.Some? ==> && r.value.name == req.name && r.value.description == Some(req.description)
                        && r.value.workspaceType == req.workspaceType && r.value.prompt == Given(req.prompt)
                        && r.value.chatModel == req.chatModel && r.value.data == req.data
    ensures r.Some? ==> (r.value.routerDefinition.Given? <==> req.routerDefinition.Some?)
    ensures r.Some? && req.routerDefinition.Some? ==> r.value.routerDefinition.value == req.routerDefinition.value
  {
    if !req.chatModel.Given? then None
    else
      var input := WorkspaceStore.WorkspaceInput(req.name, Some(req.description), req.workspaceType, Some(req.prompt),
                                                 req.chatModel.value, req.routerDefinition, req.data);
      GetItem(WorkspaceStore.CreateWorkspace(table, userId, input, newId, now).0, newId)
  }

  /** As intended, a valid form with a chat model, once stored, reopens
      with the name, description, type and prompt template it was
      submitted with. */
  lemma SubmitStoreReopen(s: FormState, table: Table<Workspace>, userId: string, newId: string, now: int,
                          defaultPrompt: WorkspaceType -> string)
    requires IsValid(s) && s.chatModel.Given?
    ensures var reopened := InitialState(StoreRequest(Submit(s).value, table, userId, newId, now), defaultPrompt);
      && reopened.name == s.name && reopened.description == s.description
      && reopened.workspaceType == s.workspaceType && reopened.promptTemplate == s.promptTemplate
      && reopened.chatModel == s.chatModel
  {
  }

  /** As written, an edited template that differs from the default is lost:
      the stored workspace reopens with the default instead. */
  lemma EditedPromptIsLost(s: FormState, table: Table<Workspace>, userId: string, newId: string, now: int,
                           defaultPrompt: WorkspaceType -> string)
    requires IsValid(s) && s.chatModel.Given? && s.promptTemplate != defaultPrompt(s.workspaceType)
    ensures var reopened := InitialState(StoreRequest(SubmitAsWritten(s, defaultPrompt).value, table, userId, newId, now), defaultPrompt);
      reopened.promptTemplate == defaultPrompt(s.workspaceType) != s.promptTemplate
  {
  }
}

=== FILE: workspace_store.dfy ===
/** The workspace table (packages/galileo-sdk/src/chat/dynamodb/lib/workspace.ts)
    as a map from workspace id to workspace. Fresh ids and timestamps are
    parameters. */
module WorkspaceStore {
  import opened Wrappers
  import opened DdbTypes
  import opened EntityStore

  /** Every workspace is stored under its own id. */
  predicate KeyedById(table: Table<Workspace>)
  {
    forall k :: k in table ==> table[k].workspaceId == k
  }

  /** What `createWorkspace` is given: every field but the id, owner,
      creation time and import status. */
  datatype WorkspaceInput = WorkspaceInput(
    name: string,
    description: Option<string>,
    workspaceType: WorkspaceType,
    prompt: Option<WorkspacePrompt>,
    chatModel: ChatModel,
    routerDefinition: Option<RouterDefinition>,
    data: Option<DataDefinition>)

  function StoredOr<T>(v: Option<T>): Stored<T>
  {
    match v
    case Some(x) => Given(x)
    case None => Absent
  }

  /** `createWorkspace`: the input plus a fresh id, the creation time, the
      owner and a `NOT_STARTED` import; put under the new id. */
  function CreateWorkspace(table: Table<Workspace>, userId: string, input: WorkspaceInput, newId: string, now: int): (r: (Table<Workspace>, Workspace))
    ensures var w := r.1;
      && w.workspaceId == newId && w.createdAt == now && w.userId == userId
      && w.dataImport == Some(DataImport(NotStarted, None))
      && w.name == input.name && w.description == input.description && w.workspaceType == input.workspaceType
      && w.chatModel == Given(input.chatModel) && w.data == input.data
      && (w.prompt.Given? <==> input.prompt.Some?) && (input.prompt.Some? ==> w.prompt.value == input.prompt.value)
      && (w.routerDefinition.Given? <==> input.routerDefinition.Some?)
      && (input.routerDefinition.Some? ==> w.routerDefinition.value == input.routerDefinition.value)
    ensures r.0.Keys == table.Keys + {newId} && r.0[newId] == r.1
    ensures forall k :: k in table && k != newId ==> r.0[k] == table[k]
  {
    var w := Workspace(newId, input.name, input.description, userId, now, input.workspaceType,
                       StoredOr(input.prompt), Given(input.chatModel), StoredOr(input.routerDefinition),
                       input.data, Some(DataImport(NotStarted, None)));
    (table[newId := w], w)
  }

  /** What `updateWorkspace` is given. */
  datatype WorkspaceUpdate = WorkspaceUpdate(
    name: string,
    description: Option<string>,
    prompt: Option<WorkspacePrompt>,
    chatModel: Option<ChatModel>,
    routerDefinition: Option<RouterDefinition>)

  /** `value || {}` for an object attribute. */
  function OrEmptyObject<T>(v: Option<T>): Stored<T>
  {
    match v
    case Some(x) => Given(x)
    case None => EmptyObject
  }

  /** `updateWorkspace`: conditional on the id existing; sets the name, the
      description (or ""), and the prompt, chat model and router definition
      (each or `{}`); returns the whole new item. */
  function UpdateWorkspace(table: Table<Workspace>, id: string, data: WorkspaceUpdate): (r: Result<(Table<Workspace>, Workspace)>)
    ensures id !in table <==> r.Err?
    ensures r.Err? ==> r.error == CONDITIONAL_CHECK_FAILED
    ensures r.Ok? ==> r.value.0.Keys == table.Keys && r.value.0[id] == r.value.1
    ensures r.Ok? ==> forall k :: k in table && k != id ==> r.value.0[k] == table[k]
    ensures r.Ok? ==> var old_, new_ := table[id], r.value.1;
      && new_.workspaceId == old_.workspaceId && new_.userId == old_.userId && new_.createdAt == old_.createdAt
      && new_.workspaceType == old_.workspaceType && new_.data == old_.data && new_.dataImport == old_.dataImport
      && new_.name == data.name
      && (data.description.Some? && data.description.value != "" ==> new_.description == data.description)
      && (data.description.None? || data.description.value == "" ==> new_.description == Some(""))
      && (new_.prompt.Given? <==> data.prompt.Some?) && (new_.prompt.Given? ==> new_.prompt.value == data.prompt.value)
      && (new_.chatModel.Given? <==> data.chatModel.Some?) && (new_.chatModel.Given? ==> new_.chatModel.value == data.chatModel.value)
      && (new_.routerDefinition.Given? <==> data.routerDefinition.Some?)
      && (new_.routerDefinition.Given? ==> new_.routerDefinition.value == data.routerDefinition.value)
      && !new_.prompt.Absent? && !new_.chatModel.Absent? && !new_.routerDefinition.Absent?
  {
    if id !in table then Err(CONDITIONAL_CHECK_FAILED)
    else
      var w := table[id].(
        name := data.name,
        description := Some(if data.description.Some? && data.description.value != "" then data.description.value else ""),
        prompt := OrEmptyObject(data.prompt),
        chatModel := OrEmptyObject(data.chatModel),
        routerDefinition := OrEmptyObject(data.routerDefinition));
      Ok((table[id := w], w))
  }

  /** Creating, updating and deleting keep every workspace under its own id;
      a created workspace is then found by its id, and a deleted one is not. */
  lemma OperationsKeepKeying(table: Table<Workspace>, userId: string, input: WorkspaceInput, newId: string, now: int,
                             id: string, data: WorkspaceUpdate)
    requires KeyedById(table)
    ensures KeyedById(CreateWorkspace(table, userId, input, newId, now).0)
    ensures GetItem(CreateWorkspace(table, userId, input, newId, now).0, newId) == Some(CreateWorkspace(table, userId, input, newId, now).1)
    ensures UpdateWorkspace(table, id, data).Ok? ==> KeyedById(UpdateWorkspace(table, id, data).value.0)
    ensures KeyedById(DeleteItem(table, id).0)
    ensures GetItem(DeleteItem(table, id).0, id).None?
  {
  }
}

=== FILE: workspaces_hooks.dfy ===
/** The website's workspace queries (demo/website/src/hooks/workspaces.ts):
    fetching several workspaces in batches of ten, and listing workflows and
    workspaces together one page at a time, each list following its own
    continuation token. The API calls are parameters. */
module WorkspacesHooks {
  import opened Wrappers
  import opened Lists

  const BATCH_SIZE: nat := 10

  /** `Promise.all(ids.map(get))`: every item in request order, or the first
      failure in request order. */
  function FetchAll<W>(ids: seq<string>, get: string -> Result<W>): (r: Result<seq<W>>)
    ensures r.Ok? <==> forall i :: 0 <= i < |ids| ==> get(ids[i]).Ok?
    ensures r.Ok? ==> |r.value| == |ids| && forall i :: 0 <= i < |ids| ==> r.value[i] == get(ids[i]).value
  {
    if ids == [] then Ok([])
    else
      assert forall i :: 1 <= i < |ids| ==> ids[1..][i - 1] == ids[i];
      var first :- get(ids[0]);
      var rest :- FetchAll(ids[1..], get);
      var r := [first] + rest;
      assert forall i :: 1 <= i < |ids| ==> r[i] == rest[i - 1];
      Ok(r)
  }

  /** Fetching `a + c` is fetching `a`, then `c`, stopping at the first
      failure. */
  lemma {:induction false} FetchAllAppend<W>(a: seq<string>, c: seq<string>, get: string -> Result<W>)
    ensures FetchAll(a + c, get) ==
      if FetchAll(a, get).Err? then FetchAll(a, get)
      else if FetchAll(c, get).Err? then FetchAll(c, get)
      else Ok(FetchAll(a, get).value + FetchAll(c, get).value)
  {
    if a == [] {
      assert a + c == c;
      if FetchAll(c, get).Ok? {
        assert [] + FetchAll(c, get).value == FetchAll(c, get).value;
      }
    } else {
      assert (a + c)[0] == a[0];
      assert (a + c)[1..] == a[1..] + c;
      FetchAllAppend(a[1..], c, get);
      if get(a[0]).Ok? && FetchAll(a[1..], get).Ok? && FetchAll(c, get).Ok? {
        assert [get(a[0]).value] + (FetchAll(a[1..], get).value + FetchAll(c, get).value)
            == ([get(a[0]).value] + FetchAll(a[1..], get).value) + FetchAll(c, get).value;
      }
    }
  }

  /** `useBatchGetWorkspaces(workspaceIds)`'s query: the ids in chunks of
      ten, each chunk fetched together and appended in order. A failing
      chunk ends the query, and the result is the same as fetching every id
      at once. */
  method BatchGetWorkspaces<W>(ids: seq<string>, get: string -> Result<W>) returns (r: Result<seq<W>>)
    ensures r == FetchAll(ids, get)
  {
    var batches := Chunks(ids, BATCH_SIZE);
    var fetched: seq<W> := [];
    var b := 0;
    while b < |batches|
      invariant 0 <= b <= |batches|
      invariant FetchAll(Flatten(batches[..b]), get) == Ok(fetched)
    {
      var got := FetchAll(batches[b], get);
      PrefixSplit(batches, b);
      FetchAllAppend(Flatten(batches[..b]), batches[b], get);
      FetchAllAppend(Flatten(batches[..b + 1]), Flatten(batches[b + 1..]), get);
      if got.Err? {
        return Err(got.error);
      }
      fetched := fetched + got.value;
      b := b + 1;
    }
    assert batches[..b] == batches;
    r := Ok(fetched);
  }

  /** The chunks up to `b + 1` flatten to those up to `b` and chunk `b`,
      and together with the remaining chunks to the whole. */
  lemma PrefixSplit<T>(batches: seq<seq<T>>, b: nat)
    requires b < |batches|
    ensures Flatten(batches[..b + 1]) == Flatten(batches[..b]) + batches[b]
    ensures Flatten(batches) == Flatten(batches[..b + 1]) + Flatten(batches[b + 1..])
  {
    PrefixSnoc(batches, b);
    PrefixRest(batches, b + 1);
  }

  lemma PrefixSnoc<T>(batches: seq<seq<T>>, b: nat)
    requires b < |batches|
    ensures Flatten(batches[..b + 1]) == Flatten(batches[..b]) + batches[b]
  {
    FlattenSnoc(batches[..b], batches[b]);
    assert batches[..b] + [batches[b]] == batches[..b + 1];
  }

  lemma PrefixRest<T>(batches: seq<seq<T>>, b: nat)
    requires b <= |batches|
    ensures Flatten(batches) == Flatten(batches[..b]) + Flatten(batches[b..])
  {
    FlattenAppend(batches[..b], batches[b..]);
    assert batches[..b] + batches[b..] == batches;
  }

  lemma FlattenSnoc<T>(ss: seq<seq<T>>, x: seq<T>)
    ensures Flatten(ss + [x]) == Flatten(ss) + x
  {
    FlattenAppend(ss, [x]);
    FlattenCons(x, []);
    assert [x] + [] == [x];
    assert x + [] == x;
  }

  /** The infinite query's page parameter: the continuation token of each
      list. */
  datatype PageParam = PageParam(workspaces: Option<string>, workflows: Option<string>)

  /** A list response: one page of items and the token of the next one. */
  datatype Listing<T> = Listing(items: seq<T>, nextToken: Option<string>)

  /** One page of the combined listing. A list that was not fetched for the
      page is `None`. */
  datatype Page<F, S> = Page(workflows: Option<Listing<F>>, workspaces: Option<Listing<S>>, combined: seq<Entry<F, S>>)

  datatype Entry<F, S> = WorkflowEntry(workflow: F) | WorkspaceEntry(workspace: S)

  predicate TokenTruthy(t: Option<string>)
  {
    t.Some? && t.value != ""
  }

  /** `fetchIfApplicable(key, …)`: the first page fetches both lists; later
      pages fetch a list only while it has a token. */
  predicate FetchIfApplicable(pageParam: Option<PageParam>, key: string)
  {
    pageParam.None?
    || (key == "workflows" && TokenTruthy(pageParam.value.workflows))
    || (key == "workspaces" && TokenTruthy(pageParam.value.workspaces))
  }

  function Token(pageParam: Option<PageParam>, key: string): Option<string>
  {
    if pageParam.None? then None
    else if key == "workflows" then pageParam.value.workflows
    else pageParam.value.workspaces
  }

  function Entries<F, S>(workflows: Option<Listing<F>>, workspaces: Option<Listing<S>>): (es: seq<Entry<F, S>>)
    ensures |es| == (if workflows.Some? then |workflows.value.items| else 0) + (if workspaces.Some? then |workspaces.value.items| else 0)
    ensures forall i :: 0 <= i < |es| ==>
      (es[i].WorkflowEntry? <==> workflows.Some? && i < |workflows.value.items|)
    ensures workflows.Some? ==> forall i :: 0 <= i < |workflows.value.items| ==> es[i] == WorkflowEntry(workflows.value.items[i])
    ensures workspaces.Some? ==> var offset := if workflows.Some? then |workflows.value.items| else 0;
      forall i :: 0 <= i < |workspaces.value.items| ==> es[offset + i] == WorkspaceEntry(workspaces.value.items[i])
  {
    var fs := if workflows.Some? then workflows.value.items else [];
    var ss := if workspaces.Some? then workspaces.value.items else [];
    seq(|fs|, i requires 0 <= i < |fs| => WorkflowEntry(fs[i])) + seq(|ss|, i requires 0 <= i < |ss| => WorkspaceEntry(ss[i]))
  }

  /** The page query: each applicable list is fetched with its token; the
      combined list is the workflows, then the workspaces. A failure of
      either call fails the page (the workflows call's first). */
  function ListPage<F, S>(pageParam: Option<PageParam>,
                          listWorkflows: Option<string> -> Result<Listing<F>>,
                          listWorkspaces: Option<string> -> Result<Listing<S>>): (r: Result<Page<F, S>>)
    ensures FetchIfApplicable(pageParam, "workflows") && listWorkflows(Token(pageParam, "workflows")).Err? ==> r.Err?
    ensures FetchIfApplicable(pageParam, "workspaces") && listWorkspaces(Token(pageParam, "workspaces")).Err? ==> r.Err?
    ensures r.Ok? ==> (r.value.workflows.Some? <==> FetchIfApplicable(pageParam, "workflows"))
    ensures r.Ok? ==> (r.value.workspaces.Some? <==> FetchIfApplicable(pageParam, "workspaces"))
    ensures r.Ok? && r.value.workflows.Some? ==> r.value.workflows == Some(listWorkflows(Token(pageParam, "workflows")).value)
    ensures r.Ok? && r.value.workspaces.Some? ==> r.value.workspaces == Some(listWorkspaces(Token(pageParam, "workspaces")).value)
    ensures r.Ok? ==> r.value.combined == Entries(r.value.workflows, r.value.workspaces)
  {
    var workflows :- if FetchIfApplicable(pageParam, "workflows") then
                       var l :- listWorkflows(Token(pageParam, "workflows")); Ok(Some(l))
                     else Ok(None);
    var workspaces :- if FetchIfApplicable(pageParam, "workspaces") then
                        var l :- listWorkspaces(Token(pageParam, "workspaces")); Ok(Some(l))
                      else Ok(None);
    Ok(Page(workflows, workspaces, Entries(workflows, workspaces)))
  }

  function NextToken<T>(l: Option<Listing<T>>): Option<string>
  {
    if l.Some? then l.value.nextToken else None
  }

  /** `getNextPageParam(res)`: no further page once neither list has a
      token; otherwise both tokens. */
  function GetNextPageParam<F, S>(page: Page<F, S>): (p: Option<PageParam>)
    ensures p.None? <==> !TokenTruthy(NextToken(page.workflows)) && !TokenTruthy(NextToken(page.workspaces))
    ensures p.Some? ==> p.value.workflows == NextToken(page.workflows) && p.value.workspaces == NextToken(page.workspaces)
  {
    if !TokenTruthy(NextToken(page.workflows)) && !TokenTruthy(NextToken(page.workspaces)) then None
    else Some(PageParam(NextToken(page.workspaces), NextToken(page.workflows)))
  }

  /** After a page, a list is fetched again exactly when that page returned
      a token for it: an exhausted list, or one the page skipped, is never
      re-fetched from the start. */
  lemma NextPageFetchesOnlyContinuedLists<F, S>(page: Page<F, S>)
    requires GetNextPageParam(page).Some?
    ensures FetchIfApplicable(GetNextPageParam(page), "workflows") <==> TokenTruthy(NextToken(page.workflows))
    ensures FetchIfApplicable(GetNextPageParam(page), "workspaces") <==> TokenTruthy(NextToken(page.workspaces))
    ensures Token(GetNextPageParam(page), "workflows") == NextToken(page.workflows)
    ensures Token(GetNextPageParam(page), "workspaces") == NextToken(page.workspaces)
  {
  }
}

=== FILE: wrappers.dfy ===
/** Failure-compatible wrappers shared by every module of the model.

    `Option` stands for a JavaScript value that may be `undefined`; `Result`
    stands for a computation that may throw, the error being the message of the
    thrown `Error`. */
module Wrappers {

  datatype Option<+T> = None | Some(value: T) {

    predicate IsFailure() {
      None?
    }

    function PropagateFailure<U>(): Option<U>
      requires None?
    {
      None
    }

    function Extract(): T
      requires Some?
    {
      value
    }

    /** `x ?? default` */
    function GetOr(default: T): T {
      match this
      case Some(v) => v
      case None => default
    }
  }

  datatype Result<+T> = Ok(value: T) | Err(error: string) {

    predicate IsFailure() {
      Err?
    }

    function PropagateFailure<U>(): Result<U>
      requires Err?
    {
      Err(error)
    }

    function Extract(): T
      requires Ok?
    {
      value
    }
  }
}

=== FILE: ws_chats.dfy ===
/** The chat page's websocket state (demo/website/src/hooks/ws-chats.ts):
    whether responses are streamed, and the messages of a question still
    being answered, as inference status updates arrive. */
module WsChats {
  import opened Wrappers
  import opened JsonValue
  import opened ModelTypes
  import opened DdbTypes

  /** `useUseStreaming()`. The framework check is evaluated first and
      throws when the selected model's inventory entry has no framework;
      otherwise streaming needs the feature flag, a Bedrock model, and a
      `useStreaming` option that is unset or truthy. */
  function UseStreaming(flag: bool, uuid: Value, models: Value, useStreaming: Value): (r: Result<bool>)
    ensures r.Err? <==>
      Truthy(uuid) && Truthy(models) && !Nullish(Property(models, ToJsString(uuid)))
      && Nullish(Property(Property(models, ToJsString(uuid)), "framework"))
    ensures r == Ok(true) <==>
      && flag && Truthy(uuid) && Truthy(models)
      && IsBedrockFramework(Property(Property(models, ToJsString(uuid)), "framework"))
      && (useStreaming.Undefined? || Truthy(useStreaming))
  {
    var isBedrock :- IsBedrockModel(uuid, models);
    Ok(flag && isBedrock && (useStreaming.Undefined? || Truthy(useStreaming)))
  }

  /** `uuid && models && models[uuid]?.framework.type === "Bedrock"`. */
  function IsBedrockModel(uuid: Value, models: Value): Result<bool>
  {
    if !Truthy(uuid) || !Truthy(models) then Ok(false)
    else
      var entry := Property(models, ToJsString(uuid));
      if Nullish(entry) then Ok(false)
      else
        var framework := Property(entry, "framework");
        if Nullish(framework) then Err("Cannot read properties of " + ToJsString(framework) + " (reading 'type')")
        else Ok(IsBedrockFramework(framework))
  }

  /** A chat message as the page shows it. `text` is the status payload,
      whatever it holds. */
  datatype Message = Message(chatId: string, createdAt: int, messageId: string, text: Value, messageType: MessageType)

  /** `UpdateInferenceStatusRequestContent`. */
  datatype StatusUpdate = StatusUpdate(chatId: string, operation: string, status: string, messageId: string, payload: Value)

  /** `InprogressMessages`. */
  datatype Inprogress = Inprogress(human: Option<Message>, ai: Option<Message>, statusUpdates: seq<StatusUpdate>)

  const SEND_MESSAGE_OPERATION: string := "HandleSendMessage"

  predicate Starting(u: StatusUpdate) { u.operation == SEND_MESSAGE_OPERATION && u.status == "STARTING" }

  predicate Succeeded(u: StatusUpdate) { u.operation == SEND_MESSAGE_OPERATION && u.status == "SUCCESS" }

  /** The status-update handler of `useInprogressMessages(chatId)`: updates
      for other chats are ignored; an update is recorded on an existing
      in-progress state; STARTING creates the state when there is none (with
      an empty ai message for the update's message id and no recorded
      updates) and sets the human message to the payload; SUCCESS clears it.
      `now` is the clock and `freshId` the generated message id. */
  function OnStatusUpdate(state: Option<Inprogress>, chatId: string, u: StatusUpdate, now: int, freshId: string): (next: Option<Inprogress>)
    ensures u.chatId != chatId ==> next == state
    ensures u.chatId == chatId && Succeeded(u) ==> next.None?
    ensures u.chatId == chatId && Starting(u) ==>
      && next.Some?
      && next.value.human == Some(Message(chatId, now, freshId, u.payload, Human))
      && (state.Some? ==> next.value.ai == state.value.ai && next.value.statusUpdates == state.value.statusUpdates + [u])
      && (state.None? ==> next.value.ai == Some(Message(chatId, now, u.messageId, Str(""), Ai)) && next.value.statusUpdates == [])
    ensures u.chatId == chatId && !Starting(u) && !Succeeded(u) ==>
      && (state.None? ==> next.None?)
      && (state.Some? ==> next == Some(state.value.(statusUpdates := state.value.statusUpdates + [u])))
  {
    if u.chatId != chatId then state
    else
      var recorded := if state.Some? then Some(state.value.(statusUpdates := state.value.statusUpdates + [u])) else None;
      if Starting(u) then
        var draft := if recorded.Some? then recorded.value
                     else Inprogress(None, Some(Message(chatId, now, u.messageId, Str(""), Ai)), []);
        Some(draft.(human := Some(Message(chatId, now, freshId, u.payload, Human))))
      else if Succeeded(u) then None
      else recorded
  }

  /** The handler applied to a stream of updates, with one clock reading
      and one generated id per update. */
  function Replay(state: Option<Inprogress>, chatId: string, us: seq<StatusUpdate>, now: seq<int>, ids: seq<string>): Option<Inprogress>
    requires |now| == |us| && |ids| == |us|
    decreases |us|
  {
    if us == [] then state
    else Replay(OnStatusUpdate(state, chatId, us[0], now[0], ids[0]), chatId, us[1..], now[1..], ids[1..])
  }

  /** Updates for other chats never disturb the page's state. */
  lemma {:induction false} OtherChatsIgnored(state: Option<Inprogress>, chatId: string, us: seq<StatusUpdate>, now: seq<int>, ids: seq<string>)
    requires |now| == |us| && |ids| == |us|
    requires forall j :: 0 <= j < |us| ==> us[j].chatId != chatId
    ensures Replay(state, chatId, us, now, ids) == state
    decreases |us|
  {
    if us != [] {
      assert forall j :: 0 <= j < |us| - 1 ==> us[1..][j] == us[j + 1];
      OtherChatsIgnored(state, chatId, us[1..], now[1..], ids[1..]);
    }
  }

  /** Between a state's creation and a SUCCESS, the recorded updates only
      grow, and the ai message stays the one it was created with. */
  lemma {:induction false} RecordedUpdatesGrow(s: Inprogress, chatId: string, us: seq<StatusUpdate>, now: seq<int>, ids: seq<string>)
    requires |now| == |us| && |ids| == |us|
    requires forall j :: 0 <= j < |us| ==> !Succeeded(us[j])
    ensures var r := Replay(Some(s), chatId, us, now, ids);
      && r.Some?
      && r.value.ai == s.ai
      && |s.statusUpdates| <= |r.value.statusUpdates|
      && r.value.statusUpdates[..|s.statusUpdates|] == s.statusUpdates
    decreases |us|
  {
    if us != [] {
      var next := OnStatusUpdate(Some(s), chatId, us[0], now[0], ids[0]);
      assert next.Some? && next.value.ai == s.ai;
      assert |s.statusUpdates| <= |next.value.statusUpdates| && next.value.statusUpdates[..|s.statusUpdates|] == s.statusUpdates;
      assert forall j :: 0 <= j < |us| - 1 ==> us[1..][j] == us[j + 1];
      RecordedUpdatesGrow(next.value, chatId, us[1..], now[1..], ids[1..]);
      var r := Replay(next, chatId, us[1..], now[1..], ids[1..]);
      assert r.value.statusUpdates[..|next.value.statusUpdates|] == next.value.statusUpdates;
      assert r.value.statusUpdates[..|s.statusUpdates|] == r.value.statusUpdates[..|next.value.statusUpdates|][..|s.statusUpdates|];
    }
  }
}
